=== FILE: README.md ===
# NVR core model

A Dafny model of the core of a small network video recorder that runs on a
Raspberry Pi. The recorder:

- discovers IP cameras on the local network, by WS-Discovery replies and by
  scanning subnets for an open RTSP port;
- picks a working RTSP URL for each camera from URL templates and keeps one
  capture worker per camera;
- downsizes frames and hands them to a callback;
- detects objects with MobileNet-SSD and groups them into vehicles, pets and
  people;
- when it meets an unknown subject, sends a WhatsApp notification. The owner
  then labels the subject through a WhatsApp conversation, and the newest
  unknown snapshot is filed under the known dataset;
- stores short "capture sessions" that save a burst of numbered samples of a
  subject just labelled.

Everything the program does through the outside world is an input here:

| outside world | how the model receives it |
|---|---|
| sockets, the RTSP probe, `ipaddress` address checks | oracles |
| `cv2` captures | traces of read results |
| the clock | a `real` `now` |
| the JSON session file | a `Document` value |
| the directory listing of unknown snapshots, and whether the file operations succeed | an `Archive` of oracles |
| Twilio | a flag saying whether the send raises `TwilioRestException` |

The modules follow the source files:

| module | file | models |
|---|---|---|
| `Wrappers` | `wrappers.dfy` | `Option` |
| `Text` | `text.dfy` | the Python string operations the core relies on: ASCII `strip`, `split`, `join`, `lower`, `find`, `rsplit`, the `{count:03d}` formatting. Each comes with its round-trip lemmas. |
| `CaptureSession` | `capture_session.dfy` | `src/core/capture_session.py` |
| `StreamWorker` | `stream_worker.dfy` | `src/core/stream_worker.py` |
| `CameraManager` | `camera_manager.dfy` | `src/core/camera_manager.py`: `str.format` on the URL templates, candidate building, RTSP selection, worker reconciliation, `stop` |
| `CameraDiscovery` | `camera_discovery.dfy` | `src/core/camera_discovery.py` |
| `LabelingWebhook` | `labeling_webhook.dfy` | `scripts/webhook_whatsapp.py`: the step machine and `move_and_rename` |
| `WhatsAppBot` | `whatsapp_bot.dfy` | `src/actions/whatsapp_bot.py` |
| `ObjectDetection` | `object_detection.dfy` | `src/vision/object_detection.py` |

## Model

| member | source | states |
|---|---|---|
| CaptureSession.LoadSessions | src/core/capture_session.py:9-15 | A missing or unreadable session file reads as the empty store; a parsed file is taken as it is. |
| CaptureSession.StartSession | src/core/capture_session.py:23-36 | Starting a session stores a fresh record under `category:camera` with count 0 and the current time; every other session is left as it was. |
| CaptureSession.IsActive | src/core/capture_session.py:39-47 | A session is active exactly when it exists, has not reached its image quota, and was updated no more than `ttl_sec` ago. |
| CaptureSession.Touch | src/core/capture_session.py:50-55 | Touching refreshes only the named session's timestamp; an unknown key changes nothing. |
| CaptureSession.SubjectToken | src/core/capture_session.py:73 | The subject directory is the part of the base name before its first `_`. |
| CaptureSession.SampleDestination | src/core/capture_session.py:72-84 | A sample goes to `data/{category}/known/{subject}`. |
| CaptureSession.AppendedStore | src/core/capture_session.py:63-87 | The store is written back only when the session is active and the copy succeeds; then only that session changes, its count up by one and its timestamp set to now. The quota invariant is kept. |
| CaptureSession.AppendImage | src/core/capture_session.py:58-90 | A destination is chosen exactly when the session is active. The append succeeds exactly when it is active and the copy succeeds. A failed append leaves the store untouched; a successful one raises the count by one. The quota invariant is kept. |
| CaptureSession.OperationsKeepQuota | src/core/capture_session.py:23-90 | Starting, touching and appending all keep every session's count within its quota. |
| CaptureSession.QuotaExhaustedIsFinal | src/core/capture_session.py:45-46 | Once a session has reached its quota, no touch reactivates it and no append succeeds. |
| CaptureSession.ExpiredIsInactive | src/core/capture_session.py:47 | A session older than its TTL is inactive. |
| CaptureSession.StartedSessionIsActive | src/core/capture_session.py:23-47 | Right after a start, the session is active exactly when its quota is positive and its TTL is not negative, whatever the key held before. |
| CaptureSession.FreshSessionOfThree | src/core/capture_session.py:23-90 | Four quick appends to a fresh session of quota 3: the first three are samples 1, 2 and 3, and the fourth is rejected. |
| CaptureSession.BurstFillsQuota | src/core/capture_session.py:58-90 | A burst of appends within the TTL saves exactly min(n, remaining quota) samples, and the session then stops accepting. |
| CaptureSession.SampleFileNameWithExtension | src/core/capture_session.py:77-82 | `stem.ext` becomes `stem_NNN.ext`, splitting at the last dot. |
| CaptureSession.SampleFileNameWithoutDot | src/core/capture_session.py:77-82 | A base name without a dot gets `_NNN.png` appended: `{base_name}_{count:03d}.png`. |
| CaptureSession.SampleFileNamesDistinct | src/core/capture_session.py:77-82 | Different counts give different sample names, so no sample of a session overwrites another. |
| CaptureSession.PngSampleName | src/core/capture_session.py:77-82 | The `n`-th sample of `stem.png` is `stem_` followed by `n` zero-padded to three digits and `.png`. |
| CaptureSession.FirstPngSampleName | src/core/capture_session.py:80 | The first sample of `stem.png` is `stem_001.png`. |
| CaptureSession.JuanSubject | src/core/capture_session.py:73 | Samples of a base name `juan_...` go to the subject directory `juan`. |
| StreamWorker.Stop | src/core/stream_worker.py:36-37 | Stopping sets the stop event and changes nothing else about the worker. |
| StreamWorker.DispatchOf | src/core/stream_worker.py:25-27 | A frame larger than 960 on some side is halved by floor division on both sides; other frames keep their size. |
| StreamWorker.RunLoop | src/core/stream_worker.py:16-34 | The imperative loop agrees with the reference semantics `Run`. A capture that does not open reads nothing, dispatches nothing and releases nothing. |
| StreamWorker.ServeStep | src/core/stream_worker.py:20-32 | One loop iteration: a failed read is skipped, a good frame is dispatched, and a frame `cv2.resize` rejects ends the thread. |
| StreamWorker.NoReadAfterStop | src/core/stream_worker.py:20-21 | Every read happens before the first stop signal, and a stopped loop stopped exactly there. |
| StreamWorker.DispatchesCarryCamera | src/core/stream_worker.py:29 | Every callback receives the worker's own camera. |
| StreamWorker.FailedReadIsSkipped | src/core/stream_worker.py:22-24 | A failed read dispatches nothing and does not end the loop; only the read count changes. |
| StreamWorker.CallbackErrorsAreSwallowed | src/core/stream_worker.py:28-32 | A run is the same whether or not the callback raises. |
| StreamWorker.OpenFailureEndsRun | src/core/stream_worker.py:17-19 | A capture that does not open ends the worker at once: nothing is read or dispatched, and the capture is not released. |
| StreamWorker.DispatchedWithinLimit | src/core/stream_worker.py:26-27 | Frames up to 1921 pixels on a side reach the callback within 960 x 960. |
| CameraManager.Credential | src/core/camera_manager.py:20-21 | A credential is the configured value, or empty when it is missing or null. |
| CameraManager.FieldNamed | src/core/camera_manager.py:24 | The templates may name exactly the fields `user`, `pass` and `ip`. |
| CameraManager.FormatFailureIgnoresValues | src/core/camera_manager.py:24 | Whether a template is malformed depends only on the template, not on the values substituted. |
| CameraManager.FormatRendered | src/core/camera_manager.py:24 | Formatting a rendered template, with literal text escaped and slots named, substitutes every slot: `format` inverts the template rendering. |
| CameraManager.FormatAll | src/core/camera_manager.py:23-24 | All templates format exactly when none is malformed, and each result is its own template's formatting. |
| CameraManager.BuildCandidates | src/core/camera_manager.py:19-27 | Candidates are the formatted templates in order. With no templates there is one candidate, `rtsp://{ip}:554`. Any malformed template is an error. |
| CameraManager.FirstAccepted | src/core/camera_manager.py:48-50 | The first candidate the probe accepts; none exactly when the probe rejects them all. |
| CameraManager.SelectRtsp | src/core/camera_manager.py:47-51 | Selection fails on a malformed template. It picks an accepted candidate with every earlier candidate rejected, or none when all are rejected. |
| CameraManager.SelectFirst | src/core/camera_manager.py:47-51 | The loop probes candidates in order up to the first accepted one and returns it. |
| CameraManager.Endpoint | src/core/camera_manager.py:71-73 | A worker is started only for a non-empty selected URL. |
| CameraManager.Reconcile | src/core/camera_manager.py:61-76 | After reconciliation, only discovered cameras have workers. Vanished cameras are stopped and removed; kept workers are untouched. New cameras get a worker exactly when an endpoint is selected. A malformed template aborts the pass once a new camera is met. |
| CameraManager.RetireMissing | src/core/camera_manager.py:63-67 | The removal loop keeps the discovered cameras and stops the rest. |
| CameraManager.StartOne | src/core/camera_manager.py:70-76 | A new camera gets a worker exactly when its endpoint is selected; a malformed template raises. |
| CameraManager.StartNew | src/core/camera_manager.py:68-76 | The start loop adds exactly the workers `Reconcile` describes, or stops at the first malformed template. |
| CameraManager.SyncWorkers | src/core/camera_manager.py:61-76 | The imperative reconciliation agrees with `Reconcile`. |
| CameraManager.Stop | src/core/camera_manager.py:78-81 | Stopping sets the manager's stop event and the stop event of every registered worker; the registry's cameras stay. |
| CameraManager.RegistryKeys | src/core/camera_manager.py:61-76 | Without an error, the cameras with workers are the kept cameras plus the new ones with a selected endpoint. |
| CameraManager.RetriedNextCycle | src/core/camera_manager.py:70-73 | A camera with no working URL is not registered, so the next pass probes it again. |
| CameraManager.AppearThenLeave | src/core/camera_manager.py:61-76 | A camera that appears gets a worker; when it disappears, that same worker is stopped and removed. |
| CameraManager.StopIsIdempotent | src/core/camera_manager.py:78-81 | Stopping twice is the same as stopping once. |
| CameraDiscovery.OctetValues | src/core/camera_discovery.py:29 | A dotted-quad address has four octets, each at most 255. |
| CameraDiscovery.DottedIsIpv4 | src/core/camera_discovery.py:29 | Four octets printed with dots form a valid IPv4 address that reads back as the same octets. |
| CameraDiscovery.Ipv4IsDotted | src/core/camera_discovery.py:29 | Every valid IPv4 address is its octets printed with dots (the other direction of the round trip). |
| CameraDiscovery.Ipv4Characters | src/core/camera_discovery.py:42-43 | An IPv4 address has no whitespace, `/` or `:`, so the host extraction cannot cut it. |
| CameraDiscovery.TokenIps | src/core/camera_discovery.py:27-32 | The token pass keeps exactly the whitespace-separated words that are IP addresses. |
| CameraDiscovery.HostOf | src/core/camera_discovery.py:42-43 | A host taken from a URL has no `/` or `:`. |
| CameraDiscovery.HostOfUrl | src/core/camera_discovery.py:42-43 | `scheme//host:port/path` yields `host`. |
| CameraDiscovery.AddressTextOf | src/core/camera_discovery.py:37-40 | The text between the first `>` and the next `<` after an `XAddrs` marker is what is searched for URLs. |
| CameraDiscovery.SegmentHosts | src/core/camera_discovery.py:36-48 | Hosts found after an `XAddrs` marker are IP addresses, and there are none without a `>`..`<` pair. |
| CameraDiscovery.HostsOfSegments | src/core/camera_discovery.py:35-48 | The hosts of a reply are the union of those found after each `XAddrs` marker. |
| CameraDiscovery.ParseIps | src/core/camera_discovery.py:24-49 | Every result is an IP address; every IP token is included; without `XAddrs` only tokens count; with it, the hosts after each marker are added. |
| CameraDiscovery.ListedHostFound | src/core/camera_discovery.py:36-48 | A listed URL whose host is an IP address is found. |
| CameraDiscovery.TokenAddressFound | src/core/camera_discovery.py:27-32 | An IP address that stands as a word of the reply is found. |
| CameraDiscovery.WsDiscovery | src/core/camera_discovery.py:66-82 | The WS-Discovery result is the union of what each reply parses to. |
| CameraDiscovery.ScanRtspSubnet | src/core/camera_discovery.py:84-94 | A subnet that does not parse yields nothing; otherwise the result is exactly the hosts with port 554 open. |
| CameraDiscovery.ScanAll | src/core/camera_discovery.py:62-63 | The scan result is the union over all configured subnets. |
| CameraDiscovery.DiscoverIps | src/core/camera_discovery.py:58-64 | A camera is discovered exactly when a WS-Discovery reply names it (when enabled) or a subnet scan finds it. |
| LabelingWebhook.Choice | scripts/webhook_whatsapp.py:154-160 | A menu reply selects option k exactly when it is the single digit k+1 and k is within the menu. |
| LabelingWebhook.Slug | scripts/webhook_whatsapp.py:164 | The lower-cased name with spaces replaced keeps its length and contains no space. |
| LabelingWebhook.CameraTag | scripts/webhook_whatsapp.py:163-164 | The camera part of a file name contains no dot. |
| LabelingWebhook.MoveAndRename | scripts/webhook_whatsapp.py:34-51 | Nothing moves when the source is missing. Otherwise the file goes to `data/{category}/known/{prefix}/{new name}`, where the prefix is the new name up to its first `_`; the call raises exactly when the source exists and the directory creation, copy or unlink fails. |
| LabelingWebhook.FileNewest | scripts/webhook_whatsapp.py:166-176 | There is no filing exactly when the category has no unknown snapshot. Otherwise the newest snapshot's path is the source; when it exists, the move goes to `move_and_rename`'s destination and raises exactly when the file operations fail. |
| LabelingWebhook.Finish | scripts/webhook_whatsapp.py:163-180 | Filing names the file `_{camera}.png` at the end and answers according to the filing. It ends the conversation, except when the file operations raise: then the pop is not reached and the sender keeps the conversation as updated by the answer. |
| LabelingWebhook.OnInitial | scripts/webhook_whatsapp.py:91-110 | From the initial state, the alarm fires exactly on reply `2`. |
| LabelingWebhook.Dispatch | scripts/webhook_whatsapp.py:87-324 | A stored conversation takes the step its `step` names. The step touches only the sender's conversation and keeps every conversation well formed. The alarm fires exactly on `2` at the initial step. A filed name ends with the sender's camera tag. |
| LabelingWebhook.Receive | scripts/webhook_whatsapp.py:74-324 | One call touches only the sender's conversation and keeps every conversation well formed. The alarm fires exactly on `2` from the initial state. Every filed name ends with the sender's camera tag. |
| LabelingWebhook.BlankMessageIgnored | scripts/webhook_whatsapp.py:77-85 | A message that is empty once stripped changes nothing. |
| LabelingWebhook.InitialTransitions | scripts/webhook_whatsapp.py:91-110 | `1` opens a conversation at the type question, `2` fires the alarm and forgets the sender, and anything else changes nothing. |
| LabelingWebhook.TypeTransitions | scripts/webhook_whatsapp.py:113-143 | `1`, `2` and `3` choose faces, vehicles and pets and move to their first question; any other reply changes nothing. |
| LabelingWebhook.InvalidMenuReplyKeepsState | scripts/webhook_whatsapp.py:158-160 | An invalid reply at the gender, vehicle-type or pet-type menu keeps the conversation (also 204-206 and 295-297). |
| LabelingWebhook.VehicleTypeChoice | scripts/webhook_whatsapp.py:183-206 | The last vehicle option asks for a free-text type; any other records its type and asks for the plate. |
| LabelingWebhook.PetTypeChoice | scripts/webhook_whatsapp.py:258-297 | The last pet option asks for a free-text type; any other files the snapshot under `{name}_{type}_{camera}.png` in `pets` and ends the conversation, unless the file operations raise. |
| LabelingWebhook.GenderChoice | scripts/webhook_whatsapp.py:152-179 | Reply `1` or `2` at the gender menu records `Masculino` or `Femenino` and files the newest face snapshot under `{name}_{gender}_{camera}.png` (the name slugged, the gender lower-cased). It ends the conversation unless the file operations raise; then the sender keeps the conversation with the gender recorded. |
| LabelingWebhook.PetOtherTypeFiled | scripts/webhook_whatsapp.py:299-318 | The free-text pet type files the newest pet snapshot under `{name}_{type}_{camera}.png` and ends the conversation, unless the file operations raise. |
| LabelingWebhook.TerminalStepsForget | scripts/webhook_whatsapp.py:179 | Every terminal step, and an unrecognised step, removes the sender's conversation, except a filing whose file operations raise, which keeps it at the same step (also 240, 293, 318 and 322-324). |
| LabelingWebhook.PlateOrOwner | scripts/webhook_whatsapp.py:215-241 | A plate-like reply files the vehicle snapshot under the upper-cased plate; any other reply files it under the owner's slug. Either ends the conversation unless the file operations raise. |
| LabelingWebhook.CameraNeverRecorded | scripts/webhook_whatsapp.py:163-164 | No step records a camera, so every filed name ends in `_unknown.png`. |
| WhatsAppBot.Deliver | src/actions/whatsapp_bot.py:14-18 | Without both credentials the bot sends nothing and reports failure. Otherwise it sends to the configured number, and reports success exactly when Twilio does not raise. |
| WhatsAppBot.SendText | src/actions/whatsapp_bot.py:131-144 | A disabled bot sends nothing. An enabled bot hands the text unchanged to Twilio, from its own number to the configured recipient, and reports success exactly when Twilio does not raise. |
| WhatsAppBot.SendMenu | src/actions/whatsapp_bot.py:113-129 | An enabled bot hands the menu body to Twilio, from its own number to the configured recipient, and reports success exactly when Twilio does not raise. |
| WhatsAppBot.OptionLineRoundTrip | src/actions/whatsapp_bot.py:120 | An option line `*n* - option` parses back to its number and option. |
| WhatsAppBot.MenuRoundTrip | src/actions/whatsapp_bot.py:118-124 | The menu body splits back into the title line, a blank line, and the option lines numbered from 1 in order. |
| WhatsAppBot.NotificationLines | src/actions/whatsapp_bot.py:33-60 | The message has the header, then the camera line, and ends with the four reply lines. A plate line appears exactly for a vehicle with a plate. Features with a hue but no saturation or value raise `KeyError`. |
| WhatsAppBot.DetailLines | src/actions/whatsapp_bot.py:43-53 | The plate line comes first and only when shown; an incomplete colour entry raises. |
| WhatsAppBot.BaseName | src/actions/whatsapp_bot.py:52 | A file's base name has no `/` and is a suffix of its path. |
| WhatsAppBot.SendNotification | src/actions/whatsapp_bot.py:20-83 | A disabled bot sends nothing. An enabled bot raises exactly when the colour features are incomplete. Otherwise it sends the notification lines joined by line breaks, followed by the local-image note exactly when the image exists, and reports success exactly when Twilio does not raise. |
| WhatsAppBot.UnknownCategoryFallback | src/actions/whatsapp_bot.py:33-39 | A category other than faces, vehicles and pets gets the `❓` emoji and the name `Elemento`. |
| WhatsAppBot.NotificationEndsWithReplies | src/actions/whatsapp_bot.py:55-60 | Every notification body ends with the reply instructions. |
| WhatsAppBot.ConfirmationBody | src/actions/whatsapp_bot.py:90-101 | The confirmation exists exactly when the details hold the keys its entity type reads. |
| WhatsAppBot.VehicleSaved | src/actions/whatsapp_bot.py:93-97 | A vehicle confirmation needs its type, and either a non-empty plate or an owner. |
| WhatsAppBot.SendConfirmation | src/actions/whatsapp_bot.py:85-111 | A disabled bot sends nothing; an enabled bot raises exactly when a required key is missing. Otherwise it hands the confirmation text to Twilio, from its own number to the configured recipient, and reports success exactly when Twilio does not raise. |
| WhatsAppBot.ParseCommand | src/actions/whatsapp_bot.py:147-170 | A blank reply gives nothing. Every result is stripped and 1 to 50 characters long. A reply without `/add ` gives its stripped text when that is short enough. |
| WhatsAppBot.ParseAddCommand | src/actions/whatsapp_bot.py:163-170 | `/add ` in any case, followed by text, gives that text stripped, when it fits in 50 characters. |
| WhatsAppBot.PlainReply | src/actions/whatsapp_bot.py:160-170 | A stripped reply of 1 to 50 characters that is not a command is returned as is. |
| WhatsAppBot.AddJuan | src/actions/whatsapp_bot.py:154 | `/add Juan` gives `Juan`. |
| WhatsAppBot.BarePlate | src/actions/whatsapp_bot.py:155 | `ABC123` gives `ABC123`. |
| WhatsAppBot.BareAddIsText | src/actions/whatsapp_bot.py:160-164 | `/add` with nothing after it is not a command, so it is returned as the name `/add`. |
| WhatsAppBot.ParseFixedPoint | src/actions/whatsapp_bot.py:147-170 | Parsing a parsed name again gives the same name, provided the name does not itself start with `/add ` in any case (`/add /add x` parses to `/add x`, which parses to `x`). |
| WhatsAppBot.DisabledBotIsSilent | src/actions/whatsapp_bot.py:30-31 | A bot missing either credential sends nothing from any of its four senders (also 87-88, 115-116 and 133-134). |
| ObjectDetection.LabelOf | src/vision/object_detection.py:43-44 | An index names its table entry, and names `unknown` exactly when it is out of range. |
| ObjectDetection.ClassifyGroup | src/vision/object_detection.py:52-60 | Each group is returned for exactly its own labels. |
| ObjectDetection.OrderIrrelevant | src/vision/object_detection.py:20-21 | The groups are disjoint, so the order of the checks does not matter. |
| ObjectDetection.GroupOfIndex | src/vision/object_detection.py:14-21 | Class indices 2, 6, 7, 14 and 19 are vehicles; 8 and 12 are pets; 15 is a person; no other index is grouped. |
| ObjectDetection.Truncate | src/vision/object_detection.py:46 | `astype("int")` truncates toward zero. |
| ObjectDetection.ClampBox | src/vision/object_detection.py:47-48 | The clamped box has a non-negative corner and size, and is unchanged for boxes inside the frame. A corner left of (above) the frame moves to 0 while the width (height) stays `end - start`, or 0 for an empty box. |
| ObjectDetection.ClampBeyondFrameExample | src/vision/object_detection.py:47-48 | A box reported from x = -10 to x = -5 becomes 5 wide at x = 0. |
| ObjectDetection.ClampOvershoots | src/vision/object_detection.py:47-48 | A box reported left of the frame keeps its full width after its corner moves to 0, so it reaches past its own right edge. |
| ObjectDetection.ClampBoxWithin | src/vision/object_detection.py:47-48 | With the size measured from the clamped corner, the box ends where the reported box ends. |
| ObjectDetection.ClampingsAgreeInsideFrame | src/vision/object_detection.py:47-48 | The two clampings agree exactly on boxes that do not start beyond the top or left border. |
| ObjectDetection.Convert | src/vision/object_detection.py:43-49 | A detection carries its row's label and confidence, and a non-negative box clamped as written: a box starting inside the frame keeps its corner and ends where the reported box ends; a box starting left of (above) the frame gets corner 0 and keeps its full reported width (height), `endX - startX`, or 0 when the reported box is empty on that side. |
| ObjectDetection.ConvertWithin | src/vision/object_detection.py:43-49 | With the corrected clamping, the box ends where the reported box ends, or at its corner when the reported box is empty. |
| ObjectDetection.ConversionsAgree | src/vision/object_detection.py:45-48 | The conversion as written and the corrected one give the same detection exactly when the reported box does not start beyond the top or left border (or is empty on that side). |
| ObjectDetection.ConvertOvershootExample | src/vision/object_detection.py:45-48 | A car row whose box starts at -10 of a 100-pixel frame and ends at 50 becomes a box 60 wide at x = 0 as written, and 50 wide with the corrected clamping. |
| ObjectDetection.Detect | src/vision/object_detection.py:31-50 | With the model missing, there are no detections. Otherwise the loop yields the confident rows, converted, in order. |
| ObjectDetection.DetectionsSound | src/vision/object_detection.py:39-49 | Every detection is confident and comes from a row, and every confident row is reported. |
| ObjectDetection.DetectionsCount | src/vision/object_detection.py:39-49 | There is one detection per confident row. |
| Text.StripIdempotent | src/actions/whatsapp_bot.py:160 | Stripping twice is stripping once. |
| Text.StripUnique | src/actions/whatsapp_bot.py:160 | Surrounding a stripped non-empty text with whitespace and stripping gives the text back. |
| Text.NatToStringRoundTrip | src/core/capture_session.py:80 | Reading back a printed number gives the number. |
| Text.ZeroPaddedIntInjective | src/core/capture_session.py:80 | Different counts print differently under `{:03d}`. |

## Left out

- I/O and threads. Sockets, `cv2` captures, the RTSP probe, the Flask and
  Twilio clients, JSON reading and writing, `mkdir`, `shutil.copy2`, threads
  and `time.sleep` are not modelled. Where their outcome steers the core, it
  is an oracle, a flag or a trace element instead. Four raise paths are not
  modelled; the `CaptureSession.AppendImage`, `CameraDiscovery.DiscoverIps`
  and `WhatsAppBot.Deliver` lines below name them, and the `trigger_alarm`
  line names a fourth. The discovery thread (`_discovery_loop`, camera_manager.py:53-59)
  is one `Reconcile` per iteration; its cadence is not modelled.
- `_is_port_open` and `ipaddress.ip_network(...).hosts()` are oracles. IPv4
  validation is modelled exactly; IPv6 validation is an oracle, `ipv6`.
- `WS_PROBE` and the multicast send are not modelled. The replies received
  within the timeout are the input; the constants `239.255.255.250` and 3702
  are recorded.
- Text is ASCII only. Python's `strip`, `split`, `lower` and `upper` also act
  on Unicode whitespace and letters; the model applies them to ASCII only.
  `decode(errors="ignore")` is not modelled: replies are already text.
- `str.format` is modelled only for `{name}` fields and `{{`/`}}` escapes.
  Conversions, format specs, positional fields, and fields that index or take
  an attribute of a value (`{ip[9]}`, `{ip.x}`) count as malformed. Python
  accepts some of them, and the model treats every such template as raising.
  For indexing and attributes, whether Python raises depends on the value
  substituted, so `CameraManager.FormatFailureIgnoresValues` holds only within
  the modelled subset.
- Time is a `real` `now` supplied by the caller.
- The session file can be lost to a race. Two processes that update it at
  once can overwrite each other; the model treats each call as atomic.
- Session values are typed. `int(s.get("count"))` on a non-numeric value, or
  a missing `base_name`, would raise in Python; the model's `Session` record
  always holds typed fields.
- The webhook's reply texts are a `Reply` enumeration, not the Spanish
  messages. Twilio's TwiML wrapper is not modelled.
- `trigger_alarm` and the webhook's ad-hoc `send_confirmation` call are
  recorded only as the `alarm` flag and the filing. The Tuya siren, and the
  actions and vision modules other than object detection, are not part of
  this model. `trigger_alarm` builds a `Config()` (webhook_whatsapp.py:60),
  which raises when `config/settings.yaml` is missing (src/core/config.py:8-9);
  the webhook itself loads only `config/secrets.yaml`, so nothing catches this
  earlier. Reply `2` can then end in a Flask server error, and the `pop` after
  the alarm is not reached. `LabelingWebhook.OnInitial` always answers
  `AlarmNotice` and does not model this raise.
- The MobileNet-SSD forward pass and `cv2.dnn.blobFromImage` are not
  modelled: the network's output rows are the input. Confidences are exact
  `real`s, so float32 rounding and NaN are not modelled.
- `main.py` wiring (frame callback, `save_unknown` cropping, configuration
  loading) is not part of this model.
- WhatsAppBot.SendNotification: the image file's existence is a flag. Only
  the text of the message is modelled; Twilio's message SID and the logging
  are not.
- CaptureSession.SampleDestination: the directory is a list of path
  components, and where `pathlib` would place some base names is not
  modelled. A base name starting with `_` has an empty subject, which
  `pathlib` drops, so the sample lands in `data/{category}/known` itself
  (capture_session.py:73-74). A `/` in the base name splits the subject into
  several directories.
- CaptureSession.AppendImage: `known_dir.mkdir` (capture_session.py:75) runs
  outside the `try` at 85-90, so a failing `mkdir` makes `append_image` raise
  instead of returning false. The model's one file-system input,
  `copySucceeds`, covers only the copy and the session write inside the `try`.
- CameraDiscovery.DiscoverIps: `_ws_discovery` (camera_discovery.py:66-81)
  catches only `socket.timeout`. Any other `OSError` from creating the
  socket, `setsockopt`, `sendto` or `recvfrom` escapes `discover_ips`; it
  would abort `_sync_workers` before any worker is retired and end
  `_discovery_loop` for good (camera_manager.py:56-59). The model's input is
  the replies received, so discovery cannot fail.
- WhatsAppBot.Deliver: the `twilioRaises` flag stands for a
  `TwilioRestException`, the only exception the four senders catch
  (whatsapp_bot.py:81, 109, 127 and 142). Any other error from
  `messages.create` propagates out of the sender; that path is not modelled.
- WhatsAppBot.ParseCommand: the `category` argument is unused by the source
  and is dropped.
- CameraManager.Reconcile: iteration order over Python sets is not modelled.
  The result is stated as a map, which is the same for every order. This
  includes a malformed template: every new camera formats the same templates,
  so the error raises at the first new camera met, before any worker of this
  pass starts. Cameras met before it are already registered and start nothing.
- StreamWorker.RunLoop: `time.sleep(0.2)` after a failed read is not
  modelled. A worker whose capture does not open leaves its thread, but the
  manager keeps it registered, so that camera is never retried while it stays
  discovered.
- LabelingWebhook.MoveAndRename: the destination is a list of path
  components, and where `pathlib` would place some names is not modelled:
  - a typed name containing `/` would be split into directories, and a
    leading `/` would restart the path at the root;
  - a name whose slug is `..` gives the subject directory `known/..`, which is
    the category directory itself;
  - a name starting with a space slugs to a leading `_`, so the subject
    directory is empty and `pathlib` drops it, filing straight into `known/`.
  Whether the directory creation, copy or unlink raises is the archive's
  `fileOpsSucceed` oracle.
- LabelingWebhook.Receive: concurrent webhook calls sharing the in-memory
  conversation table are not modelled; each call is a pure step.

## Findings

| source | as written | input that shows it | evidently intended | confidence | as-written member | corrected member |
|---|---|---|---|---|---|---|
| src/vision/object_detection.py:47-48 | The box corner is clamped to 0, but width and height are still measured from the unclamped corner. | startX = -10, endX = 100 gives x = 0 and width 110, so the box reaches x = 110, past its own right edge at 100. | Width and height measured from the clamped corner, so the box still ends at endX. | not executed | ObjectDetection.ClampOvershoots | ObjectDetection.ClampBoxWithin |

The code and the system's own description differ in two places. The model
follows the code in both.

- No step of the labeling conversation records a camera, so every labelled
  file is named `..._unknown.png` (`LabelingWebhook.CameraNeverRecorded`).
- A worker whose capture fails to open stays in the manager's registry.

=== FILE: camera_discovery.dfy ===
/** Camera discovery: the addresses found in WS-Discovery replies and by
    scanning configured subnets for an open RTSP port.

    Sockets are abstracted away: the replies received in one discovery window
    are a sequence of decoded texts, the network's host list for a CIDR
    string is an oracle (`None` when the string does not parse), and whether
    a TCP connection to a host and port succeeds is an oracle too. IPv4
    addresses are validated concretely; the IPv6 half of the address
    validator is an abstract predicate `ipv6`. */
module CameraDiscovery {
  import opened Wrappers
  import opened Text

  /** The WS-Discovery multicast group and port the probe is sent to. */
  const WsDiscoveryAddr: string := "239.255.255.250"
  const WsDiscoveryPort: nat := 3702

  /** The port a subnet scan tries on every host (the RTSP default, section 3.2 of RFC 2326). */
  const RtspPort: nat := 554

  // ---------------------------------------------------------------------
  // Address validation
  // ---------------------------------------------------------------------

  /** One dotted-quad component: one to three ASCII digits, no leading zero
      except for "0" itself, value at most 255. */
  predicate IsOctet(o: string)
  {
    1 <= |o| <= 3 && AllDigits(o) && (o[0] == '0' ==> o == "0") && DigitsValue(o) <= 255
  }

  /** A textual IPv4 address: exactly four octets separated by dots. */
  predicate IsIpv4(s: string)
  {
    var parts := SplitChar(s, '.');
    |parts| == 4 && forall k :: 0 <= k < 4 ==> IsOctet(parts[k])
  }

  /** `ipaddress.ip_address(s)` succeeds: an IPv4 address, or whatever the
      IPv6 parser accepts. */
  predicate IsIp(s: string, ipv6: string -> bool)
  {
    IsIpv4(s) || ipv6(s)
  }

  /** The dotted-quad text of four octet values. */
  function Dotted(a: nat, b: nat, c: nat, d: nat): string
  {
    Join([NatToString(a), NatToString(b), NatToString(c), NatToString(d)], '.')
  }

  /** The four values of a valid IPv4 text. */
  function OctetValues(s: string): (v: seq<nat>)
    requires IsIpv4(s)
    ensures |v| == 4 && forall k :: 0 <= k < 4 ==> v[k] <= 255
  {
    var parts := SplitChar(s, '.');
    [DigitsValue(parts[0]), DigitsValue(parts[1]), DigitsValue(parts[2]), DigitsValue(parts[3])]
  }

  lemma OctetText(n: nat)
    requires n <= 255
    ensures IsOctet(NatToString(n)) && '.' !in NatToString(n)
  {
    NatToStringLength(n);
    NatToStringRoundTrip(n);
    var s := NatToString(n);
    assert forall i :: 0 <= i < |s| ==> IsDigit(s[i]);
  }

  /** Formatting four octet values gives a valid address whose values are
      those four. */
  lemma DottedIsIpv4(a: nat, b: nat, c: nat, d: nat)
    requires a <= 255 && b <= 255 && c <= 255 && d <= 255
    ensures IsIpv4(Dotted(a, b, c, d))
    ensures OctetValues(Dotted(a, b, c, d)) == [a, b, c, d]
  {
    var parts := [NatToString(a), NatToString(b), NatToString(c), NatToString(d)];
    OctetText(a);
    OctetText(b);
    OctetText(c);
    OctetText(d);
    SplitJoin(parts, '.');
    NatToStringRoundTrip(a);
    NatToStringRoundTrip(b);
    NatToStringRoundTrip(c);
    NatToStringRoundTrip(d);
  }

  /** Every valid IPv4 text is the dotted-quad text of its values: the
      validator accepts canonical spellings only. */
  lemma Ipv4IsDotted(s: string)
    requires IsIpv4(s)
    ensures var v := OctetValues(s); s == Dotted(v[0], v[1], v[2], v[3])
  {
    var parts := SplitChar(s, '.');
    CanonicalDigitsRoundTrip(parts[0]);
    CanonicalDigitsRoundTrip(parts[1]);
    CanonicalDigitsRoundTrip(parts[2]);
    CanonicalDigitsRoundTrip(parts[3]);
    JoinSplit(s, '.');
    assert parts == [parts[0], parts[1], parts[2], parts[3]];
  }

  /** A valid IPv4 text is non-empty and holds no whitespace, slash or colon,
      so it survives whitespace splitting and host extraction intact. */
  lemma Ipv4Characters(s: string)
    requires IsIpv4(s)
    ensures s != [] && NoSpace(s) && '/' !in s && ':' !in s
  {
    var v := OctetValues(s);
    Ipv4IsDotted(s);
    var parts := SplitChar(s, '.');
    JoinSplit(s, '.');
    forall i | 0 <= i < |s|
      ensures IsDigit(s[i]) || s[i] == '.'
    {
      JoinedChars(parts, '.', i);
    }
    assert |parts[0]| >= 1;
    assert s == parts[0] + ['.'] + Join(parts[1..], '.');
  }

  /** Every character of a joined text comes from a part or is the separator. */
  lemma {:induction false} JoinedChars(parts: seq<string>, sep: char, i: nat)
    requires forall k :: 0 <= k < |parts| ==> AllDigits(parts[k])
    requires i < |Join(parts, sep)|
    ensures IsDigit(Join(parts, sep)[i]) || Join(parts, sep)[i] == sep
    decreases |parts|
  {
    if |parts| > 1 {
      var j := Join(parts, sep);
      var rest := Join(parts[1..], sep);
      assert j == parts[0] + [sep] + rest;
      if i > |parts[0]| {
        assert j[i] == rest[i - |parts[0]| - 1];
        JoinedChars(parts[1..], sep, i - |parts[0]| - 1);
      }
    }
  }

  // ---------------------------------------------------------------------
  // Parsing one WS-Discovery reply
  // ---------------------------------------------------------------------

  /** The whitespace-separated tokens of the reply that are addresses. */
  function TokenIps(text: string, ipv6: string -> bool): (ips: set<string>)
    ensures forall ip :: ip in ips <==> ip in Words(text) && IsIp(ip, ipv6)
  {
    set t | t in Words(text) && IsIp(t, ipv6)
  }

  /** The host of an address URL: after the first `//`, up to the first `/`,
      then up to the first `:`. */
  function HostOf(url: string): (h: string)
    ensures '/' !in h && ':' !in h
  {
    BeforeFirst(BeforeFirst(AfterFirstStr(url, "//"), '/'), ':')
  }

  /** The text between the first `>` of a segment and the next `<`. */
  function AddressText(segment: string): (body: Option<string>)
    ensures body.Some? ==> '<' !in body.value
  {
    match IndexOf(segment, '>')
    case None => None
    case Some(start) =>
      match IndexOf(segment[start + 1..], '<')
      case None => None
      case Some(len) => Some(segment[start + 1..][..len])
  }

  /** The valid hosts of the URLs listed in one segment after `XAddrs`. */
  function SegmentHosts(segment: string, ipv6: string -> bool): (hosts: set<string>)
    ensures forall h :: h in hosts ==> IsIp(h, ipv6)
    ensures AddressText(segment).None? ==> hosts == {}
  {
    match AddressText(segment)
    case None => {}
    case Some(body) => set u | u in Words(body) && IsIp(HostOf(u), ipv6) :: HostOf(u)
  }

  /** The hosts of all segments. */
  function HostsOfSegments(segments: seq<string>, ipv6: string -> bool): (hosts: set<string>)
    ensures forall k :: 0 <= k < |segments| ==> SegmentHosts(segments[k], ipv6) <= hosts
    ensures forall h :: h in hosts ==> exists k :: 0 <= k < |segments| && h in SegmentHosts(segments[k], ipv6)
  {
    if segments == [] then {}
    else
      var here := SegmentHosts(segments[0], ipv6);
      var rest := HostsOfSegments(segments[1..], ipv6);
      assert forall k :: 0 < k < |segments| ==> segments[1..][k - 1] == segments[k];
      here + rest
  }

  /** `_parse_ips`: the address tokens of the reply, plus, when it mentions
      `XAddrs`, the valid hosts of the URLs listed after each `XAddrs`. */
  function ParseIps(text: string, ipv6: string -> bool): (ips: set<string>)
    ensures forall ip :: ip in ips ==> IsIp(ip, ipv6)
    ensures TokenIps(text, ipv6) <= ips
    ensures FindStr(text, "XAddrs", 0).None? ==> ips == TokenIps(text, ipv6)
    ensures FindStr(text, "XAddrs", 0).Some? ==>
              ips == TokenIps(text, ipv6) + HostsOfSegments(SplitOnStr(text, "XAddrs")[1..], ipv6)
  {
    var tokens := TokenIps(text, ipv6);
    if FindStr(text, "XAddrs", 0).Some? then
      var hosts := HostsOfSegments(SplitOnStr(text, "XAddrs")[1..], ipv6);
      tokens + hosts
    else tokens
  }

  /** A listed URL of the form `scheme//host[:port][/path]` in the segment
      `pre>... url ...<post` contributes its host when the host is valid. */
  lemma ListedHostFound(pre: string, body: string, post: string, scheme: string, host: string, rest: string,
                        ipv6: string -> bool)
    requires '>' !in pre && '<' !in body
    requires scheme + "//" + host + rest in Words(body)
    requires '/' !in scheme && '/' !in host && ':' !in host
    requires rest == [] || rest[0] == '/' || rest[0] == ':'
    requires IsIp(host, ipv6)
    ensures host in SegmentHosts(pre + ">" + body + "<" + post, ipv6)
  {
    AddressTextOf(pre, body, post);
    HostOfUrl(scheme, host, rest);
  }

  /** Every address that stands as a whitespace-delimited token of the reply
      is found. */
  lemma TokenAddressFound(text: string, ipv6: string -> bool, i: int, j: int)
    requires IsTokenAt(text, i, j) && IsIp(text[i..j], ipv6)
    ensures text[i..j] in ParseIps(text, ipv6)
  {
    TokenIsWord(text, i, j);
  }

  /** Host extraction from `scheme//host[:port][/path]`: when the scheme has
      no slash and the host no slash or colon, the host comes out intact. */
  lemma HostOfUrl(scheme: string, host: string, rest: string)
    requires '/' !in scheme && '/' !in host && ':' !in host
    requires rest == [] || rest[0] == '/' || rest[0] == ':'
    ensures HostOf(scheme + "//" + host + rest) == host
  {
    AfterScheme(scheme, host + rest);
    assert scheme + "//" + host + rest == scheme + "//" + (host + rest);
    HostBeforePort(host, rest);
  }

  /** What follows the first `//` of `scheme//tail` is `tail` when the scheme has no slash. */
  lemma AfterScheme(scheme: string, tail: string)
    requires '/' !in scheme
    ensures AfterFirstStr(scheme + "//" + tail, "//") == tail
  {
    var url := scheme + "//" + tail;
    assert url[|scheme|..|scheme| + 2] == "//";
    forall j | 0 <= j < |scheme|
      ensures !OccursAt(url, "//", j)
    {
      assert url[j] == scheme[j];
    }
    FindStrUnique(url, "//", |scheme|);
    assert url[|scheme| + 2..] == tail;
  }

  /** Cutting `host` + `rest` at the first `/` and then at the first `:`
      leaves the host when `rest` starts a port or a path. */
  lemma HostBeforePort(host: string, rest: string)
    requires '/' !in host && ':' !in host
    requires rest == [] || rest[0] == '/' || rest[0] == ':'
    ensures BeforeFirst(BeforeFirst(host + rest, '/'), ':') == host
  {
    BeforeFirstAppend(host, rest, '/');
    var cut := BeforeFirst(rest, '/');
    if rest == [] || rest[0] == '/' {
      assert cut == [];
      assert host + cut == host;
      assert BeforeFirst(host, ':') == host;
    } else {
      assert cut == [':'] + cut[1..];
      assert host + cut == host + [':'] + cut[1..];
      BeforeFirstOfJoined(host, ':', cut[1..]);
    }
  }

  /** A segment `pre>body<post` with no `>` before the body and no `<` in it
      lists exactly the URLs of the body. */
  lemma AddressTextOf(pre: string, body: string, post: string)
    requires '>' !in pre && '<' !in body
    ensures AddressText(pre + ">" + body + "<" + post) == Some(body)
  {
    var tail := body + ['<'] + post;
    assert pre + ">" + body + "<" + post == pre + ['>'] + tail;
    IndexAfterPrefix(pre, '>', tail);
    assert (pre + ['>'] + tail)[|pre| + 1..] == tail;
    IndexAfterPrefix(body, '<', post);
    assert tail[..|body|] == body;
  }

  // ---------------------------------------------------------------------
  // One discovery pass
  // ---------------------------------------------------------------------

  /** `_ws_discovery`: the union of the addresses parsed from every reply
      received in the window. */
  function WsDiscovery(replies: seq<string>, ipv6: string -> bool): (ips: set<string>)
    ensures forall ip :: ip in ips <==> exists k :: 0 <= k < |replies| && ip in ParseIps(replies[k], ipv6)
  {
    if replies == [] then {}
    else
      var rest := WsDiscovery(replies[1..], ipv6);
      assert forall k :: 0 < k < |replies| ==> replies[1..][k - 1] == replies[k];
      ParseIps(replies[0], ipv6) + rest
  }

  /** `_scan_rtsp_subnet`: walk the hosts of the network and keep those that
      accept a connection on the RTSP port; an unparseable CIDR gives none. */
  method ScanRtspSubnet(cidr: string, hostsOf: string -> Option<seq<string>>, portOpen: (string, nat) -> bool)
    returns (ips: set<string>)
    ensures hostsOf(cidr).None? ==> ips == {}
    ensures hostsOf(cidr).Some? ==> forall h :: h in ips <==> h in hostsOf(cidr).value && portOpen(h, RtspPort)
  {
    ips := {};
    var network := hostsOf(cidr);
    if network.None? {
      return;
    }
    var hosts := network.value;
    var i := 0;
    while i < |hosts|
      invariant 0 <= i <= |hosts|
      invariant forall h :: h in ips <==> h in hosts[..i] && portOpen(h, RtspPort)
    {
      if portOpen(hosts[i], RtspPort) {
        ips := ips + {hosts[i]};
      }
      assert hosts[..i + 1] == hosts[..i] + [hosts[i]];
      i := i + 1;
    }
    assert hosts[..i] == hosts;
  }

  /** The addresses a subnet scan yields, as a set. */
  function ScanResult(cidr: string, hostsOf: string -> Option<seq<string>>, portOpen: (string, nat) -> bool): set<string>
  {
    match hostsOf(cidr)
    case None => {}
    case Some(hosts) => set h | h in hosts && portOpen(h, RtspPort)
  }

  /** The union of the scans of every configured subnet, in order. */
  method ScanAll(subnets: seq<string>, hostsOf: string -> Option<seq<string>>, portOpen: (string, nat) -> bool)
    returns (ips: set<string>)
    ensures forall ip :: ip in ips <==> exists k :: 0 <= k < |subnets| && ip in ScanResult(subnets[k], hostsOf, portOpen)
  {
    ips := {};
    var i := 0;
    while i < |subnets|
      invariant 0 <= i <= |subnets|
      invariant forall ip :: ip in ips <==> exists k :: 0 <= k < i && ip in ScanResult(subnets[k], hostsOf, portOpen)
    {
      var found := ScanRtspSubnet(subnets[i], hostsOf, portOpen);
      assert found == ScanResult(subnets[i], hostsOf, portOpen);
      ips := ips + found;
      i := i + 1;
    }
  }

  /** `discover_ips`: the WS-Discovery result when it is enabled, together
      with every subnet's scan. */
  method DiscoverIps(wsEnabled: bool, replies: seq<string>, subnets: seq<string>, ipv6: string -> bool,
                     hostsOf: string -> Option<seq<string>>, portOpen: (string, nat) -> bool)
    returns (ips: set<string>)
    ensures forall ip :: ip in ips <==>
              (wsEnabled && ip in WsDiscovery(replies, ipv6)) ||
              (exists k :: 0 <= k < |subnets| && ip in ScanResult(subnets[k], hostsOf, portOpen))
    ensures !wsEnabled && subnets == [] ==> ips == {}
  {
    ips := {};
    if wsEnabled {
      ips := ips + WsDiscovery(replies, ipv6);
    }
    var scanned := ScanAll(subnets, hostsOf, portOpen);
    ips := ips + scanned;
  }
}

=== FILE: camera_manager.dfy ===
/** The fleet reconciler and its endpoint selector.

    Cameras are keyed by IP address. For a new camera the selector expands
    the configured URL templates with the camera credentials and the IP, and
    keeps the first URL whose probe succeeds; the probe (open the stream and
    decode one frame) is an oracle `string -> bool`. One reconciliation cycle
    retires the workers of cameras that disappeared and starts workers for
    cameras that appeared. Worker threads are `StreamWorker.Worker` values;
    "starting" one is putting it in the registry. */
module CameraManager {
  import opened Wrappers
  import opened Text
  import StreamWorker

  /** The RTSP default port (section 3.2 of RFC 2326), used when no template is configured. */
  const DefaultRtspPort: nat := 554

  /** The camera credential mapping; a key may be absent or hold a null. */
  type Credentials = map<string, Option<string>>

  /** `credentials.get(key, "") or ""`: a missing, null or empty credential is the empty string. */
  function Credential(creds: Credentials, key: string): (v: string)
    ensures v != [] ==> key in creds && creds[key] == Some(v)
    ensures key in creds && creds[key].Some? ==> v == creds[key].value
  {
    if key in creds && creds[key].Some? then creds[key].value else ""
  }

  // ---------------------------------------------------------------------
  // Template expansion (`str.format` with the keywords user, pass, ip)
  // ---------------------------------------------------------------------

  /** The three replacement fields a template may name. */
  datatype Field = User | Pass | Ip

  /** The keyword arguments passed to `format`. */
  datatype Values = Values(user: string, password: string, ip: string)

  function FieldNamed(name: string): (f: Option<Field>)
    ensures f == Some(User) <==> name == "user"
    ensures f == Some(Pass) <==> name == "pass"
    ensures f == Some(Ip) <==> name == "ip"
  {
    if name == "user" then Some(User)
    else if name == "pass" then Some(Pass)
    else if name == "ip" then Some(Ip)
    else None
  }

  function ValueOf(f: Field, v: Values): string
  {
    match f
    case User => v.user
    case Pass => v.password
    case Ip => v.ip
  }

  function Prepend(s: string, o: Option<string>): (r: Option<string>)
    ensures r.Some? <==> o.Some?
    ensures r.Some? ==> r.value == s + o.value
  {
    match o
    case None => None
    case Some(t) => Some(s + t)
  }

  /** `pattern.format(user=..., pass=..., ip=...)`: `{{` and `}}` stand for
      single braces, `{user}`, `{pass}` and `{ip}` are replaced, any other
      brace — an unknown field name, an unmatched `{` or `}` — raises, which
      is `None` here. */
  function Format(p: string, v: Values): (r: Option<string>)
    decreases |p|
  {
    if p == [] then Some([])
    else if p[0] == '{' then
      if |p| >= 2 && p[1] == '{' then Prepend("{", Format(p[2..], v))
      else
        match IndexOf(p[1..], '}')
        case None => None
        case Some(k) =>
          match FieldNamed(p[1..k + 1])
          case None => None
          case Some(f) => Prepend(ValueOf(f, v), Format(p[k + 2..], v))
    else if p[0] == '}' then
      if |p| >= 2 && p[1] == '}' then Prepend("}", Format(p[2..], v))
      else None
    else Prepend([p[0]], Format(p[1..], v))
  }

  /** Whether `format` raises depends on the template alone, never on the
      credentials or the IP substituted into it. */
  lemma {:induction false} FormatFailureIgnoresValues(p: string, v: Values, v': Values)
    ensures Format(p, v).None? <==> Format(p, v').None?
    decreases |p|
  {
    if p == [] {
    } else if p[0] == '{' {
      if |p| >= 2 && p[1] == '{' {
        FormatFailureIgnoresValues(p[2..], v, v');
      } else {
        match IndexOf(p[1..], '}')
        case None =>
        case Some(k) =>
          if FieldNamed(p[1..k + 1]).Some? {
            FormatFailureIgnoresValues(p[k + 2..], v, v');
          }
      }
    } else if p[0] == '}' {
      if |p| >= 2 && p[1] == '}' {
        FormatFailureIgnoresValues(p[2..], v, v');
      }
    } else {
      FormatFailureIgnoresValues(p[1..], v, v');
    }
  }

  /** A template as its author means it: literal characters and fields. */
  datatype Piece = Literal(c: char) | Slot(f: Field)

  /** The template text for a list of pieces, with braces escaped by doubling. */
  function Render(ps: seq<Piece>): string
  {
    if ps == [] then []
    else RenderPiece(ps[0]) + Render(ps[1..])
  }

  function RenderPiece(p: Piece): string
  {
    match p
    case Literal(c) => if c == '{' || c == '}' then [c, c] else [c]
    case Slot(User) => "{user}"
    case Slot(Pass) => "{pass}"
    case Slot(Ip) => "{ip}"
  }

  /** What the author means the expanded template to be. */
  function Expand(ps: seq<Piece>, v: Values): string
  {
    if ps == [] then []
    else
      (match ps[0]
       case Literal(c) => [c]
       case Slot(f) => ValueOf(f, v)) + Expand(ps[1..], v)
  }

  /** Field lookup in a rendered slot: the name runs from after `{` up to the
      first `}`. */
  lemma SlotLookup(f: Field, rest: string)
    ensures var p := RenderPiece(Slot(f)) + rest;
            && p[0] == '{' && |p| >= 2 && p[1] != '{'
            && IndexOf(p[1..], '}') == Some(|RenderPiece(Slot(f))| - 2)
            && FieldNamed(p[1..|RenderPiece(Slot(f))| - 1]) == Some(f)
            && p[|RenderPiece(Slot(f))|..] == rest
  {
    var s := RenderPiece(Slot(f));
    var p := s + rest;
    var n := |s| - 2;
    assert p[1..][n] == '}';
    assert forall j :: 0 <= j < n ==> p[1..][j] == s[j + 1];
    assert p[1..n + 1] == s[1..n + 1];
  }

  /** Every template written as pieces expands as meant: `format` undoes the
      brace escaping and fills each field with its value. */
  lemma {:induction false} FormatRendered(ps: seq<Piece>, v: Values)
    ensures Format(Render(ps), v) == Some(Expand(ps, v))
    decreases |ps|
  {
    if ps != [] {
      var rest := Render(ps[1..]);
      FormatRendered(ps[1..], v);
      var p := Render(ps);
      assert p == RenderPiece(ps[0]) + rest;
      match ps[0]
      case Literal(c) =>
        if c == '{' || c == '}' {
          assert p[2..] == rest;
        } else {
          assert p[1..] == rest;
        }
      case Slot(f) =>
        SlotLookup(f, rest);
    }
  }

  // ---------------------------------------------------------------------
  // Candidate URLs and endpoint selection
  // ---------------------------------------------------------------------

  /** The URL tried when no template is configured. */
  function DefaultUrl(ip: string): string
  {
    "rtsp://" + ip + ":" + NatToString(DefaultRtspPort)
  }

  function CameraValues(creds: Credentials, ip: string): Values
  {
    Values(Credential(creds, "username"), Credential(creds, "password"), ip)
  }

  /** Some template raises whatever is substituted into it. */
  predicate Malformed(patterns: seq<string>)
  {
    exists k :: 0 <= k < |patterns| && Format(patterns[k], Values("", "", "")).None?
  }

  function FormatAll(patterns: seq<string>, v: Values): (r: Option<seq<string>>)
    ensures r.None? <==> exists k :: 0 <= k < |patterns| && Format(patterns[k], v).None?
    ensures r.Some? ==> |r.value| == |patterns|
    ensures r.Some? ==> forall k :: 0 <= k < |patterns| ==> Some(r.value[k]) == Format(patterns[k], v)
  {
    if patterns == [] then Some([])
    else
      match Format(patterns[0], v)
      case None => None
      case Some(u) =>
        match FormatAll(patterns[1..], v)
        case None => assert forall k :: 0 < k < |patterns| ==> patterns[1..][k - 1] == patterns[k]; None
        case Some(us) => Some([u] + us)
  }

  /** `_build_candidates`: one URL per template, in order, or the default URL
      when there is none; `None` when some template raises. */
  function BuildCandidates(patterns: seq<string>, creds: Credentials, ip: string): (r: Option<seq<string>>)
    ensures r.None? <==> Malformed(patterns)
    ensures r.Some? && patterns == [] ==> r.value == [DefaultUrl(ip)]
    ensures r.Some? && patterns != [] ==> |r.value| == |patterns|
    ensures r.Some? ==> forall k :: 0 <= k < |patterns| ==>
                          Some(r.value[k]) == Format(patterns[k], CameraValues(creds, ip))
  {
    var v := CameraValues(creds, ip);
    var r := FormatAll(patterns, v);
    assert r.None? <==> Malformed(patterns) by {
      forall k | 0 <= k < |patterns| {
        FormatFailureIgnoresValues(patterns[k], v, Values("", "", ""));
      }
    }
    if r.Some? && patterns == [] then Some([DefaultUrl(ip)]) else r
  }

  /** Index of the first candidate whose probe succeeds. */
  function FirstAccepted(cands: seq<string>, probe: string -> bool): (r: Option<nat>)
    ensures r.None? <==> forall j :: 0 <= j < |cands| ==> !probe(cands[j])
    ensures r.Some? ==> r.value < |cands| && probe(cands[r.value])
    ensures r.Some? ==> forall j :: 0 <= j < r.value ==> !probe(cands[j])
  {
    if cands == [] then None
    else if probe(cands[0]) then Some(0)
    else
      match FirstAccepted(cands[1..], probe)
      case None => assert forall j :: 0 < j < |cands| ==> cands[1..][j - 1] == cands[j]; None
      case Some(k) => Some(k + 1)
  }

  /** The outcome of `_select_rtsp`: a URL, no URL, or the exception raised
      while building the candidates. */
  datatype Selection = Selected(url: string) | NoEndpoint | TemplateError

  function SelectRtsp(patterns: seq<string>, creds: Credentials, ip: string, probe: string -> bool): (s: Selection)
    ensures s == TemplateError <==> Malformed(patterns)
    ensures s.Selected? ==> probe(s.url) && s.url in BuildCandidates(patterns, creds, ip).value
    ensures s.Selected? ==> var cs := BuildCandidates(patterns, creds, ip).value;
                            exists k :: 0 <= k < |cs| && cs[k] == s.url && forall j :: 0 <= j < k ==> !probe(cs[j])
    ensures s == NoEndpoint <==>
              !Malformed(patterns) && forall u :: u in BuildCandidates(patterns, creds, ip).value ==> !probe(u)
  {
    match BuildCandidates(patterns, creds, ip)
    case None => TemplateError
    case Some(cs) =>
      match FirstAccepted(cs, probe)
      case None => NoEndpoint
      case Some(k) => Selected(cs[k])
  }

  /** The candidates the selector probes, in order: all of them when none
      succeeds, otherwise up to and including the first success. */
  function ProbedPrefix(cands: seq<string>, probe: string -> bool): seq<string>
  {
    match FirstAccepted(cands, probe)
    case None => cands
    case Some(k) => cands[..k + 1]
  }

  /** The selection loop as written: probe each candidate in turn and return
      at the first success. `probed` lists the probe calls made. */
  method SelectFirst(cands: seq<string>, probe: string -> bool) returns (url: Option<string>, probed: seq<string>)
    ensures probed == ProbedPrefix(cands, probe)
    ensures url.None? <==> FirstAccepted(cands, probe).None?
    ensures url.Some? ==> url.value == cands[FirstAccepted(cands, probe).value]
    ensures url.Some? ==> probe(url.value) && probed[|probed| - 1] == url.value
    ensures forall j :: 0 <= j < |probed| - 1 ==> !probe(probed[j])
  {
    probed := [];
    var i := 0;
    while i < |cands|
      invariant 0 <= i <= |cands|
      invariant probed == cands[..i]
      invariant forall j :: 0 <= j < i ==> !probe(cands[j])
    {
      probed := probed + [cands[i]];
      if probe(cands[i]) {
        return Some(cands[i]), probed;
      }
      i := i + 1;
    }
    assert probed == cands;
    return None, probed;
  }

  // ---------------------------------------------------------------------
  // Reconciliation
  // ---------------------------------------------------------------------

  /** The reconciler: its worker registry, how many cycles it has begun, and
      whether `stop` has been called. */
  datatype Manager = Manager(registry: map<string, StreamWorker.Worker>, cycle: nat, stopRequested: bool)

  /** The URL configuration: templates and camera credentials. */
  datatype Config = Config(patterns: seq<string>, creds: Credentials)

  /** After one cycle: the manager, the workers taken out of the registry
      (each signalled to stop), and whether the cycle died on a template
      error — which ends the discovery thread. */
  datatype SyncResult = SyncResult(manager: Manager, retired: map<string, StreamWorker.Worker>, crashed: bool)

  /** The URL a new camera is started with, if any: a selected URL that is
      not empty (`if not rtsp: continue`). */
  function Endpoint(cfg: Config, ip: string, probe: string -> bool): (u: Option<string>)
    ensures u.Some? ==> u.value != [] && SelectRtsp(cfg.patterns, cfg.creds, ip, probe) == Selected(u.value)
    ensures u.None? ==> SelectRtsp(cfg.patterns, cfg.creds, ip, probe) in {NoEndpoint, TemplateError, Selected("")}
    ensures u.Some? ==> !Malformed(cfg.patterns)
  {
    match SelectRtsp(cfg.patterns, cfg.creds, ip, probe)
    case Selected(url) => if url == [] then None else Some(url)
    case _ => None
  }

  /** The worker a cycle creates for a new camera. */
  function NewWorker(ip: string, url: string, cycle: nat): StreamWorker.Worker
  {
    StreamWorker.Worker(ip, url, cycle, false)
  }

  /** The registered workers whose camera is still discovered. */
  function Kept(registry: map<string, StreamWorker.Worker>, discovered: set<string>): map<string, StreamWorker.Worker>
  {
    map ip | ip in registry && ip in discovered :: registry[ip]
  }

  /** The registered workers whose camera is gone, each signalled to stop. */
  function Retired(registry: map<string, StreamWorker.Worker>, discovered: set<string>): map<string, StreamWorker.Worker>
  {
    map ip | ip in registry && ip !in discovered :: StreamWorker.Stop(registry[ip])
  }

  /** A fresh worker for each newly discovered camera with an endpoint. */
  function Started(m: Manager, discovered: set<string>, cfg: Config, probe: string -> bool): map<string, StreamWorker.Worker>
  {
    map ip | ip in discovered && ip !in m.registry && Endpoint(cfg, ip, probe).Some? ::
      NewWorker(ip, Endpoint(cfg, ip, probe).value, m.cycle)
  }

  /** `_sync_workers` as a whole: the registry keeps the discovered cameras
      it already had, with the same workers; the others are retired and
      signalled; each new camera gets a fresh worker iff an endpoint is
      selected for it. A template error raises at the first new camera, after
      the retirements and before any start. */
  function Reconcile(m: Manager, discovered: set<string>, cfg: Config, probe: string -> bool): (r: SyncResult)
    ensures r.manager.registry.Keys <= discovered
    ensures r.retired.Keys == m.registry.Keys - discovered
    ensures forall ip :: ip in r.retired ==> r.retired[ip] == StreamWorker.Stop(m.registry[ip])
    ensures forall ip :: ip in m.registry && ip in discovered ==>
              ip in r.manager.registry && r.manager.registry[ip] == m.registry[ip]
    ensures r.crashed <==> Malformed(cfg.patterns) && !(discovered <= m.registry.Keys)
    ensures r.crashed ==> r.manager.registry.Keys == m.registry.Keys * discovered
    ensures !r.crashed ==> forall ip :: ip in discovered && ip !in m.registry ==>
              (ip in r.manager.registry <==> Endpoint(cfg, ip, probe).Some?)
    ensures forall ip :: ip in r.manager.registry && ip !in m.registry ==>
              Endpoint(cfg, ip, probe).Some? &&
              r.manager.registry[ip] == NewWorker(ip, Endpoint(cfg, ip, probe).value, m.cycle)
    ensures r.manager.cycle == m.cycle + 1 && r.manager.stopRequested == m.stopRequested
  {
    var kept := Kept(m.registry, discovered);
    var retired := Retired(m.registry, discovered);
    if Malformed(cfg.patterns) && !(discovered <= m.registry.Keys) then
      SyncResult(Manager(kept, m.cycle + 1, m.stopRequested), retired, true)
    else
      SyncResult(Manager(kept + Started(m, discovered, cfg, probe), m.cycle + 1, m.stopRequested), retired, false)
  }

  /** The first loop of `_sync_workers`: walk a snapshot of the registry keys
      in any order and pop, and signal, each camera no longer discovered. */
  method RetireMissing(registry0: map<string, StreamWorker.Worker>, discovered: set<string>)
    returns (registry: map<string, StreamWorker.Worker>, retired: map<string, StreamWorker.Worker>)
    ensures registry == Kept(registry0, discovered)
    ensures retired == Retired(registry0, discovered)
  {
    registry := registry0;
    retired := map[];
    var listed := registry0.Keys;
    while listed != {}
      invariant listed <= registry0.Keys
      invariant forall ip :: ip in registry <==> ip in registry0 && (ip in discovered || ip in listed)
      invariant forall ip :: ip in registry ==> registry[ip] == registry0[ip]
      invariant forall ip :: ip in retired <==> ip in registry0 && ip !in discovered && ip !in listed
      invariant forall ip :: ip in retired ==> retired[ip] == StreamWorker.Stop(registry0[ip])
      decreases |listed|
    {
      var ip :| ip in listed;
      if ip !in discovered {
        var w := registry[ip];
        registry := map k | k in registry && k != ip :: registry[k];
        retired := retired[ip := StreamWorker.Stop(w)];
      }
      listed := listed - {ip};
    }
  }

  /** The body of the second loop for one camera without a worker: build
      the candidates (which may raise), select, and make the worker. */
  method StartOne(m: Manager, cfg: Config, probe: string -> bool, ip: string)
    returns (w: Option<StreamWorker.Worker>, crashed: bool)
    ensures crashed <==> Malformed(cfg.patterns)
    ensures !crashed ==> (w.Some? <==> Endpoint(cfg, ip, probe).Some?)
    ensures w.Some? ==> Endpoint(cfg, ip, probe).Some? && w.value == NewWorker(ip, Endpoint(cfg, ip, probe).value, m.cycle)
  {
    var cands := BuildCandidates(cfg.patterns, cfg.creds, ip);
    if cands.None? {
      return None, true;
    }
    var url, _ := SelectFirst(cands.value, probe);
    if url.Some? && url.value != [] {
      w := Some(NewWorker(ip, url.value, m.cycle));
    } else {
      w := None;
    }
    crashed := false;
  }

  /** The second loop of `_sync_workers`: walk the discovered set in any
      order and start a worker for each camera without one. Building the
      candidates raises at the first such camera when a template is
      malformed. */
  method StartNew(m: Manager, kept: map<string, StreamWorker.Worker>, discovered: set<string>, cfg: Config,
                  probe: string -> bool)
    returns (registry: map<string, StreamWorker.Worker>, crashed: bool)
    requires kept == Kept(m.registry, discovered)
    ensures crashed <==> Malformed(cfg.patterns) && !(discovered <= m.registry.Keys)
    ensures crashed ==> registry == kept
    ensures !crashed ==> registry == kept + Started(m, discovered, cfg, probe)
  {
    ghost var started := Started(m, discovered, cfg, probe);
    registry := kept;
    var pending := discovered;
    while pending != {}
      invariant pending <= discovered
      invariant forall ip :: ip in registry <==> ip in kept || (ip in started && ip !in pending)
      invariant forall ip :: ip in registry && ip in kept ==> registry[ip] == kept[ip]
      invariant forall ip :: ip in registry && ip !in kept ==> registry[ip] == started[ip]
      invariant Malformed(cfg.patterns) ==> forall ip :: ip in discovered && ip !in pending ==> ip in m.registry
      decreases |pending|
    {
      var ip :| ip in pending;
      if ip !in registry {
        var w, failed := StartOne(m, cfg, probe, ip);
        if failed {
          return registry, true;
        }
        if w.Some? {
          registry := registry[ip := w.value];
        }
      }
      pending := pending - {ip};
    }
    assert forall ip :: ip in kept ==> ip !in started;
    MapUnionPointwise(registry, kept, started);
    return registry, false;
  }

  /** A map that agrees key by key with the union of two disjoint maps is that union. */
  lemma MapUnionPointwise<K, V>(r: map<K, V>, a: map<K, V>, b: map<K, V>)
    requires forall k :: k in a ==> k !in b
    requires forall k :: k in r <==> k in a || k in b
    requires forall k :: k in r && k in a ==> r[k] == a[k]
    requires forall k :: k in r && k !in a ==> r[k] == b[k]
    ensures r == a + b
  {
  }

  /** `_sync_workers` as written: the two loops in sequence. */
  method SyncWorkers(m: Manager, discovered: set<string>, cfg: Config, probe: string -> bool) returns (r: SyncResult)
    ensures r == Reconcile(m, discovered, cfg, probe)
  {
    var kept, retired := RetireMissing(m.registry, discovered);
    var registry, crashed := StartNew(m, kept, discovered, cfg, probe);
    r := SyncResult(Manager(registry, m.cycle + 1, m.stopRequested), retired, crashed);
  }

  /** `stop`: set the manager's stop event and signal every registered
      worker; the registry keeps its entries. */
  function Stop(m: Manager): (r: Manager)
    ensures r.stopRequested
    ensures r.registry.Keys == m.registry.Keys
    ensures forall ip :: ip in r.registry ==> r.registry[ip] == StreamWorker.Stop(m.registry[ip])
  {
    Manager(map ip | ip in m.registry :: StreamWorker.Stop(m.registry[ip]), m.cycle, true)
  }

  // ---------------------------------------------------------------------
  // Properties of a reconciliation cycle
  // ---------------------------------------------------------------------

  /** The registry after a cycle that does not die: the prior cameras still
      discovered, plus the new cameras for which an endpoint was selected. */
  lemma RegistryKeys(m: Manager, discovered: set<string>, cfg: Config, probe: string -> bool)
    requires !Reconcile(m, discovered, cfg, probe).crashed
    ensures Reconcile(m, discovered, cfg, probe).manager.registry.Keys ==
              (m.registry.Keys * discovered) +
              (set ip | ip in discovered && ip !in m.registry && Endpoint(cfg, ip, probe).Some?)
  {
    var r := Reconcile(m, discovered, cfg, probe);
    assert forall ip :: ip in r.manager.registry ==> ip in m.registry || Endpoint(cfg, ip, probe).Some?;
  }

  /** A new camera whose selection fails stays out of the registry, and is
      tried again on the next cycle: once its probe succeeds it is registered. */
  lemma RetriedNextCycle(m: Manager, discovered: set<string>, cfg: Config, probe: string -> bool,
                         later: set<string>, probe': string -> bool, ip: string)
    requires ip in discovered && ip !in m.registry && Endpoint(cfg, ip, probe).None?
    requires ip in later && Endpoint(cfg, ip, probe').Some?
    ensures var r := Reconcile(m, discovered, cfg, probe);
            && ip !in r.manager.registry
            && var r' := Reconcile(r.manager, later, cfg, probe');
               ip in r'.manager.registry && r'.manager.registry[ip].rtspUrl == Endpoint(cfg, ip, probe').value
  {
  }

  /** The two-cycle story of a camera appearing and another leaving: with a
      worker for `a` only, discovering `a` and `b` starts a worker for `b`
      and leaves `a`'s alone; discovering `b` alone next retires `a`'s
      worker, signalled, and keeps `b`'s. */
  lemma AppearThenLeave(m: Manager, cfg: Config, probe: string -> bool, a: string, b: string)
    requires a != b && m.registry.Keys == {a}
    requires Endpoint(cfg, b, probe).Some?
    ensures var r1 := Reconcile(m, {a, b}, cfg, probe);
            var r2 := Reconcile(r1.manager, {b}, cfg, probe);
            && !r1.crashed && r1.retired == map[]
            && r1.manager.registry.Keys == {a, b} && r1.manager.registry[a] == m.registry[a]
            && !r2.crashed && r2.manager.registry.Keys == {b}
            && r2.manager.registry[b] == r1.manager.registry[b]
            && r2.retired.Keys == {a} && r2.retired[a] == StreamWorker.Stop(m.registry[a])
  {
    var r1 := Reconcile(m, {a, b}, cfg, probe);
    RegistryKeys(m, {a, b}, cfg, probe);
    assert r1.manager.registry.Keys == {a, b};
  }

  /** Stopping an already stopped manager changes nothing. */
  lemma StopIsIdempotent(m: Manager)
    ensures Stop(Stop(m)) == Stop(m)
  {
    assert Stop(Stop(m)).registry == Stop(m).registry;
  }
}

=== FILE: capture_session.dfy ===
/** The capture session store: a persisted map from `"{category}:{camera_ip}"`
    to a time-boxed, quota-bounded window during which frames from one camera
    are copied into the known dataset of one subject.

    Every operation of the source reads the whole document, changes it and
    writes it back; here each operation is a pure function from the store it
    read to the store it would write. The clock (`time.time()`) is the `now`
    parameter, and whether the file copy and the session write inside
    `append_image`'s `try` go through is the `copySucceeds` parameter. */
module CaptureSession {
  import opened Wrappers
  import opened Text

  /** One session record, with the fields the document stores. */
  datatype Session = Session(
    category: string,
    cameraIp: string,
    baseName: string,
    ttlSec: int,
    maxImages: int,
    count: int,
    lastUpdated: real)

  type Store = map<string, Session>

  /** What reading the sessions document can yield. */
  datatype Document = Missing | Unreadable | Parsed(sessions: Store)

  /** Defaults of `start_session`'s `ttl_sec` and `max_images` parameters. */
  const DefaultTtlSec: int := 10
  const DefaultMaxImages: int := 50

  /** A dataset destination: directory components under the repository root and a file name. */
  datatype Destination = Destination(directory: seq<string>, fileName: string)

  /** Result of `append_image`: the boolean it returns, the store as persisted
      afterwards, and the destination it tried to copy to (none when rejected). */
  datatype AppendResult = AppendResult(ok: bool, store: Store, dest: Option<Destination>)

  /** The document key of a session. */
  function Key(category: string, cameraIp: string): string
  {
    category + ":" + cameraIp
  }

  /** `_load_sessions`: a missing or unreadable document reads as an empty store. */
  function LoadSessions(doc: Document): (store: Store)
    ensures doc.Parsed? ==> store == doc.sessions
    ensures !doc.Parsed? ==> store == map[]
  {
    match doc
    case Parsed(sessions) => sessions
    case _ => map[]
  }

  /** `start_session`: the record for the key is replaced by a fresh one with
      `count = 0` and `last_updated = now`; every other record is untouched. */
  function StartSession(store: Store, category: string, cameraIp: string, baseName: string,
                        ttlSec: int, maxImages: int, now: real): (r: Store)
    ensures Key(category, cameraIp) in r
    ensures r[Key(category, cameraIp)].count == 0
    ensures r[Key(category, cameraIp)].lastUpdated == now
    ensures r[Key(category, cameraIp)] == Session(category, cameraIp, baseName, ttlSec, maxImages, 0, now)
    ensures r.Keys == store.Keys + {Key(category, cameraIp)}
    ensures forall k :: k in store && k != Key(category, cameraIp) ==> r[k] == store[k]
  {
    store[Key(category, cameraIp) := Session(category, cameraIp, baseName, ttlSec, maxImages, 0, now)]
  }

  /** `is_active`: a session exists, its quota is not used up, and at most
      `ttl_sec` seconds have passed since it was last touched. */
  function IsActive(store: Store, category: string, cameraIp: string, now: real): (active: bool)
    ensures Key(category, cameraIp) !in store ==> !active
    ensures Key(category, cameraIp) in store
            && store[Key(category, cameraIp)].count >= store[Key(category, cameraIp)].maxImages
            ==> !active
    ensures active <==>
              && Key(category, cameraIp) in store
              && store[Key(category, cameraIp)].count < store[Key(category, cameraIp)].maxImages
              && now - store[Key(category, cameraIp)].lastUpdated <= store[Key(category, cameraIp)].ttlSec as real
  {
    var key := Key(category, cameraIp);
    if key !in store then false
    else if store[key].count >= store[key].maxImages then false
    else now - store[key].lastUpdated <= store[key].ttlSec as real
  }

  /** `touch`: a present session gets `last_updated = now` and nothing else
      changes; an absent key leaves the store as it was. */
  function Touch(store: Store, category: string, cameraIp: string, now: real): (r: Store)
    ensures r.Keys == store.Keys
    ensures forall k :: k in store && k != Key(category, cameraIp) ==> r[k] == store[k]
    ensures Key(category, cameraIp) !in store ==> r == store
    ensures Key(category, cameraIp) in store ==>
              && r[Key(category, cameraIp)].lastUpdated == now
              && r[Key(category, cameraIp)].count == store[Key(category, cameraIp)].count
              && r[Key(category, cameraIp)] == store[Key(category, cameraIp)].(lastUpdated := now)
  {
    var key := Key(category, cameraIp);
    if key in store then store[key := store[key].(lastUpdated := now)] else store
  }

  /** The subject token: the part of the base name before its first `_`. */
  function SubjectToken(baseName: string): (t: string)
    ensures '_' !in t
    ensures StartsWith(baseName, t)
    ensures t == baseName || baseName[|t|] == '_'
  {
    BeforeFirst(baseName, '_')
  }

  /** The name of the `count`-th sample: `{stem}_{count:03d}.{ext}` split at the
      last dot, or `{base_name}_{count:03d}.png` when the base name has none. */
  function SampleFileName(baseName: string, count: int): string
  {
    SamplePrefix(baseName) + ZeroPaddedInt(count, 3) + SampleSuffix(baseName)
  }

  /** What comes before the sample number: the stem and `_`. */
  function SamplePrefix(baseName: string): string
  {
    match LastIndexOf(baseName, '.')
    case Some(k) => baseName[..k] + "_"
    case None => baseName + "_"
  }

  /** What comes after the sample number: the extension, `.png` by default. */
  function SampleSuffix(baseName: string): string
  {
    match LastIndexOf(baseName, '.')
    case Some(k) => "." + baseName[k + 1..]
    case None => ".png"
  }

  /** Where the `count`-th sample of a session goes: `data/{category}/known/{subject}/{file}`. */
  function SampleDestination(category: string, baseName: string, count: int): (d: Destination)
    ensures d.directory == ["data", category, "known", SubjectToken(baseName)]
  {
    Destination(["data", category, "known", SubjectToken(baseName)], SampleFileName(baseName, count))
  }

  /** The store `append_image` leaves behind: when the session is active and
      the copy succeeds, the session's count goes up by one and it is touched;
      otherwise the store is persisted as it was read. */
  function AppendedStore(store: Store, category: string, cameraIp: string, now: real,
                         copySucceeds: bool): (r: Store)
    ensures !(IsActive(store, category, cameraIp, now) && copySucceeds) ==> r == store
    ensures IsActive(store, category, cameraIp, now) && copySucceeds ==>
              && r.Keys == store.Keys
              && (forall k :: k in store && k != Key(category, cameraIp) ==> r[k] == store[k])
              && r[Key(category, cameraIp)].count == store[Key(category, cameraIp)].count + 1
              && r[Key(category, cameraIp)].lastUpdated == now
              && r[Key(category, cameraIp)]
                 == store[Key(category, cameraIp)].(count := store[Key(category, cameraIp)].count + 1,
                                                    lastUpdated := now)
    ensures ValidStore(store) ==> ValidStore(r)
  {
    var key := Key(category, cameraIp);
    if IsActive(store, category, cameraIp, now) && copySucceeds then
      store[key := store[key].(count := store[key].count + 1, lastUpdated := now)]
    else store
  }

  /** `append_image`. It is rejected (false, store unchanged, nothing copied)
      unless the session is active. Otherwise the copy to the next sequential
      destination is attempted; only when it succeeds is the store persisted
      with `count + 1` and `last_updated = now`. */
  function AppendImage(store: Store, category: string, cameraIp: string, now: real,
                       copySucceeds: bool): (r: AppendResult)
    ensures r.dest.Some? <==> IsActive(store, category, cameraIp, now)
    ensures r.ok <==> IsActive(store, category, cameraIp, now) && copySucceeds
    ensures r.store == AppendedStore(store, category, cameraIp, now, copySucceeds)
    ensures !r.ok ==> r.store == store
    ensures r.ok ==>
              && r.store.Keys == store.Keys
              && (forall k :: k in store && k != Key(category, cameraIp) ==> r.store[k] == store[k])
              && r.store[Key(category, cameraIp)].count == store[Key(category, cameraIp)].count + 1
              && r.store[Key(category, cameraIp)].lastUpdated == now
              && r.store[Key(category, cameraIp)]
                 == store[Key(category, cameraIp)].(count := store[Key(category, cameraIp)].count + 1,
                                                    lastUpdated := now)
    ensures r.dest.Some? ==>
              && store[Key(category, cameraIp)].count + 1 <= store[Key(category, cameraIp)].maxImages
              && r.dest.value == SampleDestination(category, store[Key(category, cameraIp)].baseName,
                                                   store[Key(category, cameraIp)].count + 1)
    ensures ValidStore(store) ==> ValidStore(r.store)
  {
    var key := Key(category, cameraIp);
    if !IsActive(store, category, cameraIp, now) then
      AppendResult(false, store, None)
    else
      var s := store[key];
      AppendResult(copySucceeds, AppendedStore(store, category, cameraIp, now, copySucceeds),
                   Some(SampleDestination(category, s.baseName, s.count + 1)))
  }

  // ---------------------------------------------------------------------
  // The quota invariant
  // ---------------------------------------------------------------------

  /** A session never holds more samples than its quota (a fresh session with a
      non-positive quota holds none). */
  predicate WithinQuota(s: Session)
  {
    0 <= s.count && (s.count == 0 || s.count <= s.maxImages)
  }

  predicate ValidStore(store: Store)
  {
    forall k :: k in store ==> WithinQuota(store[k])
  }

  /** Every operation that writes the store keeps the quota invariant. */
  lemma OperationsKeepQuota(store: Store, category: string, cameraIp: string, baseName: string,
                            ttlSec: int, maxImages: int, now: real, copySucceeds: bool)
    requires ValidStore(store)
    ensures ValidStore(StartSession(store, category, cameraIp, baseName, ttlSec, maxImages, now))
    ensures ValidStore(Touch(store, category, cameraIp, now))
    ensures ValidStore(AppendImage(store, category, cameraIp, now, copySucceeds).store)
  {
  }

  /** A session whose quota is used up stays inactive for good: no `touch`, at
      any time, revives it, and every later `append_image` is rejected. */
  lemma QuotaExhaustedIsFinal(store: Store, category: string, cameraIp: string,
                              touchTime: real, later: real, copySucceeds: bool)
    requires Key(category, cameraIp) in store
    requires store[Key(category, cameraIp)].count >= store[Key(category, cameraIp)].maxImages
    ensures !IsActive(Touch(store, category, cameraIp, touchTime), category, cameraIp, later)
    ensures !AppendImage(Touch(store, category, cameraIp, touchTime), category, cameraIp, later, copySucceeds).ok
    ensures AppendImage(store, category, cameraIp, later, copySucceeds).store == store
  {
  }

  /** A session whose time-to-live has elapsed since its last touch is
      inactive, whatever quota remains. */
  lemma ExpiredIsInactive(store: Store, category: string, cameraIp: string, now: real)
    requires Key(category, cameraIp) in store
    requires now - store[Key(category, cameraIp)].lastUpdated > store[Key(category, cameraIp)].ttlSec as real
    ensures !IsActive(store, category, cameraIp, now)
  {
  }

  /** Right after `start_session` the session is active exactly when its quota
      is positive and its time-to-live is not negative, whatever the key held before. */
  lemma StartedSessionIsActive(store: Store, category: string, cameraIp: string, baseName: string,
                               ttlSec: int, maxImages: int, now: real)
    ensures IsActive(StartSession(store, category, cameraIp, baseName, ttlSec, maxImages, now),
                     category, cameraIp, now)
            <==> maxImages > 0 && ttlSec >= 0
  {
  }

  // ---------------------------------------------------------------------
  // Runs of appends
  // ---------------------------------------------------------------------

  /** `n` calls of `append_image` at the same instant, every copy succeeding:
      the final store and how many calls returned true. */
  function AppendBurst(store: Store, category: string, cameraIp: string, now: real, n: nat): (Store, nat)
    decreases n
  {
    if n == 0 then (store, 0)
    else
      var rest := AppendBurst(AppendedStore(store, category, cameraIp, now, true), category, cameraIp, now, n - 1);
      (rest.0, rest.1 + (if IsActive(store, category, cameraIp, now) then 1 else 0))
  }

  function Min(a: int, b: int): int
  {
    if a <= b then a else b
  }

  /** Within the time-to-live, a burst of `n` appends is accepted exactly
      `min(n, max_images - count)` times: the quota is filled and never exceeded. */
  lemma {:induction false} BurstFillsQuota(store: Store, category: string, cameraIp: string, now: real, n: nat)
    requires Key(category, cameraIp) in store
    requires WithinQuota(store[Key(category, cameraIp)])
    requires now - store[Key(category, cameraIp)].lastUpdated <= store[Key(category, cameraIp)].ttlSec as real
    requires store[Key(category, cameraIp)].ttlSec >= 0
    ensures var s := store[Key(category, cameraIp)];
            var burst := AppendBurst(store, category, cameraIp, now, n);
            var room := if s.count < s.maxImages then s.maxImages - s.count else 0;
            && burst.1 == Min(n, room)
            && Key(category, cameraIp) in burst.0
            && burst.0[Key(category, cameraIp)].count == s.count + Min(n, room)
            && WithinQuota(burst.0[Key(category, cameraIp)])
    decreases n
  {
    if n > 0 {
      var next, ok := BurstStep(store, category, cameraIp, now, n);
      BurstFillsQuota(next, category, cameraIp, now, n - 1);
      var s, s' := store[Key(category, cameraIp)], next[Key(category, cameraIp)];
      var room := if s.count < s.maxImages then s.maxImages - s.count else 0;
      var room' := if s'.count < s'.maxImages then s'.maxImages - s'.count else 0;
      MinStep(n, room, room', ok);
    }
  }

  /** The count of a burst after one step: an accepted append uses one unit
      of room, a rejected one finds none. */
  lemma MinStep(n: nat, room: int, room': int, ok: bool)
    requires n > 0
    requires ok ==> room > 0 && room' == room - 1
    requires !ok ==> room == 0 && room' == 0
    ensures Min(n - 1, room') + (if ok then 1 else 0) == Min(n, room)
  {
  }

  /** One append of a burst: within the time-to-live it is accepted exactly
      while the quota has room, and the session stays fresh. */
  lemma BurstStep(store: Store, category: string, cameraIp: string, now: real, n: nat) returns (next: Store, ok: bool)
    requires n > 0
    requires Key(category, cameraIp) in store
    requires WithinQuota(store[Key(category, cameraIp)])
    requires now - store[Key(category, cameraIp)].lastUpdated <= store[Key(category, cameraIp)].ttlSec as real
    requires store[Key(category, cameraIp)].ttlSec >= 0
    ensures var s := store[Key(category, cameraIp)];
            && next == AppendedStore(store, category, cameraIp, now, true)
            && ok == IsActive(store, category, cameraIp, now)
            && (ok <==> s.count < s.maxImages)
            && Key(category, cameraIp) in next
            && next[Key(category, cameraIp)].count == s.count + (if ok then 1 else 0)
            && next[Key(category, cameraIp)].maxImages == s.maxImages
            && next[Key(category, cameraIp)].ttlSec == s.ttlSec
            && now - next[Key(category, cameraIp)].lastUpdated <= next[Key(category, cameraIp)].ttlSec as real
            && WithinQuota(next[Key(category, cameraIp)])
    ensures var rest := AppendBurst(next, category, cameraIp, now, n - 1);
            AppendBurst(store, category, cameraIp, now, n) == (rest.0, rest.1 + if ok then 1 else 0)
  {
    next, ok := AppendedStore(store, category, cameraIp, now, true), IsActive(store, category, cameraIp, now);
  }

  // ---------------------------------------------------------------------
  // File names
  // ---------------------------------------------------------------------

  lemma ConcatCancel(p: string, x: string, y: string, q: string)
    requires p + x + q == p + y + q
    ensures x == y
  {
    assert |x| == |y|;
    assert x == (p + x + q)[|p|..|p| + |x|];
    assert y == (p + y + q)[|p|..|p| + |y|];
  }

  /** A base name `stem.ext` (no dot in `ext`) gives `stem_NNN.ext`. */
  lemma SampleFileNameWithExtension(stem: string, ext: string, count: nat)
    requires '.' !in ext
    ensures SampleFileName(stem + ("." + ext), count) == (stem + "_") + ZeroPadded(count, 3) + ("." + ext)
  {
    assert stem + ("." + ext) == stem + "." + ext;
    SampleAffixes(stem, ext);
  }

  /** A base name without a dot is numbered as `{base_name}_NNN.png`. */
  lemma SampleFileNameWithoutDot(baseName: string, count: nat)
    requires '.' !in baseName
    ensures SampleFileName(baseName, count) == baseName + "_" + ZeroPadded(count, 3) + ".png"
  {
    assert LastIndexOf(baseName, '.').None?;
  }

  /** The prefix and suffix around the sample number of `stem.ext`. */
  lemma SampleAffixes(stem: string, ext: string)
    requires '.' !in ext
    ensures SamplePrefix(stem + "." + ext) == stem + "_"
    ensures SampleSuffix(stem + "." + ext) == "." + ext
  {
    var b := stem + ['.'] + ext;
    LastIndexBeforeSuffix(stem, '.', ext);
    assert b[..|stem|] == stem && b[|stem| + 1..] == ext;
  }

  /** Distinct sample numbers give distinct file names, so the samples of one
      session never overwrite each other. */
  lemma SampleFileNamesDistinct(baseName: string, m: int, n: int)
    requires SampleFileName(baseName, m) == SampleFileName(baseName, n)
    ensures m == n
  {
    ConcatCancel(SamplePrefix(baseName), ZeroPaddedInt(m, 3), ZeroPaddedInt(n, 3), SampleSuffix(baseName));
    ZeroPaddedIntInjective(m, n, 3);
  }

  // ---------------------------------------------------------------------
  // Worked example
  // ---------------------------------------------------------------------

  lemma ZeroPaddedOneDigit(d: nat)
    requires 1 <= d <= 9
    ensures ZeroPadded(d, 3) == "00" + [DigitChar(d)]
  {
    assert NatToString(d) == [DigitChar(d)];
    assert Zeros(2) == "00";
  }

  /** The subject token of a base name `juan_...` is `juan`. */
  lemma JuanSubject(rest: string)
    ensures SubjectToken("juan" + ['_'] + rest) == "juan"
  {
    BeforeFirstOfJoined("juan", '_', rest);
  }

  /** The `n`-th sample of a `{stem}.png` session is `{stem}_{n:03d}.png`. */
  lemma PngSampleName(stem: string, n: nat, digits: string)
    requires ZeroPadded(n, 3) == digits
    ensures SampleFileName(stem + ".png", n) == (stem + "_") + digits + ".png"
  {
    assert "." + "png" == ".png";
    SampleFileNameWithExtension(stem, "png", n);
  }

  /** The first sample of a `{stem}.png` session is `{stem}_001.png`. */
  lemma FirstPngSampleName(stem: string)
    ensures SampleFileName(stem + ".png", 1) == stem + "_001.png"
  {
    SmallSampleName(stem, 1, "001", "_001.png");
  }

  /** A one-digit sample number `d` of a `{stem}.png` session names `{stem}_00d.png`. */
  lemma SmallSampleName(stem: string, d: nat, digits: string, tail: string)
    requires 1 <= d <= 9 && digits == "00" + [DigitChar(d)] && tail == "_" + digits + ".png"
    ensures SampleFileName(stem + ".png", d) == stem + tail
  {
    ZeroPaddedOneDigit(d);
    PngSampleName(stem, d, digits);
    Reassociate(stem, "_", digits, ".png");
  }

  lemma Reassociate(a: string, b: string, c: string, d: string)
    ensures (a + b) + c + d == a + (b + c + d)
  {
  }

  /** Four quick appends to a fresh session with quota 3: the first three are
      accepted as samples 1, 2 and 3 and the fourth is rejected. */
  lemma FreshSessionOfThree(store: Store, category: string, cameraIp: string, baseName: string, t: real)
    ensures var s0 := StartSession(store, category, cameraIp, baseName, 10, 3, t);
            var r1 := AppendImage(s0, category, cameraIp, t, true);
            var r2 := AppendImage(r1.store, category, cameraIp, t, true);
            var r3 := AppendImage(r2.store, category, cameraIp, t, true);
            var r4 := AppendImage(r3.store, category, cameraIp, t, true);
            && r1.ok && r2.ok && r3.ok && !r4.ok
            && r1.dest == Some(SampleDestination(category, baseName, 1))
            && r2.dest == Some(SampleDestination(category, baseName, 2))
            && r3.dest == Some(SampleDestination(category, baseName, 3))
            && r4.dest == None
  {
    var key := Key(category, cameraIp);
    var s0 := StartSession(store, category, cameraIp, baseName, 10, 3, t);
    var r1 := AppendImage(s0, category, cameraIp, t, true);
    assert r1.ok && r1.store[key] == s0[key].(count := 1);
    var r2 := AppendImage(r1.store, category, cameraIp, t, true);
    assert r2.ok && r2.store[key] == s0[key].(count := 2);
    var r3 := AppendImage(r2.store, category, cameraIp, t, true);
    assert r3.ok && r3.store[key] == s0[key].(count := 3);
  }
}

=== FILE: labeling_webhook.dfy ===
/** The WhatsApp labeling conversation: a per-phone-number step machine that
    asks whether an unknown detection is known, what it is, and its name or
    plate, and then files the newest unknown snapshot of that category under
    the known dataset with a descriptive name.

    One webhook call is one pure step from the conversation table it read to
    the table it leaves, plus what it did: the reply it chose, whether it
    fired the alarm, and the filing it attempted. The directory listing
    (newest `*.jpg` under `data/{category}/unknown`) and the existence check
    of `move_and_rename` are oracles. */
module LabelingWebhook {
  import opened Wrappers
  import opened Text

  // ---------------------------------------------------------------------
  // Conversation state
  // ---------------------------------------------------------------------

  /** The `step` of a conversation; `Unrecognised` is any other value. */
  datatype Step =
    | Initial
    | AskType
    | AskPersonName
    | AskPersonGender
    | AskVehicleType
    | AskVehicleOtherType
    | AskVehiclePlate
    | AskPetName
    | AskPetType
    | AskPetOtherType
    | Unrecognised

  /** The fields a conversation accumulates. `cameraIp` is read when naming
      the file but no step ever writes it. */
  datatype Conversation = Conversation(
    step: Step,
    category: Option<string>,
    name: Option<string>,
    gender: Option<string>,
    vehicleType: Option<string>,
    plate: Option<string>,
    owner: Option<string>,
    petType: Option<string>,
    cameraIp: Option<string>)

  /** The conversation table, keyed by the sender's phone number. */
  type Table = map<string, Conversation>

  /** A conversation at `step` with nothing recorded yet. */
  function Fresh(step: Step): Conversation
  {
    Conversation(step, None, None, None, None, None, None, None, None)
  }

  /** What the steps read from a stored conversation is there: the name when
      asking the gender or the pet type, the vehicle type when asking the
      plate. Every conversation the webhook stores has this shape. */
  predicate WellFormed(c: Conversation)
  {
    && (c.step in {AskPersonGender, AskPetType, AskPetOtherType} ==> c.name.Some?)
    && (c.step == AskVehiclePlate ==> c.vehicleType.Some?)
  }

  predicate WellFormedTable(t: Table)
  {
    forall p :: p in t ==> WellFormed(t[p])
  }

  // ---------------------------------------------------------------------
  // Menus and file names
  // ---------------------------------------------------------------------

  const Genders: seq<string> := ["Masculino", "Femenino"]
  const VehicleTypes: seq<string> := ["Carro", "Bicicleta", "Motocicleta", "Scooter", "Otros"]
  const PetTypes: seq<string> := ["Perro", "Gato", "Gallina", "Conejo", "Cabra", "Otros"]

  /** The menu option a reply selects among `count` numbered options (at most
      nine): the reply is exactly one of the digits `1`..`count`. */
  function Choice(msg: string, count: nat): (k: Option<nat>)
    requires count <= 9
    ensures k.Some? ==> k.value < count && msg == [DigitChar(k.value + 1)]
    ensures k.None? ==> forall j: nat :: 1 <= j <= count ==> msg != [DigitChar(j)]
  {
    if |msg| == 1 && '1' <= msg[0] && msg[0] as int - '0' as int <= count then
      var k := msg[0] as int - '1' as int;
      assert msg == [DigitChar(k + 1)];
      Some(k)
    else None
  }

  /** `s.lower().replace(' ', '_')`. */
  function Slug(s: string): (r: string)
    ensures |r| == |s| && ' ' !in r
  {
    ReplaceChar(Lower(s), ' ', '_')
  }

  /** The camera part of a file name: the recorded camera, or "unknown",
      with dots turned into underscores. */
  function CameraTag(cameraIp: Option<string>): (r: string)
    ensures '.' !in r
  {
    ReplaceChar(cameraIp.GetOr("unknown"), '.', '_')
  }

  /** `{head}_{kind.lower()}_{camera}.png`, the name a labelled snapshot is filed under. */
  function LabelFileName(head: string, kind: string, cameraIp: Option<string>): string
  {
    head + "_" + Lower(kind) + "_" + CameraTag(cameraIp) + ".png"
  }

  /** The plate heuristic: once `-` and spaces are removed the reply is
      non-empty and alphanumeric, and the reply has at most ten characters. */
  predicate LooksLikePlate(msg: string)
  {
    IsAlnumString(RemoveChar(RemoveChar(msg, '-'), ' ')) && |msg| <= 10
  }

  // ---------------------------------------------------------------------
  // Filing a snapshot
  // ---------------------------------------------------------------------

  /** A file path as components under the repository root. */
  type Path = seq<string>

  /** Where a category's unknown snapshots are. */
  function UnknownPath(category: string, fileName: string): Path
  {
    ["data", category, "unknown", fileName]
  }

  /** What `move_and_rename` does: returns false when the unknown file is
      missing, moves it to `dest`, or raises while creating the directory,
      copying or unlinking. */
  datatype Move = Absent | MovedTo(dest: Path) | RaisedAt(dest: Path)

  /** `move_and_rename`: nothing when the unknown file is missing; otherwise
      the file goes to `data/{category}/known/{first '_' piece of the new
      name}/{new name}`, unless the file operations raise. */
  function MoveAndRename(category: string, oldName: string, newName: string,
                         sourceExists: bool, fileOpsSucceed: bool): (m: Move)
    ensures m.Absent? <==> !sourceExists
    ensures m.RaisedAt? <==> sourceExists && !fileOpsSucceed
    ensures !m.Absent? ==> |m.dest| == 5 && m.dest[..3] == ["data", category, "known"]
    ensures !m.Absent? ==> m.dest[4] == newName && '_' !in m.dest[3]
    ensures !m.Absent? ==> StartsWith(newName, m.dest[3])
    ensures !m.Absent? ==> m.dest[3] == newName || newName[|m.dest[3]|] == '_'
  {
    if !sourceExists then Absent
    else
      var dest := ["data", category, "known", BeforeFirst(newName, '_'), newName];
      if fileOpsSucceed then MovedTo(dest) else RaisedAt(dest)
  }

  /** The file system as the webhook sees it: the newest unknown `*.jpg` of
      a category, if any, whether a file is present when it is moved, and
      whether moving a file from one path to another goes through. */
  datatype Archive = Archive(
    newestUnknown: string -> Option<string>,
    present: Path -> bool,
    fileOpsSucceed: (Path, Path) -> bool)

  /** What filing the snapshot did. */
  datatype FileResult =
    | NoUnknownImage
    | SourceMissing
    | Moved(source: Path, dest: Path)
    | CopyRaised(source: Path, dest: Path)

  /** The filing attempted at the end of a branch. */
  datatype Filing = Filing(category: string, newName: string, result: FileResult)

  /** The newest unknown snapshot of `category`, moved to `newName`. */
  function FileNewest(category: string, newName: string, archive: Archive): (f: Filing)
    ensures f.category == category && f.newName == newName
    ensures f.result.NoUnknownImage? <==> archive.newestUnknown(category).None?
    ensures f.result.Moved? || f.result.CopyRaised? ==>
              var oldName := archive.newestUnknown(category).value;
              && f.result.source == UnknownPath(category, oldName)
              && archive.present(f.result.source)
              && MoveAndRename(category, oldName, newName, true, true).dest == f.result.dest
              && (f.result.CopyRaised? <==> !archive.fileOpsSucceed(f.result.source, f.result.dest))
  {
    match archive.newestUnknown(category)
    case None => Filing(category, newName, NoUnknownImage)
    case Some(oldName) =>
      var source := UnknownPath(category, oldName);
      var dest := MoveAndRename(category, oldName, newName, true, true).dest;
      match MoveAndRename(category, oldName, newName, archive.present(source), archive.fileOpsSucceed(source, dest))
      case Absent => Filing(category, newName, SourceMissing)
      case MovedTo(dest) => Filing(category, newName, Moved(source, dest))
      case RaisedAt(dest) => Filing(category, newName, CopyRaised(source, dest))
  }

  // ---------------------------------------------------------------------
  // One webhook call
  // ---------------------------------------------------------------------

  /** Which message the call answers with or sends. `ServerError` stands
      for a call that raised: Flask answers with an internal server error
      instead of a reply. */
  datatype Reply =
    | EmptyNotice
    | KnownTypeMenu
    | AlarmNotice
    | InvalidChoice
    | NamePrompt
    | GenderMenu
    | VehicleTypeMenu
    | OtherTypePrompt
    | PlatePrompt
    | PetTypeMenu
    | Confirmation
    | SaveError
    | Silent
    | StateReset
    | ServerError

  datatype Outcome = Outcome(table: Table, reply: Reply, alarm: bool, filing: Option<Filing>)

  /** Only the sender's entry of the table differs between `t` and `t'`. */
  ghost predicate OnlySenderChanged(t: Table, t': Table, from: string)
  {
    forall p :: p != from ==> (p in t' <==> p in t) && (p in t ==> t'[p] == t[p])
  }

  /** What a step may do to the table: keep it well formed, touch only the
      sender's entry, and either leave the sender's camera as it was or
      start without one. */
  ghost predicate SoundStep(t: Table, from: string, o: Outcome)
  {
    && WellFormedTable(o.table)
    && OnlySenderChanged(t, o.table, from)
    && (from in o.table ==> o.table[from].cameraIp.None? || (from in t && o.table[from].cameraIp == t[from].cameraIp))
  }

  /** The reply after a filing: a confirmation when the file moved, an error
      when it vanished, nothing when there was no unknown snapshot, and a
      server error when the file operations raised. */
  function FilingReply(f: Filing): Reply
  {
    match f.result
    case Moved(_, _) => Confirmation
    case SourceMissing => SaveError
    case NoUnknownImage => Silent
    case CopyRaised(_, _) => ServerError
  }

  /** End the conversation after filing the newest snapshot of `category`
      under `{head}_{kind}_{camera}.png`. `answered` is the stored
      conversation with the answer just given recorded in it: the step
      updates the stored record in place before filing, so when the file
      operations raise, the record keeps the answer, stays at its step, and
      is not forgotten. */
  function Finish(t: Table, from: string, answered: Conversation, category: string, head: string, kind: string,
                  archive: Archive): (o: Outcome)
    requires WellFormedTable(t) && from in t && WellFormed(answered)
    requires answered.cameraIp == t[from].cameraIp
    ensures SoundStep(t, from, o) && !o.alarm
    ensures o.filing == Some(FileNewest(category, LabelFileName(head, kind, answered.cameraIp), archive))
    ensures EndsWith(o.filing.value.newName, "_" + CameraTag(answered.cameraIp) + ".png")
    ensures o.reply == FilingReply(o.filing.value)
    ensures from in o.table <==> o.filing.value.result.CopyRaised?
    ensures from in o.table ==> o.table[from] == answered
  {
    var newName := LabelFileName(head, kind, answered.cameraIp);
    assert newName == (head + "_" + Lower(kind)) + ("_" + CameraTag(answered.cameraIp) + ".png");
    var f := FileNewest(category, newName, archive);
    if f.result.CopyRaised? then Keep(t, from, answered, ServerError, f)
    else Forget(t, from, FilingReply(f), f)
  }

  /** The sender's record after a filing that raised: stored as answered. */
  function Keep(t: Table, from: string, answered: Conversation, reply: Reply, f: Filing): (o: Outcome)
    requires WellFormedTable(t) && from in t && WellFormed(answered)
    requires answered.cameraIp == t[from].cameraIp
    ensures SoundStep(t, from, o)
    ensures from in o.table && o.table[from] == answered
    ensures o.reply == reply && !o.alarm && o.filing == Some(f)
  {
    Outcome(t[from := answered], reply, false, Some(f))
  }

  /** The sender's record after a filing that completed: removed. */
  function Forget(t: Table, from: string, reply: Reply, f: Filing): (o: Outcome)
    requires WellFormedTable(t)
    ensures SoundStep(t, from, o)
    ensures from !in o.table
    ensures o.reply == reply && !o.alarm && o.filing == Some(f)
  {
    Outcome(t - {from}, reply, false, Some(f))
  }

  /** Store the sender's conversation and wait for the next message. */
  function Continue(t: Table, from: string, c: Conversation, reply: Reply): (o: Outcome)
    requires WellFormedTable(t) && WellFormed(c)
    requires c.cameraIp.None? || (from in t && c.cameraIp == t[from].cameraIp)
    ensures SoundStep(t, from, o)
    ensures from in o.table && o.table[from] == c && !o.alarm && o.filing.None?
  {
    Outcome(t[from := c], reply, false, None)
  }

  function Unchanged(t: Table, reply: Reply): (o: Outcome)
    requires WellFormedTable(t)
    ensures forall from :: SoundStep(t, from, o)
    ensures o.table == t && !o.alarm && o.filing.None?
  {
    Outcome(t, reply, false, None)
  }

  /** The first message: 1 (known) opens a new conversation, 2 (unknown)
      fires the alarm and forgets the conversation. */
  function OnInitial(t: Table, from: string, msg: string): (o: Outcome)
    requires WellFormedTable(t)
    ensures SoundStep(t, from, o) && o.filing.None?
    ensures o.alarm <==> msg == "2"
  {
    if msg == "1" then Continue(t, from, Fresh(AskType), KnownTypeMenu)
    else if msg == "2" then Outcome(t - {from}, AlarmNotice, true, None)
    else Unchanged(t, InvalidChoice)
  }

  function OnAskType(t: Table, from: string, msg: string): (o: Outcome)
    requires WellFormedTable(t) && from in t && t[from].step == AskType
    ensures SoundStep(t, from, o) && !o.alarm && o.filing.None?
  {
    var c := t[from];
    if msg == "1" then Continue(t, from, c.(category := Some("faces"), step := AskPersonName), NamePrompt)
    else if msg == "2" then Continue(t, from, c.(category := Some("vehicles"), step := AskVehicleType), VehicleTypeMenu)
    else if msg == "3" then Continue(t, from, c.(category := Some("pets"), step := AskPetName), NamePrompt)
    else Unchanged(t, InvalidChoice)
  }

  function OnPersonGender(t: Table, from: string, msg: string, archive: Archive): (o: Outcome)
    requires WellFormedTable(t) && from in t && t[from].step == AskPersonGender
    ensures SoundStep(t, from, o) && !o.alarm
    ensures o.filing.Some? ==> EndsWith(o.filing.value.newName, "_" + CameraTag(t[from].cameraIp) + ".png")
  {
    var c := t[from];
    match Choice(msg, |Genders|)
    case None => Unchanged(t, InvalidChoice)
    case Some(k) => Finish(t, from, c.(gender := Some(Genders[k])), "faces", Slug(c.name.value), Genders[k], archive)
  }

  function OnVehicleType(t: Table, from: string, msg: string): (o: Outcome)
    requires WellFormedTable(t) && from in t && t[from].step == AskVehicleType
    ensures SoundStep(t, from, o) && !o.alarm && o.filing.None?
  {
    var c := t[from];
    match Choice(msg, |VehicleTypes|)
    case None => Unchanged(t, InvalidChoice)
    case Some(k) =>
      if k == |VehicleTypes| - 1 then Continue(t, from, c.(step := AskVehicleOtherType), OtherTypePrompt)
      else Continue(t, from, c.(vehicleType := Some(VehicleTypes[k]), step := AskVehiclePlate), PlatePrompt)
  }

  /** The plate question: a reply that looks like a plate names the file by
      the plate, upper-cased; any other reply is the owner's name. */
  function OnVehiclePlate(t: Table, from: string, msg: string, archive: Archive): (o: Outcome)
    requires WellFormedTable(t) && from in t && t[from].step == AskVehiclePlate
    ensures SoundStep(t, from, o) && !o.alarm
    ensures o.filing.Some? ==> EndsWith(o.filing.value.newName, "_" + CameraTag(t[from].cameraIp) + ".png")
  {
    var c := t[from];
    if LooksLikePlate(msg) then
      Finish(t, from, c.(plate := Some(Upper(msg))), "vehicles", Upper(msg), c.vehicleType.value, archive)
    else
      Finish(t, from, c.(owner := Some(msg)), "vehicles", Slug(msg), c.vehicleType.value, archive)
  }

  function OnPetType(t: Table, from: string, msg: string, archive: Archive): (o: Outcome)
    requires WellFormedTable(t) && from in t && t[from].step == AskPetType
    ensures SoundStep(t, from, o) && !o.alarm
    ensures o.filing.Some? ==> EndsWith(o.filing.value.newName, "_" + CameraTag(t[from].cameraIp) + ".png")
  {
    var c := t[from];
    match Choice(msg, |PetTypes|)
    case None => Unchanged(t, InvalidChoice)
    case Some(k) =>
      if k == |PetTypes| - 1 then Continue(t, from, c.(step := AskPetOtherType), OtherTypePrompt)
      else Finish(t, from, c.(petType := Some(PetTypes[k])), "pets", Slug(c.name.value), PetTypes[k], archive)
  }

  /** The free-text answers: a person's or pet's name, a vehicle type, a
      pet type; each is recorded as typed. */
  function OnFreeText(t: Table, from: string, msg: string, archive: Archive): (o: Outcome)
    requires WellFormedTable(t) && from in t
    requires t[from].step in {AskPersonName, AskVehicleOtherType, AskPetName, AskPetOtherType}
    ensures SoundStep(t, from, o) && !o.alarm
    ensures o.filing.Some? ==> EndsWith(o.filing.value.newName, "_" + CameraTag(t[from].cameraIp) + ".png")
  {
    var c := t[from];
    match c.step
    case AskPersonName => Continue(t, from, c.(name := Some(msg), step := AskPersonGender), GenderMenu)
    case AskVehicleOtherType => Continue(t, from, c.(vehicleType := Some(msg), step := AskVehiclePlate), PlatePrompt)
    case AskPetName => Continue(t, from, c.(name := Some(msg), step := AskPetType), PetTypeMenu)
    case AskPetOtherType => Finish(t, from, c.(petType := Some(msg)), "pets", Slug(c.name.value), msg, archive)
  }

  /** A sound step that, when it files a snapshot, names the file after the
      sender's recorded camera. */
  ghost predicate SoundFiling(t: Table, from: string, o: Outcome)
  {
    && SoundStep(t, from, o)
    && (o.filing.Some? ==> from in t && EndsWith(o.filing.value.newName, "_" + CameraTag(t[from].cameraIp) + ".png"))
  }

  /** The step a stored conversation takes on a non-empty reply. */
  function Dispatch(t: Table, from: string, msg: string, archive: Archive): (o: Outcome)
    requires WellFormedTable(t) && from in t
    ensures SoundFiling(t, from, o)
    ensures o.alarm <==> msg == "2" && t[from].step == Initial
  {
    match t[from].step
    case Initial => OnInitial(t, from, msg)
    case AskType => OnAskType(t, from, msg)
    case AskPersonGender => OnPersonGender(t, from, msg, archive)
    case AskVehicleType => OnVehicleType(t, from, msg)
    case AskVehiclePlate => OnVehiclePlate(t, from, msg, archive)
    case AskPetType => OnPetType(t, from, msg, archive)
    case Unrecognised => Outcome(t - {from}, StateReset, false, None)
    case AskPersonName => OnFreeText(t, from, msg, archive)
    case AskVehicleOtherType => OnFreeText(t, from, msg, archive)
    case AskPetName => OnFreeText(t, from, msg, archive)
    case AskPetOtherType => OnFreeText(t, from, msg, archive)
  }

  /** `whatsapp_webhook` for a message `body` from `from`: the reply is
      stripped first; an empty reply changes nothing; otherwise the stored
      conversation (none counts as initial) takes one step. The table stays
      well formed, only the sender's entry changes, and the alarm fires
      exactly on "2" from the initial state. */
  function Receive(t: Table, from: string, body: string, archive: Archive): (o: Outcome)
    requires WellFormedTable(t)
    ensures SoundStep(t, from, o)
    ensures o.alarm <==> Strip(body) == "2" && (from !in t || t[from].step == Initial)
    ensures o.filing.Some? ==>
              from in t && EndsWith(o.filing.value.newName, "_" + CameraTag(t[from].cameraIp) + ".png")
  {
    var msg := Strip(body);
    if msg == [] then Unchanged(t, EmptyNotice)
    else if from !in t then OnInitial(t, from, msg)
    else Dispatch(t, from, msg, archive)
  }

  // ---------------------------------------------------------------------
  // Properties of a webhook call
  // ---------------------------------------------------------------------

  /** A message that is empty or only whitespace changes nothing. */
  lemma BlankMessageIgnored(t: Table, from: string, body: string, archive: Archive)
    requires WellFormedTable(t) && AllSpace(body)
    ensures Receive(t, from, body, archive) == Outcome(t, EmptyNotice, false, None)
  {
  }

  /** From no conversation (or an initial one): "1" opens a conversation at
      the type question, "2" fires the alarm and forgets the sender, anything
      else changes nothing. */
  lemma InitialTransitions(t: Table, from: string, body: string, archive: Archive)
    requires WellFormedTable(t) && (from !in t || t[from].step == Initial)
    ensures var o := Receive(t, from, body, archive);
            && (Strip(body) == "1" ==> from in o.table && o.table[from] == Fresh(AskType))
            && (Strip(body) == "2" ==> from !in o.table && o.alarm)
            && (Strip(body) != "1" && Strip(body) != "2" ==> o.table == t && !o.alarm)
  {
  }

  /** The type question: 1, 2 and 3 pick faces, vehicles and pets and move
      to their first question; any other reply changes nothing. */
  lemma TypeTransitions(t: Table, from: string, body: string, archive: Archive)
    requires WellFormedTable(t) && from in t && t[from].step == AskType
    ensures var o := Receive(t, from, body, archive);
            var c := t[from];
            && (Strip(body) == "1" ==> o.table[from] == c.(category := Some("faces"), step := AskPersonName))
            && (Strip(body) == "2" ==> o.table[from] == c.(category := Some("vehicles"), step := AskVehicleType))
            && (Strip(body) == "3" ==> o.table[from] == c.(category := Some("pets"), step := AskPetName))
            && (Strip(body) !in {"1", "2", "3"} ==> o.table == t && o.reply in {InvalidChoice, EmptyNotice})
  {
  }

  /** A reply that is not one of a menu's numbers leaves the conversation as
      it was, at the gender, vehicle-type and pet-type menus alike. */
  lemma InvalidMenuReplyKeepsState(t: Table, from: string, body: string, archive: Archive)
    requires WellFormedTable(t) && from in t
    requires var s := t[from].step;
             || (s == AskPersonGender && Choice(Strip(body), |Genders|).None?)
             || (s == AskVehicleType && Choice(Strip(body), |VehicleTypes|).None?)
             || (s == AskPetType && Choice(Strip(body), |PetTypes|).None?)
    ensures var o := Receive(t, from, body, archive);
            o.table == t && !o.alarm && o.filing.None?
  {
  }

  /** The vehicle menu: its last option ("Otros") asks for a free-text type;
      option `k + 1` of the others records the type it names and asks for
      the plate. */
  lemma VehicleTypeChoice(t: Table, from: string, body: string, archive: Archive, k: nat)
    requires WellFormedTable(t) && from in t && t[from].step == AskVehicleType
    requires k < |VehicleTypes| && Strip(body) == [DigitChar(k + 1)]
    ensures var o := Receive(t, from, body, archive);
            && (k == |VehicleTypes| - 1 ==>
                  from in o.table && o.table[from] == t[from].(step := AskVehicleOtherType))
            && (k < |VehicleTypes| - 1 ==>
                  from in o.table
                  && o.table[from] == t[from].(vehicleType := Some(VehicleTypes[k]), step := AskVehiclePlate))
  {
    var msg := Strip(body);
    assert Receive(t, from, body, archive) == Dispatch(t, from, msg, archive) == OnVehicleType(t, from, msg);
    VehicleMenuStep(t, from, msg, k);
  }

  lemma VehicleMenuStep(t: Table, from: string, msg: string, k: nat)
    requires WellFormedTable(t) && from in t && t[from].step == AskVehicleType
    requires k < |VehicleTypes| && msg == [DigitChar(k + 1)]
    ensures var o := OnVehicleType(t, from, msg);
            && (k == |VehicleTypes| - 1 ==>
                  from in o.table && o.table[from] == t[from].(step := AskVehicleOtherType))
            && (k < |VehicleTypes| - 1 ==>
                  from in o.table
                  && o.table[from] == t[from].(vehicleType := Some(VehicleTypes[k]), step := AskVehiclePlate))
  {
    ChoiceOfDigit(k, |VehicleTypes|);
  }

  /** The outcome of filing the newest snapshot of `category` as `newName`:
      the sender is forgotten, unless the file operations raised, in which
      case the sender's record is `answered`, still at its step. */
  predicate FiledAs(o: Outcome, from: string, category: string, newName: string, archive: Archive,
                    answered: Conversation)
  {
    && o.filing == Some(FileNewest(category, newName, archive))
    && (from in o.table <==> o.filing.value.result.CopyRaised?)
    && (from in o.table ==> o.table[from] == answered)
  }

  /** The gender menu: option `k + 1` files the snapshot as
      `{name}_{gender}_{camera}.png` under faces. */
  lemma GenderChoice(t: Table, from: string, body: string, archive: Archive, k: nat)
    requires WellFormedTable(t) && from in t && t[from].step == AskPersonGender
    requires k < |Genders| && Strip(body) == [DigitChar(k + 1)]
    ensures var c := t[from];
            FiledAs(Receive(t, from, body, archive), from, "faces",
                    LabelFileName(Slug(c.name.value), Genders[k], c.cameraIp), archive,
                    c.(gender := Some(Genders[k])))
  {
    var msg := Strip(body);
    assert Receive(t, from, body, archive) == Dispatch(t, from, msg, archive) == OnPersonGender(t, from, msg, archive);
    GenderMenuStep(t, from, msg, archive, k);
  }

  lemma GenderMenuStep(t: Table, from: string, msg: string, archive: Archive, k: nat)
    requires WellFormedTable(t) && from in t && t[from].step == AskPersonGender
    requires k < |Genders| && msg == [DigitChar(k + 1)]
    ensures var c := t[from];
            FiledAs(OnPersonGender(t, from, msg, archive), from, "faces",
                    LabelFileName(Slug(c.name.value), Genders[k], c.cameraIp), archive,
                    c.(gender := Some(Genders[k])))
  {
    ChoiceOfDigit(k, |Genders|);
  }

  /** The pet menu: its last option ("Otros") asks for a free-text type;
      option `k + 1` of the others files the snapshot under the type it
      names and ends the conversation. */
  lemma PetTypeChoice(t: Table, from: string, body: string, archive: Archive, k: nat)
    requires WellFormedTable(t) && from in t && t[from].step == AskPetType
    requires k < |PetTypes| && Strip(body) == [DigitChar(k + 1)]
    ensures var o := Receive(t, from, body, archive);
            var c := t[from];
            && (k == |PetTypes| - 1 ==> from in o.table && o.table[from] == c.(step := AskPetOtherType))
            && (k < |PetTypes| - 1 ==>
                  FiledAs(o, from, "pets", LabelFileName(Slug(c.name.value), PetTypes[k], c.cameraIp), archive,
                          c.(petType := Some(PetTypes[k]))))
  {
    var msg := Strip(body);
    assert Receive(t, from, body, archive) == Dispatch(t, from, msg, archive) == OnPetType(t, from, msg, archive);
    PetMenuStep(t, from, msg, archive, k);
  }

  lemma PetMenuStep(t: Table, from: string, msg: string, archive: Archive, k: nat)
    requires WellFormedTable(t) && from in t && t[from].step == AskPetType
    requires k < |PetTypes| && msg == [DigitChar(k + 1)]
    ensures var o := OnPetType(t, from, msg, archive);
            var c := t[from];
            && (k == |PetTypes| - 1 ==> from in o.table && o.table[from] == c.(step := AskPetOtherType))
            && (k < |PetTypes| - 1 ==>
                  FiledAs(o, from, "pets", LabelFileName(Slug(c.name.value), PetTypes[k], c.cameraIp), archive,
                          c.(petType := Some(PetTypes[k]))))
  {
    ChoiceOfDigit(k, |PetTypes|);
  }

  /** A pet type typed in after "Otros" files the snapshot as
      `{name}_{type}_{camera}.png` under pets. */
  lemma PetOtherTypeFiled(t: Table, from: string, body: string, archive: Archive)
    requires WellFormedTable(t) && from in t && t[from].step == AskPetOtherType && !AllSpace(body)
    ensures var c := t[from];
            FiledAs(Receive(t, from, body, archive), from, "pets",
                    LabelFileName(Slug(c.name.value), Strip(body), c.cameraIp), archive,
                    c.(petType := Some(Strip(body))))
  {
    var msg := Strip(body);
    assert Receive(t, from, body, archive) == Dispatch(t, from, msg, archive) == OnFreeText(t, from, msg, archive);
  }

  /** Option `k + 1` of a menu selects the `k`-th entry. */
  lemma ChoiceOfDigit(k: nat, count: nat)
    requires k < count <= 9
    ensures Choice([DigitChar(k + 1)], count) == Some(k)
  {
  }

  /** Every terminal step, and any step the webhook does not know, forgets
      the conversation, unless the file operations raise; then the
      conversation stays at its step. */
  lemma TerminalStepsForget(t: Table, from: string, body: string, archive: Archive)
    requires WellFormedTable(t) && from in t && !AllSpace(body)
    requires var s := t[from].step;
             || s == AskVehiclePlate || s == AskPetOtherType || s == Unrecognised
             || (s == AskPersonGender && Choice(Strip(body), |Genders|).Some?)
             || (s == AskPetType && Choice(Strip(body), |PetTypes|).Some?
                 && Choice(Strip(body), |PetTypes|).value < |PetTypes| - 1)
    ensures var o := Receive(t, from, body, archive);
            && (from in o.table <==> o.filing.Some? && o.filing.value.result.CopyRaised?)
            && (from in o.table ==> o.table[from].step == t[from].step)
  {
    var msg := Strip(body);
    assert Receive(t, from, body, archive) == Dispatch(t, from, msg, archive);
    TerminalDispatch(t, from, msg, archive);
  }

  lemma TerminalDispatch(t: Table, from: string, msg: string, archive: Archive)
    requires WellFormedTable(t) && from in t
    requires var s := t[from].step;
             || s == AskVehiclePlate || s == AskPetOtherType || s == Unrecognised
             || (s == AskPersonGender && Choice(msg, |Genders|).Some?)
             || (s == AskPetType && Choice(msg, |PetTypes|).Some? && Choice(msg, |PetTypes|).value < |PetTypes| - 1)
    ensures var o := Dispatch(t, from, msg, archive);
            && (from in o.table <==> o.filing.Some? && o.filing.value.result.CopyRaised?)
            && (from in o.table ==> o.table[from].step == t[from].step)
  {
    var step := t[from].step;
    if step == AskPersonGender {
      GenderDispatch(t, from, msg, archive);
    } else if step == AskPetType {
      PetDispatch(t, from, msg, archive);
    } else if step == AskVehiclePlate {
      assert Dispatch(t, from, msg, archive) == OnVehiclePlate(t, from, msg, archive);
    } else if step == AskPetOtherType {
      assert Dispatch(t, from, msg, archive) == OnFreeText(t, from, msg, archive);
    } else {
      assert Dispatch(t, from, msg, archive) == Outcome(t - {from}, StateReset, false, None);
    }
  }

  lemma GenderDispatch(t: Table, from: string, msg: string, archive: Archive)
    requires WellFormedTable(t) && from in t && t[from].step == AskPersonGender
    requires Choice(msg, |Genders|).Some?
    ensures var o := Dispatch(t, from, msg, archive);
            && (from in o.table <==> o.filing.Some? && o.filing.value.result.CopyRaised?)
            && (from in o.table ==> o.table[from].step == t[from].step)
  {
    assert Dispatch(t, from, msg, archive) == OnPersonGender(t, from, msg, archive);
    GenderMenuStep(t, from, msg, archive, Choice(msg, |Genders|).value);
  }

  lemma PetDispatch(t: Table, from: string, msg: string, archive: Archive)
    requires WellFormedTable(t) && from in t && t[from].step == AskPetType
    requires Choice(msg, |PetTypes|).Some? && Choice(msg, |PetTypes|).value < |PetTypes| - 1
    ensures var o := Dispatch(t, from, msg, archive);
            && (from in o.table <==> o.filing.Some? && o.filing.value.result.CopyRaised?)
            && (from in o.table ==> o.table[from].step == t[from].step)
  {
    assert Dispatch(t, from, msg, archive) == OnPetType(t, from, msg, archive);
    PetMenuStep(t, from, msg, archive, Choice(msg, |PetTypes|).value);
  }

  /** The plate heuristic decides the head of the vehicle file name: the
      upper-cased reply when it looks like a plate, which is recorded as
      the plate, and the slug of the owner's name otherwise, recorded as
      the owner. */
  lemma PlateOrOwner(t: Table, from: string, body: string, archive: Archive)
    requires WellFormedTable(t) && from in t && t[from].step == AskVehiclePlate && !AllSpace(body)
    ensures var o := Receive(t, from, body, archive);
            var msg := Strip(body);
            var c := t[from];
            && (LooksLikePlate(msg) ==>
                  FiledAs(o, from, "vehicles", LabelFileName(Upper(msg), c.vehicleType.value, c.cameraIp), archive,
                          c.(plate := Some(Upper(msg)))))
            && (!LooksLikePlate(msg) ==>
                  FiledAs(o, from, "vehicles", LabelFileName(Slug(msg), c.vehicleType.value, c.cameraIp), archive,
                          c.(owner := Some(msg))))
  {
    var msg := Strip(body);
    assert Receive(t, from, body, archive) == Dispatch(t, from, msg, archive) == OnVehiclePlate(t, from, msg, archive);
  }

  /** No conversation in a table the webhook built records a camera. */
  predicate NoCameraRecorded(t: Table)
  {
    forall p :: p in t ==> t[p].cameraIp.None?
  }

  /** Since no step writes the camera, starting from an empty table every
      file name ends in `_unknown.png`. */
  lemma CameraNeverRecorded(t: Table, from: string, body: string, archive: Archive)
    requires WellFormedTable(t) && NoCameraRecorded(t)
    ensures var o := Receive(t, from, body, archive);
            && NoCameraRecorded(o.table)
            && (o.filing.Some? ==> EndsWith(o.filing.value.newName, "_unknown.png"))
  {
    var o := Receive(t, from, body, archive);
    forall p | p in o.table
      ensures o.table[p].cameraIp.None?
    {
      if p != from {
        assert p in t && o.table[p] == t[p];
      }
    }
    if o.filing.Some? {
      assert t[from].cameraIp.None?;
      UnknownCameraSuffix();
    }
  }

  /** With no camera recorded the file name ends in `_unknown.png`. */
  lemma UnknownCameraSuffix()
    ensures "_" + CameraTag(None) + ".png" == "_unknown.png"
  {
    ReplaceAbsent("unknown", '.', '_');
  }
}

=== FILE: object_detection.dfy ===
/** The bookkeeping around the MobileNet-SSD detector: turning the network's
    raw detections into labelled, clamped integer boxes, and grouping labels
    into vehicles, pets and people.

    The forward pass is an input: each raw detection arrives with its
    confidence, its class index and its corners relative to the frame, as
    the network reports them. Confidences and corners are `real`s. */
module ObjectDetection {
  import opened Wrappers

  // ---------------------------------------------------------------------
  // Labels and groups
  // ---------------------------------------------------------------------

  /** The PASCAL VOC classes of MobileNet-SSD, by class index. */
  const Labels: seq<string> := [
    "background", "aeroplane", "bicycle", "bird", "boat", "bottle", "bus",
    "car", "cat", "chair", "cow", "diningtable", "dog", "horse",
    "motorbike", "person", "pottedplant", "sheep", "sofa", "train", "tvmonitor"
  ]

  /** The label given to a class index the table does not cover. */
  const UnknownLabel: string := "unknown"

  const VehicleClasses: set<string> := {"car", "bus", "motorbike", "bicycle", "train"}
  const PetClasses: set<string> := {"dog", "cat"}
  const PersonLabel: string := "person"

  /** The groups `classify_group` names "vehicle", "pet" and "person". */
  datatype Group = Vehicle | Pet | Person

  /** The name of a class index: its entry in the table, or "unknown". */
  function LabelOf(index: int): (l: string)
    ensures 0 <= index < |Labels| ==> l == Labels[index]
    ensures l == UnknownLabel <==> !(0 <= index < |Labels|)
  {
    if 0 <= index < |Labels| then Labels[index] else UnknownLabel
  }

  /** `classify_group`: vehicles first, then pets, then people. Each group
      is returned for exactly its own labels, even though the checks are
      made in order. */
  function ClassifyGroup(name: string): (g: Option<Group>)
    ensures g == Some(Vehicle) <==> name in VehicleClasses
    ensures g == Some(Pet) <==> name in PetClasses
    ensures g == Some(Person) <==> name == PersonLabel
  {
    if name in VehicleClasses then Some(Vehicle)
    else if name in PetClasses then Some(Pet)
    else if name == PersonLabel then Some(Person)
    else None
  }

  /** No label belongs to two groups. */
  lemma GroupsDisjoint()
    ensures VehicleClasses !! PetClasses
    ensures PersonLabel !in VehicleClasses && PersonLabel !in PetClasses
  {
  }

  /** Checking the groups in the opposite order gives the same answer. */
  lemma OrderIrrelevant(name: string)
    ensures ClassifyGroup(name) ==
            if name == PersonLabel then Some(Person)
            else if name in PetClasses then Some(Pet)
            else if name in VehicleClasses then Some(Vehicle)
            else None
  {
    GroupsDisjoint();
  }

  /** Which class indices the detector groups, and as what. Out-of-range
      indices, named "unknown", belong to no group. */
  lemma GroupOfIndex(index: int)
    ensures ClassifyGroup(LabelOf(index)) == Some(Vehicle) <==> index in {2, 6, 7, 14, 19}
    ensures ClassifyGroup(LabelOf(index)) == Some(Pet) <==> index in {8, 12}
    ensures ClassifyGroup(LabelOf(index)) == Some(Person) <==> index == 15
  {
  }

  // ---------------------------------------------------------------------
  // Boxes
  // ---------------------------------------------------------------------

  /** An integer box: top-left corner, width and height. */
  datatype Box = Box(x: int, y: int, width: int, height: int)

  function Max(a: int, b: int): int
  {
    if a >= b then a else b
  }

  /** numpy's `astype("int")` on a float: truncation toward zero. */
  function Truncate(v: real): (n: int)
    ensures v >= 0.0 ==> n as real <= v < n as real + 1.0
    ensures v < 0.0 ==> n as real - 1.0 < v <= n as real
  {
    if v >= 0.0 then v.Floor else -((-v).Floor)
  }

  /** The clamping in `detect`: the corner is moved into the frame, while
      width and height are measured from the corner as reported. */
  function ClampBox(startX: int, startY: int, endX: int, endY: int): (b: Box)
    ensures b.x >= 0 && b.y >= 0 && b.width >= 0 && b.height >= 0
    ensures startX >= 0 ==> b.x == startX && b.x + b.width == Max(startX, endX)
    ensures startY >= 0 ==> b.y == startY && b.y + b.height == Max(startY, endY)
    ensures startX < 0 ==> b.x == 0 && b.width == Max(0, endX - startX)
    ensures startY < 0 ==> b.y == 0 && b.height == Max(0, endY - startY)
  {
    Box(Max(0, startX), Max(0, startY), Max(0, endX - startX), Max(0, endY - startY))
  }

  /** A box reported partly left of the frame keeps its full width after
      its corner is moved to 0, so it reaches past its own right edge by
      the amount that was cut off. */
  lemma ClampOvershoots(startX: int, endX: int, startY: int, endY: int)
    requires startX < 0 <= endX
    ensures var b := ClampBox(startX, startY, endX, endY);
            b.x == 0 && b.x + b.width == endX - startX > endX
  {
  }

  /** The same, on numbers: a box from x = -10 to x = 100 becomes 110 wide at x = 0. */
  lemma ClampOvershootExample()
    ensures ClampBox(-10, 0, 100, 50) == Box(0, 0, 110, 50)
  {
  }

  /** A box reported wholly left of the frame, from x = -10 to x = -5, becomes
      5 wide at x = 0. */
  lemma ClampBeyondFrameExample()
    ensures ClampBox(-10, 0, -5, 50) == Box(0, 0, 5, 50)
  {
  }

  /** Clamping that keeps the box's far edges: width and height are
      measured from the clamped corner. */
  function ClampBoxWithin(startX: int, startY: int, endX: int, endY: int): (b: Box)
    ensures b.x >= 0 && b.y >= 0 && b.width >= 0 && b.height >= 0
    ensures b.x + b.width == Max(b.x, endX) && b.y + b.height == Max(b.y, endY)
  {
    var x := Max(0, startX);
    var y := Max(0, startY);
    Box(x, y, Max(0, endX - x), Max(0, endY - y))
  }

  /** The two clampings differ only for boxes reported beyond the top or
      left border. */
  lemma ClampingsAgreeInsideFrame(startX: int, startY: int, endX: int, endY: int)
    ensures ClampBox(startX, startY, endX, endY) == ClampBoxWithin(startX, startY, endX, endY)
            <==> (startX >= 0 || endX <= startX) && (startY >= 0 || endY <= startY)
  {
  }

  // ---------------------------------------------------------------------
  // detect
  // ---------------------------------------------------------------------

  /** One row of the network's output: confidence, class index (a float,
      truncated by `int()`) and the corners as fractions of the frame's
      width and height. */
  datatype Raw = Raw(confidence: real, classIndex: real, left: real, top: real, right: real, bottom: real)

  /** One entry of `detect`'s result. */
  datatype Detection = Detection(name: string, confidence: real, box: Box)

  /** The corners of a row in a `width` x `height` frame, truncated to pixels
      as `astype("int")` does. */
  function Corners(r: Raw, width: nat, height: nat): (int, int, int, int)
  {
    (Truncate(r.left * width as real), Truncate(r.top * height as real),
     Truncate(r.right * width as real), Truncate(r.bottom * height as real))
  }

  /** The detection a confident row becomes in a `width` x `height` frame,
      its box clamped as `detect` clamps it: the corner is moved into the
      frame, the size is measured from the corner as reported. */
  function Convert(r: Raw, width: nat, height: nat): (d: Detection)
    ensures d.name == LabelOf(Truncate(r.classIndex)) && d.confidence == r.confidence
    ensures d.box.x >= 0 && d.box.y >= 0 && d.box.width >= 0 && d.box.height >= 0
    ensures var (startX, startY, endX, endY) := Corners(r, width, height);
            && (startX >= 0 ==> d.box.x == startX && d.box.x + d.box.width == Max(startX, endX))
            && (startY >= 0 ==> d.box.y == startY && d.box.y + d.box.height == Max(startY, endY))
            && (startX < 0 ==> d.box.x == 0 && d.box.width == Max(0, endX - startX))
            && (startY < 0 ==> d.box.y == 0 && d.box.height == Max(0, endY - startY))
  {
    var (startX, startY, endX, endY) := Corners(r, width, height);
    Detection(LabelOf(Truncate(r.classIndex)), r.confidence, ClampBox(startX, startY, endX, endY))
  }

  /** The conversion with the corrected clamping: the box still ends where
      the network reported it to end. */
  function ConvertWithin(r: Raw, width: nat, height: nat): (d: Detection)
    ensures d.name == LabelOf(Truncate(r.classIndex)) && d.confidence == r.confidence
    ensures d.box.x >= 0 && d.box.y >= 0 && d.box.width >= 0 && d.box.height >= 0
    ensures d.box.x + d.box.width == Max(d.box.x, Corners(r, width, height).2)
    ensures d.box.y + d.box.height == Max(d.box.y, Corners(r, width, height).3)
  {
    var (startX, startY, endX, endY) := Corners(r, width, height);
    Detection(LabelOf(Truncate(r.classIndex)), r.confidence, ClampBoxWithin(startX, startY, endX, endY))
  }

  /** The detection `detect` reports and the corrected one differ exactly for
      boxes that start beyond the left or top border and end past it. */
  lemma ConversionsAgree(r: Raw, width: nat, height: nat)
    ensures var (startX, startY, endX, endY) := Corners(r, width, height);
            Convert(r, width, height) == ConvertWithin(r, width, height)
            <==> (startX >= 0 || endX <= startX) && (startY >= 0 || endY <= startY)
  {
    var (startX, startY, endX, endY) := Corners(r, width, height);
    ClampingsAgreeInsideFrame(startX, startY, endX, endY);
  }

  /** On a row: a car reported from 10% left of the frame to its middle, in a
      100 x 100 frame, is reported 60 pixels wide from x = 0, although the
      network saw it end at x = 50. */
  lemma ConvertOvershootExample()
    ensures Convert(Raw(0.9, 7.0, -0.1, 0.0, 0.5, 0.5), 100, 100)
            == Detection("car", 0.9, Box(0, 0, 60, 50))
    ensures ConvertWithin(Raw(0.9, 7.0, -0.1, 0.0, 0.5, 0.5), 100, 100).box == Box(0, 0, 50, 50)
  {
    assert Corners(Raw(0.9, 7.0, -0.1, 0.0, 0.5, 0.5), 100, 100) == (-10, 0, 50, 50);
  }

  /** Reference semantics: the rows at or above the threshold, converted, in order. */
  function Detections(rows: seq<Raw>, threshold: real, width: nat, height: nat): (ds: seq<Detection>)
    ensures |ds| <= |rows|
  {
    if rows == [] then []
    else
      var init := Detections(rows[..|rows| - 1], threshold, width, height);
      var last := rows[|rows| - 1];
      if last.confidence < threshold then init else init + [Convert(last, width, height)]
  }

  /** `detect`: nothing when the model files are missing; otherwise one
      entry per row whose confidence reaches the threshold. */
  method Detect(available: bool, rows: seq<Raw>, threshold: real, width: nat, height: nat)
    returns (results: seq<Detection>)
    ensures !available ==> results == []
    ensures available ==> results == Detections(rows, threshold, width, height)
  {
    results := [];
    if !available {
      return;
    }
    var i := 0;
    while i < |rows|
      invariant 0 <= i <= |rows|
      invariant results == Detections(rows[..i], threshold, width, height)
    {
      assert rows[..i + 1][..i] == rows[..i];
      if rows[i].confidence >= threshold {
        results := results + [Convert(rows[i], width, height)];
      }
      i := i + 1;
    }
    assert rows[..i] == rows;
  }

  /** Every detection reported is confident, has a non-negative box, and
      comes from some row; every confident row is reported. */
  lemma {:induction false} DetectionsSound(rows: seq<Raw>, threshold: real, width: nat, height: nat)
    ensures var ds := Detections(rows, threshold, width, height);
            && (forall d :: d in ds ==> d.confidence >= threshold)
            && (forall d :: d in ds ==> d.box.x >= 0 && d.box.y >= 0 && d.box.width >= 0 && d.box.height >= 0)
            && (forall d :: d in ds ==> exists r :: r in rows && d == Convert(r, width, height))
            && (forall r :: r in rows && r.confidence >= threshold ==> Convert(r, width, height) in ds)
    decreases |rows|
  {
    if rows != [] {
      var init := rows[..|rows| - 1];
      DetectionsSound(init, threshold, width, height);
      assert rows == init + [rows[|rows| - 1]];
      assert forall r :: r in init ==> r in rows;
    }
  }

  /** How many detections a frame yields: one per confident row. */
  function CountConfident(rows: seq<Raw>, threshold: real): nat
  {
    if rows == [] then 0
    else CountConfident(rows[..|rows| - 1], threshold) + (if rows[|rows| - 1].confidence >= threshold then 1 else 0)
  }

  lemma {:induction false} DetectionsCount(rows: seq<Raw>, threshold: real, width: nat, height: nat)
    ensures |Detections(rows, threshold, width, height)| == CountConfident(rows, threshold)
    decreases |rows|
  {
    if rows != [] {
      DetectionsCount(rows[..|rows| - 1], threshold, width, height);
    }
  }
}

=== FILE: stream_worker.dfy ===
/** One camera's capture loop.

    The thread, the OpenCV capture and the frame pixels are abstracted away:
    a run is a function of whether the capture opened and of a finite trace of
    what happened between loop iterations — either the stop event was set, or
    the next `cap.read()` returned a frame of some size or failed. The output
    is the sequence of callback invocations with the size of the frame each
    one received, how many reads were made, and how the loop ended. */
module StreamWorker {

  /** A frame whose larger side exceeds this many pixels is halved before dispatch. */
  const MaxSide: nat := 960

  /** A worker thread: camera, stream URL, the reconciliation cycle that
      created it (which tells apart two workers created for the same camera),
      and whether its stop event is set. */
  datatype Worker = Worker(cameraIp: string, rtspUrl: string, generation: nat, stopSignalled: bool)

  /** `StreamWorker.stop`: set the stop event; nothing else about the worker changes. */
  function Stop(w: Worker): (r: Worker)
    ensures r.stopSignalled
    ensures r.cameraIp == w.cameraIp && r.rtspUrl == w.rtspUrl && r.generation == w.generation
  {
    w.(stopSignalled := true)
  }

  /** What one `cap.read()` yields: a frame of `height` x `width` pixels (and
      whether the frame callback will raise on it), or a failed read. */
  datatype Read = Frame(height: nat, width: nat, callbackRaises: bool) | ReadFailed

  /** What the loop observes when it next checks the stop event. */
  datatype Tick = StopSet | Got(read: Read)

  /** One callback invocation `on_frame(camera_ip, frame)`, with the frame's size. */
  datatype Dispatch = Dispatch(cameraIp: string, width: nat, height: nat)

  /** How `run` ended: the capture never opened; the stop event was seen (the
      capture is then released); `cv2.resize` raised on a frame whose halved
      size has a zero side (the thread dies without releasing); or the trace
      ended while the loop was still running. */
  datatype Exit = OpenFailed | Stopped | ResizeRaised | StillRunning

  datatype RunOutcome = RunOutcome(dispatched: seq<Dispatch>, readCount: nat, exit: Exit)
  {
    /** The capture handle is released only when the loop exits normally. */
    predicate Released()
    {
      exit == Stopped
    }
  }

  function Max(a: nat, b: nat): nat
  {
    if a >= b then a else b
  }

  /** The frame is larger than `MaxSide` on some side and is downsampled. */
  predicate Oversized(height: nat, width: nat)
  {
    Max(height, width) > MaxSide
  }

  /** Halving an oversized frame with a side of 1 pixel asks `cv2.resize` for
      an empty image, which raises outside the loop's `try`. */
  predicate ResizeRaises(r: Read)
  {
    r.Frame? && Oversized(r.height, r.width) && (r.width / 2 == 0 || r.height / 2 == 0)
  }

  /** The dispatch for an accepted frame: its size halved (floor division)
      when oversized, unchanged otherwise. */
  function DispatchOf(cameraIp: string, r: Read): (d: Dispatch)
    requires r.Frame?
    ensures d.cameraIp == cameraIp
    ensures Oversized(r.height, r.width) ==> 2 * d.width <= r.width < 2 * d.width + 2
    ensures Oversized(r.height, r.width) ==> 2 * d.height <= r.height < 2 * d.height + 2
    ensures !Oversized(r.height, r.width) ==> d.width == r.width && d.height == r.height
  {
    if Oversized(r.height, r.width) then Dispatch(cameraIp, r.width / 2, r.height / 2)
    else Dispatch(cameraIp, r.width, r.height)
  }

  /** Reference semantics of the loop once the capture is open, read from the
      front of the trace: stop at the first `StopSet`, skip failed reads,
      dispatch every other frame, die on a frame `cv2.resize` rejects. */
  function Serve(cameraIp: string, trace: seq<Tick>): (o: RunOutcome)
    ensures o.readCount <= |trace|
    ensures o.exit != OpenFailed
    decreases |trace|
  {
    if trace == [] then RunOutcome([], 0, StillRunning)
    else if trace[0].StopSet? then RunOutcome([], 0, Stopped)
    else if ResizeRaises(trace[0].read) then RunOutcome([], 1, ResizeRaised)
    else
      var rest := Serve(cameraIp, trace[1..]);
      var here := if trace[0].read.Frame? then [DispatchOf(cameraIp, trace[0].read)] else [];
      RunOutcome(here + rest.dispatched, rest.readCount + 1, rest.exit)
  }

  /** `StreamWorker.run` for a worker whose capture opened (`captureOpened`) or not. */
  function Run(w: Worker, captureOpened: bool, trace: seq<Tick>): RunOutcome
  {
    if !captureOpened then RunOutcome([], 0, OpenFailed)
    else if w.stopSignalled then RunOutcome([], 0, Stopped)
    else Serve(w.cameraIp, trace)
  }

  /** The loop as the source writes it: check the stop event, read, skip a
      failed read, downsample, dispatch, repeat; release on exit. */
  method RunLoop(w: Worker, captureOpened: bool, trace: seq<Tick>) returns (o: RunOutcome)
    ensures o == Run(w, captureOpened, trace)
    ensures !captureOpened ==> o.dispatched == [] && o.readCount == 0 && !o.Released()
  {
    if !captureOpened {
      return RunOutcome([], 0, OpenFailed);
    }
    if w.stopSignalled {
      // the event is already set when the loop first tests it
      return RunOutcome([], 0, Stopped);
    }
    var stop := false;
    var dispatched: seq<Dispatch> := [];
    var i := 0;
    while !stop && i < |trace|
      invariant 0 <= i <= |trace|
      invariant stop ==> i < |trace| && trace[i].StopSet?
      invariant var tail := Serve(w.cameraIp, trace[i..]);
                Serve(w.cameraIp, trace) == RunOutcome(dispatched + tail.dispatched, i + tail.readCount, tail.exit)
      decreases |trace| - i, !stop
    {
      if trace[i].StopSet? {
        stop := true;
      } else {
        var r := trace[i].read;
        ServeStep(w.cameraIp, trace, i);
        if r.Frame? {
          if ResizeRaises(r) {
            return RunOutcome(dispatched, i + 1, ResizeRaised);
          }
          dispatched := dispatched + [DispatchOf(w.cameraIp, r)];
        }
        i := i + 1;
      }
    }
    if stop {
      assert trace[i..][0] == trace[i];
      o := RunOutcome(dispatched, i, Stopped);
    } else {
      assert trace[i..] == [];
      o := RunOutcome(dispatched, i, StillRunning);
    }
  }

  /** One iteration of the reference semantics on a read that does not kill the loop. */
  lemma ServeStep(cameraIp: string, trace: seq<Tick>, i: nat)
    requires i < |trace| && trace[i].Got?
    ensures var tail := Serve(cameraIp, trace[i..]);
            var rest := Serve(cameraIp, trace[i + 1..]);
            && (ResizeRaises(trace[i].read) ==> tail == RunOutcome([], 1, ResizeRaised))
            && (!ResizeRaises(trace[i].read) && trace[i].read.Frame? ==>
                  tail == RunOutcome([DispatchOf(cameraIp, trace[i].read)] + rest.dispatched, rest.readCount + 1, rest.exit))
            && (trace[i].read.ReadFailed? ==>
                  tail == RunOutcome(rest.dispatched, rest.readCount + 1, rest.exit))
  {
    assert trace[i..][0] == trace[i];
    assert trace[i..][1..] == trace[i + 1..];
  }

  // ---------------------------------------------------------------------
  // Properties of the loop
  // ---------------------------------------------------------------------

  /** No read happens at or after the first `StopSet`: every read the loop
      made was answered before the stop, and a stopped loop stopped exactly
      at the first `StopSet`. */
  lemma {:induction false} NoReadAfterStop(cameraIp: string, trace: seq<Tick>)
    ensures var o := Serve(cameraIp, trace);
            && (forall k :: 0 <= k < o.readCount ==> trace[k].Got?)
            && (o.exit == Stopped ==> o.readCount < |trace| && trace[o.readCount].StopSet?)
            && (o.exit == StillRunning ==> o.readCount == |trace|)
    decreases |trace|
  {
    if trace != [] && !trace[0].StopSet? && !ResizeRaises(trace[0].read) {
      NoReadAfterStop(cameraIp, trace[1..]);
    }
  }

  /** Every callback invocation carries this worker's camera. */
  lemma {:induction false} DispatchesCarryCamera(cameraIp: string, trace: seq<Tick>)
    ensures forall d :: d in Serve(cameraIp, trace).dispatched ==> d.cameraIp == cameraIp
    decreases |trace|
  {
    if trace != [] && !trace[0].StopSet? && !ResizeRaises(trace[0].read) {
      DispatchesCarryCamera(cameraIp, trace[1..]);
    }
  }

  /** A failed read dispatches nothing and the loop goes on: inserting one
      before the stop changes only the number of reads. */
  lemma {:induction false} FailedReadIsSkipped(cameraIp: string, before: seq<Tick>, after: seq<Tick>)
    requires forall k :: 0 <= k < |before| ==> before[k].Got? && !ResizeRaises(before[k].read)
    ensures var o := Serve(cameraIp, before + after);
            var o' := Serve(cameraIp, before + [Got(ReadFailed)] + after);
            o'.dispatched == o.dispatched && o'.exit == o.exit && o'.readCount == o.readCount + 1
    decreases |before|
  {
    if before == [] {
      assert before + after == after;
      assert before + [Got(ReadFailed)] + after == [Got(ReadFailed)] + after;
      assert ([Got(ReadFailed)] + after)[1..] == after;
    } else {
      assert (before + after)[1..] == before[1..] + after;
      assert (before + [Got(ReadFailed)] + after)[1..] == before[1..] + [Got(ReadFailed)] + after;
      FailedReadIsSkipped(cameraIp, before[1..], after);
    }
  }

  /** Forget whether the callback raises on each frame. */
  function Calm(trace: seq<Tick>): (t: seq<Tick>)
    ensures |t| == |trace|
  {
    seq(|trace|, k requires 0 <= k < |trace| =>
      match trace[k]
      case Got(Frame(h, w, _)) => Got(Frame(h, w, false))
      case other => other)
  }

  /** An exception raised by the callback is swallowed: the run is the same
      whether or not the callback raises on any frame. This holds by
      construction, since `Serve` never reads `callbackRaises`, just as the
      loop's `except Exception: pass` discards the error; the lemma records
      that the flag leaves the dispatches, the read count and the exit alike. */
  lemma {:induction false} CallbackErrorsAreSwallowed(cameraIp: string, trace: seq<Tick>)
    ensures Serve(cameraIp, Calm(trace)) == Serve(cameraIp, trace)
    decreases |trace|
  {
    if trace != [] {
      assert Calm(trace)[1..] == Calm(trace[1..]);
      CallbackErrorsAreSwallowed(cameraIp, trace[1..]);
    }
  }

  /** Frames up to twice the limit on each side (1920 x 1080 among them)
      reach the callback within 960 x 960. */
  lemma {:induction false} DispatchedWithinLimit(cameraIp: string, trace: seq<Tick>)
    requires forall k :: 0 <= k < |trace| && trace[k].Got? && trace[k].read.Frame? ==>
               trace[k].read.width <= 2 * MaxSide + 1 && trace[k].read.height <= 2 * MaxSide + 1
    ensures forall d :: d in Serve(cameraIp, trace).dispatched ==> d.width <= MaxSide && d.height <= MaxSide
    decreases |trace|
  {
    if trace != [] && !trace[0].StopSet? && !ResizeRaises(trace[0].read) {
      DispatchedWithinLimit(cameraIp, trace[1..]);
    }
  }

  /** A capture that does not open ends the worker at once: nothing is read,
      nothing dispatched, and the release at the end of the loop is not reached. */
  lemma OpenFailureEndsRun(w: Worker, trace: seq<Tick>)
    ensures var o := Run(w, false, trace);
            o.dispatched == [] && o.readCount == 0 && !o.Released()
  {
  }
}

=== FILE: text.dfy ===
/** String helpers that mirror the Python `str` methods the system relies on:
    whitespace `split()`/`strip()`, `split(sep)`, `find`, `lower`/`upper`, `join`
    and zero-padded decimal formatting. Characters are Unicode scalar values;
    case mapping and the whitespace class are the ASCII parts of Python's. */
module Text {
  import opened Wrappers

  // ---------------------------------------------------------------------
  // Character classes
  // ---------------------------------------------------------------------

  /** Python's `str.isspace` on ASCII: space, \t \n \v \f \r and the four
      information separators \x1c-\x1f. */
  predicate IsSpace(c: char)
  {
    c == ' ' || c == '\t' || c == '\n' || c == '\r' || c == '\U{B}' || c == '\U{C}'
    || ('\U{1C}' <= c <= '\U{1F}')
  }

  predicate NoSpace(s: string)
  {
    forall i :: 0 <= i < |s| ==> !IsSpace(s[i])
  }

  predicate AllSpace(s: string)
  {
    forall i :: 0 <= i < |s| ==> IsSpace(s[i])
  }

  predicate IsDigit(c: char)
  {
    '0' <= c <= '9'
  }

  predicate AllDigits(s: string)
  {
    forall i :: 0 <= i < |s| ==> IsDigit(s[i])
  }

  predicate IsAlnum(c: char)
  {
    IsDigit(c) || ('a' <= c <= 'z') || ('A' <= c <= 'Z')
  }

  /** Python's `str.isalnum` (ASCII): false on the empty string. */
  predicate IsAlnumString(s: string)
  {
    |s| > 0 && forall i :: 0 <= i < |s| ==> IsAlnum(s[i])
  }

  function ToLowerChar(c: char): char
  {
    if 'A' <= c <= 'Z' then (c as int + 32) as char else c
  }

  function ToUpperChar(c: char): char
  {
    if 'a' <= c <= 'z' then (c as int - 32) as char else c
  }

  /** `s.lower()` */
  function Lower(s: string): (r: string)
    ensures |r| == |s|
    ensures forall i :: 0 <= i < |s| ==> r[i] == ToLowerChar(s[i])
  {
    seq(|s|, i requires 0 <= i < |s| => ToLowerChar(s[i]))
  }

  /** Lower-casing works character by character, so it commutes with prefixes. */
  lemma LowerPrefix(a: string, b: string)
    ensures StartsWith(Lower(a + b), Lower(a))
  {
    assert forall i :: 0 <= i < |a| ==> (a + b)[i] == a[i];
  }

  /** `s.upper()` */
  function Upper(s: string): (r: string)
    ensures |r| == |s|
    ensures forall i :: 0 <= i < |s| ==> r[i] == ToUpperChar(s[i])
  {
    seq(|s|, i requires 0 <= i < |s| => ToUpperChar(s[i]))
  }

  /** `s.replace(a, b)` for single characters. */
  function ReplaceChar(s: string, a: char, b: char): (r: string)
    ensures |r| == |s|
    ensures forall i :: 0 <= i < |s| ==> r[i] == (if s[i] == a then b else s[i])
  {
    seq(|s|, i requires 0 <= i < |s| => if s[i] == a then b else s[i])
  }

  /** Replacing a character that does not occur changes nothing. */
  lemma ReplaceAbsent(s: string, a: char, b: char)
    requires a !in s
    ensures ReplaceChar(s, a, b) == s
  {
  }

  /** `s.replace(c, "")`: every occurrence of `c` removed, the rest kept in order. */
  function RemoveChar(s: string, c: char): (r: string)
    ensures c !in r
    ensures |r| <= |s|
    ensures forall x :: x != c ==> (x in r <==> x in s)
  {
    if s == [] then []
    else if s[0] == c then RemoveChar(s[1..], c)
    else [s[0]] + RemoveChar(s[1..], c)
  }

  predicate StartsWith(s: string, prefix: string)
  {
    |prefix| <= |s| && s[..|prefix|] == prefix
  }

  predicate EndsWith(s: string, suffix: string)
  {
    |suffix| <= |s| && s[|s| - |suffix|..] == suffix
  }

  // ---------------------------------------------------------------------
  // strip()
  // ---------------------------------------------------------------------

  /** `s.lstrip()`: the longest suffix of `s` that does not start with whitespace. */
  function LStrip(s: string): (r: string)
    ensures |r| <= |s| && r == s[|s| - |r|..]
    ensures forall k :: 0 <= k < |s| - |r| ==> IsSpace(s[k])
    ensures r == [] || !IsSpace(r[0])
  {
    if |s| > 0 && IsSpace(s[0]) then LStrip(s[1..]) else s
  }

  /** `s.rstrip()`: the longest prefix of `s` that does not end with whitespace. */
  function RStrip(s: string): (r: string)
    ensures |r| <= |s| && r == s[..|r|]
    ensures forall k :: |r| <= k < |s| ==> IsSpace(s[k])
    ensures r == [] || !IsSpace(r[|r| - 1])
  {
    if |s| > 0 && IsSpace(s[|s| - 1]) then RStrip(s[..|s| - 1]) else s
  }

  predicate IsStripped(s: string)
  {
    s == [] || (!IsSpace(s[0]) && !IsSpace(s[|s| - 1]))
  }

  /** `s.strip()`: `s` with leading and trailing whitespace removed; empty
      exactly when `s` is all whitespace. */
  function Strip(s: string): (r: string)
    ensures IsStripped(r)
    ensures |r| <= |s|
    ensures r == [] <==> AllSpace(s)
    ensures NoSpace(s) ==> r == s
  {
    var l := LStrip(s);
    var r := RStrip(l);
    StripFacts(s, l, r);
    r
  }

  lemma StripFacts(s: string, l: string, r: string)
    requires l == LStrip(s) && r == RStrip(l)
    ensures IsStripped(r) && |r| <= |s|
    ensures r == [] <==> AllSpace(s)
    ensures NoSpace(s) ==> r == s
  {
    var a := |s| - |l|;
    if r != [] {
      assert r[0] == l[0];
    }
    if a > 0 {
      assert IsSpace(s[0]);
    }
    if |r| < |l| {
      assert IsSpace(l[|r|]) && l[|r|] == s[a + |r|];
    }
  }

  /** Stripping twice is stripping once. */
  lemma StripIdempotent(s: string)
    ensures Strip(Strip(s)) == Strip(s)
  {
    var t := Strip(s);
    if t != [] {
      assert LStrip(t) == t;
      assert RStrip(t) == t;
    }
  }

  /** Leading whitespace in front of a non-blank start is exactly what `lstrip` drops. */
  lemma {:induction false} LStripSkips(p: string, s: string)
    requires AllSpace(p) && (s == [] || !IsSpace(s[0]))
    ensures LStrip(p + s) == s
    decreases |p|
  {
    if p == [] {
      assert p + s == s;
    } else {
      assert (p + s)[1..] == p[1..] + s;
      LStripSkips(p[1..], s);
    }
  }

  /** Trailing whitespace behind a non-blank end is exactly what `rstrip` drops. */
  lemma {:induction false} RStripSkips(s: string, q: string)
    requires AllSpace(q) && (s == [] || !IsSpace(s[|s| - 1]))
    ensures RStrip(s + q) == s
    decreases |q|
  {
    if q == [] {
      assert s + q == s;
    } else {
      assert (s + q)[..|s + q| - 1] == s + q[..|q| - 1];
      RStripSkips(s, q[..|q| - 1]);
    }
  }

  /** `strip` is characterised by its result: a text framed by whitespace on
      both sides strips to the frame's contents. */
  lemma StripUnique(p: string, m: string, q: string)
    requires AllSpace(p) && AllSpace(q) && m != [] && IsStripped(m)
    ensures Strip(p + m + q) == m
  {
    assert p + m + q == p + (m + q);
    LStripSkips(p, m + q);
    RStripSkips(m, q);
  }

  /** A stripped text strips to itself. */
  lemma StrippedIsFixed(s: string)
    requires IsStripped(s)
    ensures Strip(s) == s
  {
    if s != [] {
      assert [] + s + [] == s;
      StripUnique([], s, []);
    }
  }

  /** Lower-casing leaves a text without capital letters as it is. */
  lemma LowerOfLower(s: string)
    requires forall i :: 0 <= i < |s| ==> !('A' <= s[i] <= 'Z')
    ensures Lower(s) == s
  {
  }

  /** Conversely every text is its stripped form framed by whitespace. */
  lemma StripParts(s: string) returns (p: string, q: string)
    ensures s == p + Strip(s) + q && AllSpace(p) && AllSpace(q)
  {
    var l := LStrip(s);
    p := LStripPart(s);
    q := RStripPart(l);
  }

  lemma LStripPart(s: string) returns (p: string)
    ensures s == p + LStrip(s) && AllSpace(p)
  {
    var n := |s| - |LStrip(s)|;
    p := s[..n];
    assert s == p + s[n..];
    assert forall k :: 0 <= k < |p| ==> p[k] == s[k];
  }

  lemma RStripPart(s: string) returns (q: string)
    ensures s == RStrip(s) + q && AllSpace(q)
  {
    var r := RStrip(s);
    q := s[|r|..];
    assert forall k :: 0 <= k < |q| ==> q[k] == s[|r| + k];
  }

  // ---------------------------------------------------------------------
  // split() on whitespace
  // ---------------------------------------------------------------------

  /** Length of the leading run of non-whitespace characters. */
  function WordLength(s: string): (n: nat)
    ensures n <= |s|
    ensures forall k :: 0 <= k < n ==> !IsSpace(s[k])
    ensures n == |s| || IsSpace(s[n])
  {
    if s == [] || IsSpace(s[0]) then 0
    else 1 + WordLength(s[1..])
  }

  /** `s.split()`: the maximal runs of non-whitespace, in order. */
  function Words(s: string): (ws: seq<string>)
    ensures forall i :: 0 <= i < |ws| ==> ws[i] != [] && NoSpace(ws[i])
    decreases |s|
  {
    if s == [] then []
    else if IsSpace(s[0]) then Words(s[1..])
    else
      var n := WordLength(s);
      [s[..n]] + Words(s[n..])
  }

  /** `s[i..j]` is a whitespace-delimited token of `s`: non-empty, free of
      whitespace, and bounded by whitespace or the ends of `s`. */
  predicate IsTokenAt(s: string, i: int, j: int)
  {
    && 0 <= i < j <= |s|
    && (forall k :: i <= k < j ==> !IsSpace(s[k]))
    && (i == 0 || IsSpace(s[i - 1]))
    && (j == |s| || IsSpace(s[j]))
  }

  /** Dropping a prefix that ends before a token keeps it a token. */
  lemma TokenShift(s: string, d: int, i: int, j: int)
    requires IsTokenAt(s, i, j)
    requires 0 <= d <= i
    ensures IsTokenAt(s[d..], i - d, j - d)
    ensures s[d..][i - d..j - d] == s[i..j]
  {
    var t := s[d..];
    forall k | i - d <= k < j - d
      ensures !IsSpace(t[k])
    {
      assert t[k] == s[k + d];
    }
    assert i - d == 0 || t[i - d - 1] == s[i - 1];
    assert j - d == |t| || t[j - d] == s[j];
  }

  /** Every whitespace-delimited token of `s` is one of `s.split()`'s words. */
  lemma {:induction false} TokenIsWord(s: string, i: int, j: int)
    requires IsTokenAt(s, i, j)
    ensures s[i..j] in Words(s)
    decreases |s|
  {
    if !IsSpace(s[0]) && i == 0 {
      FirstTokenIsFirstWord(s, j);
      assert Words(s)[0] == s[i..j];
    } else {
      var d := if IsSpace(s[0]) then 1 else WordLength(s);
      if !IsSpace(s[0]) {
        LaterToken(s, i, j);
      }
      TokenShift(s, d, i, j);
      TokenIsWord(s[d..], i - d, j - d);
      WordsAfter(s, d, s[i..j]);
    }
  }

  /** The words after the first character, when it is whitespace, or after
      the first word, are words of `s`. */
  lemma WordsAfter(s: string, d: nat, w: string)
    requires s != [] && d == (if IsSpace(s[0]) then 1 else WordLength(s))
    requires w in Words(s[d..])
    ensures w in Words(s)
  {
    if !IsSpace(s[0]) {
      assert Words(s) == [s[..d]] + Words(s[d..]);
    }
  }

  /** A token at the start of `s` is its first word. */
  lemma FirstTokenIsFirstWord(s: string, j: int)
    requires IsTokenAt(s, 0, j)
    ensures Words(s) == [s[..j]] + Words(s[j..])
  {
    var n := WordLength(s);
    assert n >= j;
    assert n <= j;
  }

  /** A token that does not start `s` starts after the first word and the
      whitespace behind it. */
  lemma LaterToken(s: string, i: int, j: int)
    requires IsTokenAt(s, i, j) && i > 0 && !IsSpace(s[0])
    ensures WordLength(s) < i
  {
    assert IsSpace(s[i - 1]);
  }

  // ---------------------------------------------------------------------
  // Searching and splitting on separators
  // ---------------------------------------------------------------------

  /** Index of the first occurrence of `c` in `s` (`s.find(c)`, `None` for -1). */
  function IndexOf(s: string, c: char): (r: Option<nat>)
    ensures r.None? <==> c !in s
    ensures r.Some? ==> r.value < |s| && s[r.value] == c
    ensures r.Some? ==> forall j :: 0 <= j < r.value ==> s[j] != c
  {
    if s == [] then None
    else if s[0] == c then Some(0)
    else
      match IndexOf(s[1..], c)
      case None => None
      case Some(k) => Some(k + 1)
  }

  /** Index of the last occurrence of `c` in `s` (`s.rfind(c)`). */
  function LastIndexOf(s: string, c: char): (r: Option<nat>)
    ensures r.None? <==> c !in s
    ensures r.Some? ==> r.value < |s| && s[r.value] == c
    ensures r.Some? ==> forall j :: r.value < j < |s| ==> s[j] != c
  {
    if s == [] then None
    else if s[|s| - 1] == c then Some(|s| - 1)
    else
      assert s == s[..|s| - 1] + [s[|s| - 1]];
      LastIndexOf(s[..|s| - 1], c)
  }

  /** In `a + [c] + b` with no `c` in `b`, the last `c` is the one after `a`. */
  lemma LastIndexBeforeSuffix(a: string, c: char, b: string)
    requires c !in b
    ensures LastIndexOf(a + [c] + b, c) == Some(|a|)
  {
    var s := a + [c] + b;
    assert s[|a|] == c;
    forall j | |a| < j < |s|
      ensures s[j] != c
    {
      assert s[j] == b[j - |a| - 1];
      assert b[j - |a| - 1] in b;
    }
    assert s[|a|] in s;
  }

  /** `s.split(c)[0]`: everything before the first `c`, or all of `s`. */
  function BeforeFirst(s: string, c: char): (r: string)
    ensures c !in r
    ensures StartsWith(s, r)
    ensures r == s || s[|r|] == c
  {
    match IndexOf(s, c)
    case None => s
    case Some(k) => s[..k]
  }

  /** The first occurrence is the only one with no occurrence before it. */
  lemma IndexOfUnique(s: string, c: char, k: nat)
    requires k < |s| && s[k] == c
    requires forall j :: 0 <= j < k ==> s[j] != c
    ensures IndexOf(s, c) == Some(k)
  {
    assert s[k] in s;
  }

  /** In `a + [c] + rest` with no `c` in `a`, the first `c` is the one after `a`. */
  lemma IndexAfterPrefix(a: string, c: char, rest: string)
    requires c !in a
    ensures IndexOf(a + [c] + rest, c) == Some(|a|)
  {
    var s := a + [c] + rest;
    assert forall j :: 0 <= j < |a| ==> s[j] == a[j];
    IndexOfUnique(s, c, |a|);
  }

  /** The piece before the first separator is the text up to it. */
  lemma BeforeFirstOfJoined(a: string, c: char, rest: string)
    requires c !in a
    ensures BeforeFirst(a + [c] + rest, c) == a
  {
    IndexAfterPrefix(a, c, rest);
    assert (a + [c] + rest)[..|a|] == a;
  }

  /** A prefix free of `c` passes through `BeforeFirst` unchanged. */
  lemma BeforeFirstAppend(a: string, b: string, c: char)
    requires c !in a
    ensures BeforeFirst(a + b, c) == a + BeforeFirst(b, c)
  {
    var s := a + b;
    forall j | 0 <= j < |a|
      ensures s[j] == a[j] && s[j] != c
    {
    }
    match IndexOf(b, c)
    case None =>
      forall j | |a| <= j < |s|
        ensures s[j] != c
      {
        assert s[j] == b[j - |a|];
      }
      assert c !in s;
    case Some(k) =>
      forall j | |a| <= j < |a| + k
        ensures s[j] != c
      {
        assert s[j] == b[j - |a|];
      }
      assert s[|a| + k] == b[k];
      IndexOfUnique(s, c, |a| + k);
      assert s[..|a| + k] == a + b[..k];
  }

  /** `s.split(c)` for a single-character separator. */
  function SplitChar(s: string, c: char): (parts: seq<string>)
    ensures |parts| >= 1
    ensures forall i :: 0 <= i < |parts| ==> c !in parts[i]
    decreases |s|
  {
    match IndexOf(s, c)
    case None => [s]
    case Some(k) => [s[..k]] + SplitChar(s[k + 1..], c)
  }

  /** `sep.join(parts)` for a single-character separator. */
  function Join(parts: seq<string>, sep: char): string
  {
    if |parts| == 0 then ""
    else if |parts| == 1 then parts[0]
    else parts[0] + [sep] + Join(parts[1..], sep)
  }

  /** Joining a concatenation puts one separator between the two joins. */
  lemma {:induction false} JoinAppend(a: seq<string>, b: seq<string>, sep: char)
    requires |a| > 0 && |b| > 0
    ensures Join(a + b, sep) == Join(a, sep) + [sep] + Join(b, sep)
    decreases |a|
  {
    if |a| == 1 {
      assert (a + b)[0] == a[0];
      assert (a + b)[1..] == b;
    } else {
      assert (a + b)[0] == a[0];
      assert (a + b)[1..] == a[1..] + b;
      JoinAppend(a[1..], b, sep);
    }
  }

  /** A join ends with the join of its last parts, behind a separator. */
  lemma JoinEndsWith(parts: seq<string>, tail: seq<string>, sep: char)
    requires |parts| > |tail| > 0 && parts[|parts| - |tail|..] == tail
    ensures EndsWith(Join(parts, sep), [sep] + Join(tail, sep))
  {
    var head := parts[..|parts| - |tail|];
    assert parts == head + tail;
    JoinOfAppendEndsWith(head, tail, sep);
  }

  lemma JoinOfAppendEndsWith(head: seq<string>, tail: seq<string>, sep: char)
    requires |head| > 0 && |tail| > 0
    ensures EndsWith(Join(head + tail, sep), [sep] + Join(tail, sep))
  {
    JoinAppend(head, tail, sep);
    var a, b := Join(head, sep), Join(tail, sep);
    assert a + [sep] + b == a + ([sep] + b);
    EndsWithConcat(a, [sep] + b);
  }

  lemma EndsWithConcat(a: string, b: string)
    ensures EndsWith(a + b, b)
  {
    assert (a + b)[|a|..] == b;
  }

  /** Splitting a joined text on its separator recovers the parts, provided
      no part contains the separator. */
  lemma {:induction false} SplitJoin(parts: seq<string>, sep: char)
    requires |parts| > 0
    requires forall i :: 0 <= i < |parts| ==> sep !in parts[i]
    ensures SplitChar(Join(parts, sep), sep) == parts
  {
    if |parts| > 1 {
      var p := parts[0];
      var rest := Join(parts[1..], sep);
      var s := p + [sep] + rest;
      assert s[|p|] == sep;
      var k := IndexOf(s, sep).value;
      assert k == |p|;
      assert s[..k] == p;
      assert s[k + 1..] == rest;
      SplitJoin(parts[1..], sep);
    }
  }

  /** Joining the pieces of a split restores the text. */
  lemma {:induction false} JoinSplit(s: string, sep: char)
    ensures Join(SplitChar(s, sep), sep) == s
    decreases |s|
  {
    match IndexOf(s, sep)
    case None =>
    case Some(k) =>
      var rest := SplitChar(s[k + 1..], sep);
      JoinSplit(s[k + 1..], sep);
      JoinCons(s[..k], rest, sep);
      assert s == s[..k] + [sep] + s[k + 1..];
  }

  lemma JoinCons(first: string, rest: seq<string>, sep: char)
    requires |rest| > 0
    ensures Join([first] + rest, sep) == first + [sep] + Join(rest, sep)
  {
    assert ([first] + rest)[1..] == rest;
  }

  /** `pat` occurs in `s` at index `k`. */
  predicate OccursAt(s: string, pat: string, k: nat)
  {
    k + |pat| <= |s| && s[k..k + |pat|] == pat
  }

  /** `s.find(pat, start)` with `None` for -1. */
  function FindStr(s: string, pat: string, start: nat): (r: Option<nat>)
    ensures r.Some? ==> start <= r.value && OccursAt(s, pat, r.value)
    ensures r.Some? ==> forall j :: start <= j < r.value ==> !OccursAt(s, pat, j)
    ensures r.None? ==> forall j :: start <= j ==> !OccursAt(s, pat, j)
    decreases |s| - start
  {
    if start + |pat| > |s| then None
    else if s[start..start + |pat|] == pat then Some(start)
    else FindStr(s, pat, start + 1)
  }

  /** The first occurrence of `pat` is the only one with none before it. */
  lemma FindStrUnique(s: string, pat: string, k: nat)
    requires OccursAt(s, pat, k)
    requires forall j :: 0 <= j < k ==> !OccursAt(s, pat, j)
    ensures FindStr(s, pat, 0) == Some(k)
  {
  }

  /** `s.split(sep)` for a non-empty string separator. */
  function SplitOnStr(s: string, sep: string): (parts: seq<string>)
    requires |sep| > 0
    ensures |parts| >= 1
    ensures FindStr(s, sep, 0).None? ==> parts == [s]
    decreases |s|
  {
    match FindStr(s, sep, 0)
    case None => [s]
    case Some(k) => [s[..k]] + SplitOnStr(s[k + |sep|..], sep)
  }

  /** `s.split(sep, 1)[-1]`: what follows the first `sep`, or all of `s`. */
  function AfterFirstStr(s: string, sep: string): (r: string)
    requires |sep| > 0
    ensures |r| <= |s| && r == s[|s| - |r|..]
    ensures FindStr(s, sep, 0).None? ==> r == s
    ensures FindStr(s, sep, 0).Some? ==> |r| == |s| - FindStr(s, sep, 0).value - |sep|
  {
    match FindStr(s, sep, 0)
    case None => s
    case Some(k) => s[k + |sep|..]
  }

  // ---------------------------------------------------------------------
  // Decimal numbers
  // ---------------------------------------------------------------------

  function DigitChar(d: nat): (c: char)
    requires d < 10
    ensures IsDigit(c)
    ensures c as int - '0' as int == d
  {
    ('0' as int + d) as char
  }

  /** `str(n)` for a non-negative integer. */
  function NatToString(n: nat): (s: string)
    ensures |s| >= 1 && AllDigits(s)
    ensures s[0] == '0' ==> s == "0"
    decreases n
  {
    if n < 10 then [DigitChar(n)]
    else
      var p := NatToString(n / 10);
      assert p[0] != '0';
      p + [DigitChar(n % 10)]
  }

  /** Python's `int(s, 10)` on a string of ASCII digits (0 for ""). */
  function DigitsValue(s: string): nat
    requires AllDigits(s)
  {
    if s == [] then 0
    else DigitsValue(s[..|s| - 1]) * 10 + (s[|s| - 1] as int - '0' as int)
  }

  /** Parsing the decimal text of `n` gives back `n`. */
  lemma {:induction false} NatToStringRoundTrip(n: nat)
    ensures DigitsValue(NatToString(n)) == n
    decreases n
  {
    if n >= 10 {
      var s := NatToString(n);
      assert s[..|s| - 1] == NatToString(n / 10);
      NatToStringRoundTrip(n / 10);
    }
  }

  /** Digit text without a leading zero has a positive value. */
  lemma {:induction false} LeadingDigitPositive(s: string)
    requires |s| >= 1 && AllDigits(s) && s[0] != '0'
    ensures DigitsValue(s) >= 1
    decreases |s|
  {
    if |s| > 1 {
      LeadingDigitPositive(s[..|s| - 1]);
    }
  }

  /** Digit text in canonical form (no leading zero unless it is "0") is the
      decimal text of its own value. */
  lemma {:induction false} CanonicalDigitsRoundTrip(s: string)
    requires |s| >= 1 && AllDigits(s) && (s[0] == '0' ==> s == "0")
    ensures NatToString(DigitsValue(s)) == s
    decreases |s|
  {
    var v := DigitsValue(s);
    var d := s[|s| - 1] as int - '0' as int;
    if |s| == 1 {
      assert s[..|s| - 1] == [];
      assert DigitChar(d) == s[0];
    } else {
      var p := s[..|s| - 1];
      LeadingDigitPositive(p);
      CanonicalDigitsRoundTrip(p);
      assert v / 10 == DigitsValue(p) && v % 10 == d;
      assert DigitChar(d) == s[|s| - 1];
      assert s == p + [s[|s| - 1]];
    }
  }

  /** Short numbers have short decimal texts. */
  lemma {:induction false} NatToStringLength(n: nat)
    ensures n < 10 ==> |NatToString(n)| == 1
    ensures n < 100 ==> |NatToString(n)| <= 2
    ensures n < 1000 ==> |NatToString(n)| <= 3
    ensures n >= 1000 ==> |NatToString(n)| > 3
    decreases n
  {
    if n >= 10 {
      NatToStringLength(n / 10);
    }
  }

  function Zeros(k: nat): (z: string)
    ensures |z| == k && AllDigits(z)
    ensures forall i :: 0 <= i < k ==> z[i] == '0'
  {
    seq(k, i => '0')
  }

  /** Leading zeros do not change a decimal value. */
  lemma {:induction false} LeadingZerosValue(k: nat, s: string)
    requires AllDigits(s)
    ensures AllDigits(Zeros(k) + s)
    ensures DigitsValue(Zeros(k) + s) == DigitsValue(s)
    decreases |s|, k
  {
    var t := Zeros(k) + s;
    assert AllDigits(t) by {
      forall i | 0 <= i < |t| ensures IsDigit(t[i]) {
        if i >= k { assert t[i] == s[i - k]; }
      }
    }
    if s == [] {
      assert t == Zeros(k);
      if k > 0 {
        assert t[..|t| - 1] == Zeros(k - 1) + [];
        LeadingZerosValue(k - 1, []);
      }
    } else {
      assert t[..|t| - 1] == Zeros(k) + s[..|s| - 1];
      LeadingZerosValue(k, s[..|s| - 1]);
    }
  }

  /** `f"{n:0{width}d}"` for `n >= 0`: the decimal text of `n` left-padded with
      zeros to at least `width` characters. */
  function ZeroPadded(n: nat, width: nat): (r: string)
    ensures AllDigits(r)
    ensures DigitsValue(r) == n
    ensures |r| >= width && |r| >= 1
    ensures |r| > width ==> r == NatToString(n)
  {
    var s := NatToString(n);
    var k := if |s| < width then width - |s| else 0;
    NatToStringRoundTrip(n);
    LeadingZerosValue(k, s);
    assert Zeros(0) + s == s;
    Zeros(k) + s
  }

  /** `f"{n:0{width}d}"` for any integer: a negative number is a `-` followed by
      its magnitude zero-padded to the remaining width. */
  function ZeroPaddedInt(n: int, width: nat): (r: string)
    ensures |r| >= 1
    ensures n >= 0 ==> r == ZeroPadded(n, width)
    ensures n < 0 ==> r[0] == '-' && AllDigits(r[1..]) && DigitsValue(r[1..]) == -n
  {
    if n >= 0 then ZeroPadded(n, width)
    else
      var r := "-" + ZeroPadded(-n, if width >= 1 then width - 1 else 0);
      assert r[1..] == ZeroPadded(-n, if width >= 1 then width - 1 else 0);
      r
  }

  /** Distinct integers have distinct zero-padded texts. */
  lemma ZeroPaddedIntInjective(m: int, n: int, width: nat)
    requires ZeroPaddedInt(m, width) == ZeroPaddedInt(n, width)
    ensures m == n
  {
    var r := ZeroPaddedInt(m, width);
    if m >= 0 {
      assert IsDigit(r[0]);
      assert n >= 0;
      assert DigitsValue(ZeroPadded(m, width)) == m;
      assert DigitsValue(ZeroPadded(n, width)) == n;
    } else {
      assert r[0] == '-';
      assert n < 0;
      assert DigitsValue(r[1..]) == -m;
      assert DigitsValue(ZeroPaddedInt(n, width)[1..]) == -n;
    }
  }
}

=== FILE: whatsapp_bot.dfy ===
/** The WhatsApp bot: the texts it sends through Twilio (unknown-element
    notifications, numbered menus, save confirmations, plain texts), the
    gating of every send on the presence of credentials, and the parser for
    the user's free-text replies.

    Twilio is an oracle: each send is told whether `messages.create` raises
    `TwilioRestException`. The file-system check for the snapshot is an
    oracle too. Values the source formats with `str()` (colour components,
    names) are given here already as text. */
module WhatsAppBot {
  import opened Wrappers
  import opened Text

  // ---------------------------------------------------------------------
  // The bot and its sends
  // ---------------------------------------------------------------------

  /** A configuration value counts when it is present and non-empty, as in
      Python's truth test. */
  predicate Given(v: Option<string>)
  {
    v.Some? && v.value != ""
  }

  datatype Bot = Bot(accountSid: Option<string>, authToken: Option<string>, fromNumber: string, toNumber: string)
  {
    /** A Twilio client is created, and the bot enabled, only when both
        credentials are given. */
    predicate Enabled()
    {
      Given(accountSid) && Given(authToken)
    }
  }

  /** One message handed to Twilio. */
  datatype Message = Message(sender: string, recipient: string, body: string)

  /** What a send method did: the message it handed to Twilio, if any, and
      the boolean it returned. */
  datatype Sent = Sent(message: Option<Message>, ok: bool)

  /** The tail every send method shares: nothing leaves a disabled bot;
      an enabled bot submits exactly one message from its own number to the
      configured recipient and reports whether Twilio took it.
      `twilioRaises` says whether `messages.create` raises
      `TwilioRestException`, the one error the senders catch. */
  function Deliver(bot: Bot, body: string, twilioRaises: bool): (r: Sent)
    ensures !bot.Enabled() ==> r.message.None? && !r.ok
    ensures bot.Enabled() ==> r.message == Some(Message(bot.fromNumber, bot.toNumber, body))
    ensures r.ok <==> bot.Enabled() && !twilioRaises
  {
    if !bot.Enabled() then Sent(None, false)
    else Sent(Some(Message(bot.fromNumber, bot.toNumber, body)), !twilioRaises)
  }

  /** `send_text`: an enabled bot hands the text unchanged to Twilio and
      reports success unless Twilio raises. */
  function SendText(bot: Bot, text: string, twilioRaises: bool): (r: Sent)
    ensures r.ok ==> r.message.Some? && r.message.value.body == text
    ensures bot.Enabled() ==>
              r.message == Some(Message(bot.fromNumber, bot.toNumber, text)) && (r.ok <==> !twilioRaises)
  {
    Deliver(bot, text, twilioRaises)
  }

  // ---------------------------------------------------------------------
  // Menus
  // ---------------------------------------------------------------------

  /** What separates an option's number from its text. */
  const OptionSep: string := " - "

  /** The line offering option number `n`: `*n* - option`. */
  function OptionLine(n: nat, option: string): string
  {
    ['*'] + NatToString(n) + ['*'] + OptionSep + option
  }

  /** The lines of a menu: the title in bold, a blank line, then the options
      numbered from 1 in the order given. */
  function MenuLines(title: string, options: seq<string>): (ls: seq<string>)
    ensures |ls| == |options| + 2
  {
    ["*" + title + "*", ""] + seq(|options|, i requires 0 <= i < |options| => OptionLine(i + 1, options[i]))
  }

  /** `send_menu`'s message body. */
  function MenuBody(title: string, options: seq<string>): string
  {
    Join(MenuLines(title, options), '\n')
  }

  /** `send_menu`: an enabled bot hands the menu body to Twilio and reports
      success unless Twilio raises. */
  function SendMenu(bot: Bot, title: string, options: seq<string>, twilioRaises: bool): (r: Sent)
    ensures r.ok ==> r.message.Some? && r.message.value.body == MenuBody(title, options)
    ensures bot.Enabled() ==>
              r.message == Some(Message(bot.fromNumber, bot.toNumber, MenuBody(title, options)))
              && (r.ok <==> !twilioRaises)
  {
    Deliver(bot, MenuBody(title, options), twilioRaises)
  }

  /** Reads a menu line back: the option number and the option text, or
      nothing when the line is not of the form `*digits* - text`. */
  function ParseOptionLine(line: string): (r: Option<(nat, string)>)
  {
    if |line| == 0 || line[0] != '*' then None
    else
      match IndexOf(line[1..], '*')
      case None => None
      case Some(k) =>
        var digits := line[1..k + 1];
        if k >= 1 && AllDigits(digits) && StartsWith(line[k + 2..], " - ")
        then Some((DigitsValue(digits), line[k + 5..]))
        else None
  }

  /** Every option line reads back as its number and its text. */
  lemma OptionLineRoundTrip(n: nat, option: string)
    ensures ParseOptionLine(OptionLine(n, option)) == Some((n, option))
  {
    var d := NatToString(n);
    assert forall j :: 0 <= j < |d| ==> IsDigit(d[j]);
    DigitsThenStar(d, OptionSep + option);
    assert OptionLine(n, option) == ['*'] + (d + ['*'] + (OptionSep + option));
    ParseFramedNumber(d, option);
    NatToStringRoundTrip(n);
  }

  /** A run of digits stops at the first star behind it. */
  lemma DigitsThenStar(d: string, rest: string)
    requires forall j :: 0 <= j < |d| ==> IsDigit(d[j])
    ensures IndexOf(d + ['*'] + rest, '*') == Some(|d|)
  {
    var s := d + ['*'] + rest;
    assert s[|d|] == '*';
    assert forall j :: 0 <= j < |d| ==> s[j] == d[j];
  }

  lemma ParseFramedNumber(d: string, option: string)
    requires |d| >= 1 && AllDigits(d)
    requires IndexOf(d + ['*'] + (OptionSep + option), '*') == Some(|d|)
    ensures ParseOptionLine(['*'] + (d + ['*'] + (OptionSep + option))) == Some((DigitsValue(d), option))
  {
    SeparatorThenText(option);
    ParseFramed(d, OptionSep + option);
  }

  /** A line `*d*` followed by `rest`, where `d` holds no star. */
  lemma ParseFramed(d: string, rest: string)
    requires |d| >= 1 && AllDigits(d)
    requires IndexOf(d + ['*'] + rest, '*') == Some(|d|)
    ensures ParseOptionLine(['*'] + (d + ['*'] + rest))
            == if StartsWith(rest, " - ") then Some((DigitsValue(d), rest[3..])) else None
  {
    var line := ['*'] + (d + ['*'] + rest);
    assert line[1..] == d + ['*'] + rest;
    assert line[1..|d| + 1] == d;
    assert line[|d| + 2..] == rest;
  }

  lemma SeparatorThenText(option: string)
    ensures StartsWith(OptionSep + option, " - ") && (OptionSep + option)[3..] == option
  {
    assert (OptionSep + option)[..3] == OptionSep;
  }

  /** A menu line carries no line break when its text carries none. */
  lemma OptionLineSingle(n: nat, option: string)
    requires '\n' !in option
    ensures '\n' !in OptionLine(n, option)
  {
    var d := NatToString(n);
    assert forall j :: 0 <= j < |d| ==> IsDigit(d[j]);
    assert OptionLine(n, option) == ['*'] + d + ['*'] + OptionSep + option;
    assert '\n' !in OptionSep;
  }

  /** Splitting a menu body into lines gives the bold title, a blank line,
      and for each option, in order, a line that reads back as its 1-based
      number and its text. */
  lemma MenuRoundTrip(title: string, options: seq<string>)
    requires '\n' !in title
    requires forall i :: 0 <= i < |options| ==> '\n' !in options[i]
    ensures var ls := SplitChar(MenuBody(title, options), '\n');
            && |ls| == |options| + 2
            && ls[0] == "*" + title + "*" && ls[1] == ""
            && forall i :: 0 <= i < |options| ==> ParseOptionLine(ls[i + 2]) == Some((i + 1, options[i]))
  {
    var ls := MenuLines(title, options);
    assert ls[0] == "*" + title + "*";
    forall i | 0 <= i < |ls|
      ensures '\n' !in ls[i]
    {
      if i >= 2 {
        assert ls[i] == OptionLine(i - 1, options[i - 2]);
        OptionLineSingle(i - 1, options[i - 2]);
      }
    }
    SplitJoin(ls, '\n');
    forall i | 0 <= i < |options|
      ensures ParseOptionLine(ls[i + 2]) == Some((i + 1, options[i]))
    {
      assert ls[i + 2] == OptionLine(i + 1, options[i]);
      OptionLineRoundTrip(i + 1, options[i]);
    }
  }

  // ---------------------------------------------------------------------
  // Unknown-element notifications
  // ---------------------------------------------------------------------

  /** Optional details about the detection. `plate` is absent when the key
      is missing or its value is `None`; `features` maps feature names to
      their printed values. */
  datatype Metadata = Metadata(plate: Option<string>, features: Option<map<string, string>>)

  /** The emoji heading a notification; unknown categories get a question mark. */
  function Emoji(category: string): char
  {
    if category == "faces" then '\U{1F464}'
    else if category == "vehicles" then '\U{1F697}'
    else if category == "pets" then '\U{1F43E}'
    else '\U{2753}'
  }

  /** The category's display name; unknown categories are an "Elemento". */
  function CategoryName(category: string): string
  {
    if category == "faces" then "Rostro"
    else if category == "vehicles" then "Veh\U{ED}culo"
    else if category == "pets" then "Mascota"
    else "Elemento"
  }

  function HeaderLine(category: string): (l: string)
    ensures |l| > 0 && l[0] == Emoji(category)
  {
    [Emoji(category)] + " *" + CategoryName(category) + " Desconocido Detectado*"
  }

  function CameraLine(cameraIp: string): (l: string)
    ensures |l| > 0 && l[0] == '\U{1F4F7}'
  {
    "\U{1F4F7} C\U{E1}mara: " + cameraIp
  }

  /** The line a plate is reported on: the only one opening with a jeep. */
  predicate IsPlateLine(line: string)
  {
    |line| > 0 && line[0] == '\U{1F699}'
  }

  function PlateLine(plate: string): (l: string)
    ensures IsPlateLine(l)
  {
    "\U{1F699} Placa detectada: " + plate
  }

  function ColourLine(hue: string, saturation: string, value: string): (l: string)
    ensures |l| > 0 && l[0] == '\U{1F3A8}'
  {
    "\U{1F3A8} Color HSV: " + hue + ", " + saturation + ", " + value
  }

  function FileLine(fileName: string): (l: string)
    ensures |l| > 0 && l[0] == '\n'
  {
    "\n_Archivo: " + fileName + "_"
  }

  /** The question and the two answers every notification ends with. */
  const ReplyLines: seq<string> := [
    "\n\U{2753} *\U{BF}Es conocido o desconocido?*",
    "Responde:",
    "*1* - Conocido (agregar)",
    "*2* - Desconocido (activar alarma)"
  ]

  /** Appended to the body when a snapshot exists but cannot be attached. */
  const LocalImageNote: string := "\n\n\U{26A0}\U{FE0F} Imagen guardada localmente (requiere URL p\U{FA}blica para env\U{ED}o)"

  /** The plate is reported only for a vehicle whose metadata carries a
      non-empty plate. */
  predicate ShowsPlate(category: string, metadata: Option<Metadata>)
  {
    category == "vehicles" && metadata.Some? && Given(metadata.value.plate)
  }

  /** The features name a dominant hue but lack one of the other two
      components, so building the colour line raises `KeyError`. */
  predicate ColourIncomplete(metadata: Option<Metadata>)
  {
    metadata.Some? && metadata.value.features.Some? &&
    var f := metadata.value.features.value;
    "dominant_hue" in f && ("dominant_saturation" !in f || "dominant_value" !in f)
  }

  /** The optional middle lines: plate, then colour, then the snapshot's file name. */
  function DetailLines(category: string, metadata: Option<Metadata>, fileName: Option<string>): (ls: Option<seq<string>>)
    ensures ls.None? <==> ColourIncomplete(metadata)
    ensures ls.Some? && ShowsPlate(category, metadata) ==> |ls.value| > 0 && ls.value[0] == PlateLine(metadata.value.plate.value)
    ensures ls.Some? ==> (forall k :: 0 <= k < |ls.value| ==> (IsPlateLine(ls.value[k]) <==> ShowsPlate(category, metadata) && k == 0))
  {
    var plate := if ShowsPlate(category, metadata) then [PlateLine(metadata.value.plate.value)] else [];
    var file := if fileName.Some? then [FileLine(fileName.value)] else [];
    if metadata.Some? && metadata.value.features.Some? && "dominant_hue" in metadata.value.features.value then
      var f := metadata.value.features.value;
      if "dominant_saturation" !in f || "dominant_value" !in f then None
      else Some(plate + [ColourLine(f["dominant_hue"], f["dominant_saturation"], f["dominant_value"])] + file)
    else Some(plate + file)
  }

  /** The lines of `send_notification`'s body, or `None` when assembling
      them raises. `fileName` is the snapshot's base name when it exists on disk. */
  function NotificationLines(category: string, cameraIp: string, metadata: Option<Metadata>,
                             fileName: Option<string>): (ls: Option<seq<string>>)
    ensures ls.None? <==> ColourIncomplete(metadata)
    ensures ls.Some? ==>
              && |ls.value| >= 6
              && ls.value[0] == HeaderLine(category)
              && ls.value[1] == CameraLine(cameraIp)
              && ls.value[|ls.value| - 4..] == ReplyLines
    ensures ls.Some? ==> ((exists k :: 0 <= k < |ls.value| && IsPlateLine(ls.value[k])) <==> ShowsPlate(category, metadata))
    ensures ls.Some? && ShowsPlate(category, metadata) ==> ls.value[2] == PlateLine(metadata.value.plate.value)
  {
    match DetailLines(category, metadata, fileName)
    case None => None
    case Some(details) =>
      var ls := [HeaderLine(category), CameraLine(cameraIp)] + details + ReplyLines;
      PlateLineOnlyInDetails(HeaderLine(category), CameraLine(cameraIp), details, ShowsPlate(category, metadata));
      Some(ls)
  }

  /** None of the fixed lines opens like a plate line. */
  lemma FixedLinesArePlain()
    ensures forall k :: 0 <= k < |ReplyLines| ==> !IsPlateLine(ReplyLines[k])
    ensures forall c :: !IsPlateLine([Emoji(c)])
  {
  }

  lemma PlateLineOnlyInDetails(header: string, camera: string, details: seq<string>, shown: bool)
    requires |header| > 0 && header[0] != '\U{1F699}' && |camera| > 0 && camera[0] != '\U{1F699}'
    requires forall k :: 0 <= k < |details| ==> (IsPlateLine(details[k]) <==> shown && k == 0)
    requires shown ==> |details| > 0
    ensures var ls := [header, camera] + details + ReplyLines;
            && |ls| >= 6 && ls[0] == header && ls[1] == camera && ls[|ls| - 4..] == ReplyLines
            && ((exists k :: 0 <= k < |ls| && IsPlateLine(ls[k])) <==> shown)
            && (shown ==> ls[2] == details[0])
  {
    var ls := [header, camera] + details + ReplyLines;
    FixedLinesArePlain();
    assert ls[|ls| - 4..] == ReplyLines;
    assert forall k :: 0 <= k < |details| ==> ls[k + 2] == details[k];
    assert forall k :: 0 <= k < 4 ==> ls[|ls| - 4 + k] == ReplyLines[k];
    if shown {
      assert IsPlateLine(ls[2]);
    } else {
      forall k | 0 <= k < |ls|
        ensures !IsPlateLine(ls[k])
      {
        if 2 <= k < |ls| - 4 {
          assert ls[k] == details[k - 2];
        } else if k >= |ls| - 4 {
          assert ls[k] == ReplyLines[k - (|ls| - 4)];
        }
      }
    }
  }

  /** `os.path.basename`: the text after the last '/'. */
  function BaseName(path: string): (r: string)
    ensures '/' !in r
    ensures r == path || EndsWith(path, "/" + r)
  {
    match LastIndexOf(path, '/')
    case None => path
    case Some(k) =>
      assert path[k..] == "/" + path[k + 1..];
      path[k + 1..]
  }

  /** The file name a notification mentions: the snapshot's base name when
      a path is given and the file exists. */
  function ShownFile(imagePath: Option<string>, imageExists: bool): (f: Option<string>)
    ensures f.Some? <==> Given(imagePath) && imageExists
    ensures f.Some? ==> '/' !in f.value
  {
    if Given(imagePath) && imageExists then Some(BaseName(imagePath.value)) else None
  }

  /** `send_notification`. `imageExists` says whether the given snapshot
      path exists on disk. `None` means the call raised `KeyError` before
      reaching Twilio. An enabled bot sends the notification lines joined by
      line breaks, followed by the note about the locally kept image exactly
      when the image exists, and returns true exactly when Twilio does not
      raise. */
  function SendNotification(bot: Bot, category: string, imagePath: Option<string>, cameraIp: string,
                            metadata: Option<Metadata>, imageExists: bool, twilioRaises: bool): (r: Option<Sent>)
    ensures !bot.Enabled() ==> r == Some(Sent(None, false))
    ensures r.None? <==> bot.Enabled() && ColourIncomplete(metadata)
    ensures r.Some? && bot.Enabled() ==>
              var lines := NotificationLines(category, cameraIp, metadata, ShownFile(imagePath, imageExists)).value;
              var note := if Given(imagePath) && imageExists then LocalImageNote else "";
              && r.value.ok == !twilioRaises
              && r.value.message == Some(Message(bot.fromNumber, bot.toNumber, Join(lines, '\n') + note))
  {
    if !bot.Enabled() then Some(Sent(None, false))
    else
      var fileName := ShownFile(imagePath, imageExists);
      match NotificationLines(category, cameraIp, metadata, fileName)
      case None => None
      case Some(ls) =>
        var note := if fileName.Some? then LocalImageNote else "";
        Some(Deliver(bot, Join(ls, '\n') + note, twilioRaises))
  }

  /** Every notification body ends with the question and the two answers,
      whatever the category and metadata. */
  lemma NotificationEndsWithReplies(category: string, cameraIp: string, metadata: Option<Metadata>,
                                    fileName: Option<string>)
    requires !ColourIncomplete(metadata)
    ensures var ls := NotificationLines(category, cameraIp, metadata, fileName).value;
            EndsWith(Join(ls, '\n'), "\n" + Join(ReplyLines, '\n'))
  {
    var ls := NotificationLines(category, cameraIp, metadata, fileName).value;
    JoinEndsWith(ls, ReplyLines, '\n');
  }

  /** An unknown category is announced with a question mark as an "Elemento". */
  lemma UnknownCategoryFallback(category: string)
    requires category != "faces" && category != "vehicles" && category != "pets"
    ensures HeaderLine(category)[0] == '\U{2753}' && CategoryName(category) == "Elemento"
  {
  }

  // ---------------------------------------------------------------------
  // Save confirmations
  // ---------------------------------------------------------------------

  /** The details hold every key `send_confirmation` reads for the entity
      type: a vehicle is described by its plate when it has one and by its
      owner otherwise. */
  predicate HasRequiredKeys(entityType: string, details: map<string, string>)
  {
    if entityType == "person" then "name" in details && "gender" in details
    else if entityType == "vehicle" then
      "vehicle_type" in details && (("plate" in details && details["plate"] != "") || "owner" in details)
    else if entityType == "pet" then "name" in details && "pet_type" in details
    else true
  }

  /** The confirmation text, or `None` when a key it needs is missing and
      the call raises `KeyError`. */
  function ConfirmationBody(entityType: string, details: map<string, string>): (r: Option<string>)
    ensures r.Some? <==> HasRequiredKeys(entityType, details)
  {
    if entityType == "person" then PersonSaved(details)
    else if entityType == "vehicle" then VehicleSaved(details)
    else if entityType == "pet" then PetSaved(details)
    else Some("\U{2705} Elemento guardado satisfactoriamente.")
  }

  function PersonSaved(details: map<string, string>): (r: Option<string>)
    ensures r.Some? <==> "name" in details && "gender" in details
  {
    if "name" in details && "gender" in details then
      Some("\U{2705} La persona *" + details["name"] + "* de g\U{E9}nero *" + details["gender"]
           + "* ha sido guardada satisfactoriamente en la lista de reconocidos.")
    else None
  }

  /** A vehicle is confirmed by its plate when it has one, else by its owner. */
  function VehicleSaved(details: map<string, string>): (r: Option<string>)
    ensures r.Some? <==> "vehicle_type" in details && (("plate" in details && details["plate"] != "") || "owner" in details)
  {
    if "vehicle_type" !in details then None
    else if "plate" in details && details["plate"] != "" then
      Some("\U{2705} Su veh\U{ED}culo (*" + details["vehicle_type"] + "*) de placas *" + details["plate"]
           + "* fue guardado satisfactoriamente en la lista de reconocidos.")
    else if "owner" in details then
      Some("\U{2705} Su veh\U{ED}culo (*" + details["vehicle_type"] + "*) de " + details["owner"]
           + " fue guardado satisfactoriamente en la lista de reconocidos.")
    else None
  }

  function PetSaved(details: map<string, string>): (r: Option<string>)
    ensures r.Some? <==> "name" in details && "pet_type" in details
  {
    if "name" in details && "pet_type" in details then
      Some("\U{2705} Su mascota *" + details["name"] + "* (*" + details["pet_type"]
           + "*) ha sido guardada satisfactoriamente en la lista de reconocidos.")
    else None
  }

  /** `send_confirmation`; `None` means the call raised `KeyError`. */
  function SendConfirmation(bot: Bot, entityType: string, details: map<string, string>, twilioRaises: bool): (r: Option<Sent>)
    ensures !bot.Enabled() ==> r == Some(Sent(None, false))
    ensures r.None? <==> bot.Enabled() && !HasRequiredKeys(entityType, details)
    ensures r.Some? && bot.Enabled() ==>
              && ConfirmationBody(entityType, details).Some?
              && r.value.message == Some(Message(bot.fromNumber, bot.toNumber, ConfirmationBody(entityType, details).value))
              && (r.value.ok <==> !twilioRaises)
  {
    if !bot.Enabled() then Some(Sent(None, false))
    else
      match ConfirmationBody(entityType, details)
      case None => None
      case Some(body) => Some(Deliver(bot, body, twilioRaises))
  }

  /** A bot without both credentials sends nothing and every send method
      reports failure, whatever it is asked to send. */
  lemma DisabledBotIsSilent(bot: Bot, text: string, title: string, options: seq<string>, category: string,
                            imagePath: Option<string>, cameraIp: string, metadata: Option<Metadata>,
                            imageExists: bool, entityType: string, details: map<string, string>, twilioRaises: bool)
    requires !Given(bot.accountSid) || !Given(bot.authToken)
    ensures SendText(bot, text, twilioRaises) == Sent(None, false)
    ensures SendMenu(bot, title, options, twilioRaises) == Sent(None, false)
    ensures SendNotification(bot, category, imagePath, cameraIp, metadata, imageExists, twilioRaises) == Some(Sent(None, false))
    ensures SendConfirmation(bot, entityType, details, twilioRaises) == Some(Sent(None, false))
  {
  }

  // ---------------------------------------------------------------------
  // Reply parsing
  // ---------------------------------------------------------------------

  const AddPrefix: string := "/add "

  /** `parse_command`: the stripped reply, with a leading `/add ` (in any
      letter case) and the whitespace after it removed; a value only when
      it is 1 to 50 characters long. */
  function ParseCommand(body: string): (r: Option<string>)
    ensures AllSpace(body) ==> r.None?
    ensures r.Some? ==> 1 <= |r.value| <= 50 && IsStripped(r.value)
    ensures !StartsWith(Lower(Strip(body)), AddPrefix) ==>
              r == (if |Strip(body)| <= 50 && Strip(body) != [] then Some(Strip(body)) else None)
  {
    if body == [] then None
    else
      var text := Strip(body);
      var text := if StartsWith(Lower(text), AddPrefix) then Strip(text[5..]) else text;
      if 1 <= |text| <= 50 then Some(text) else None
  }

  /** A reply `/add x` (the command in any letter case) yields `x` stripped,
      when that is 1 to 50 characters long. */
  lemma ParseAddCommand(command: string, x: string)
    requires |command| == 5 && Lower(command) == AddPrefix
    requires !AllSpace(x)
    ensures ParseCommand(command + x) == if |Strip(x)| <= 50 then Some(Strip(x)) else None
  {
    var p, q := StripParts(x);
    ParseFramedCommand(command, p, Strip(x), q);
  }

  lemma ParseFramedCommand(command: string, p: string, m: string, q: string)
    requires |command| == 5 && Lower(command) == AddPrefix
    requires AllSpace(p) && AllSpace(q) && m != [] && IsStripped(m)
    ensures ParseCommand(command + (p + m + q)) == if |m| <= 50 then Some(m) else None
  {
    StripCommand(command, p, m, q);
    AfterCommand(command, p + m);
    StripAfterCommand(p, m);
    ParseCommandOfCommand(command + (p + m + q), command + (p + m), p + m, m);
  }

  /** How a reply that strips to a command parses: the text after the
      command, stripped again, when it is 1 to 50 characters long. */
  lemma ParseCommandOfCommand(body: string, stripped: string, rest: string, value: string)
    requires Strip(body) == stripped && StartsWith(Lower(stripped), AddPrefix)
    requires stripped[5..] == rest && Strip(rest) == value
    ensures ParseCommand(body) == if 1 <= |value| <= 50 then Some(value) else None
  {
  }

  /** Stripping `/add x` keeps the command and the text up to the end of `x`'s last word. */
  lemma StripCommand(command: string, p: string, m: string, q: string)
    requires |command| == 5 && Lower(command) == AddPrefix
    requires AllSpace(p) && AllSpace(q) && m != [] && IsStripped(m)
    ensures Strip(command + (p + m + q)) == command + (p + m)
  {
    var middle := command + (p + m);
    CommandOpensWord(command);
    assert middle[0] == command[0] && middle[|middle| - 1] == m[|m| - 1];
    assert command + (p + m + q) == [] + middle + q;
    StripUnique([], middle, q);
  }

  /** Whatever follows the command, the lower-cased text still starts with
      it, and what follows is what comes after its five characters. */
  lemma AfterCommand(command: string, rest: string)
    requires |command| == 5 && Lower(command) == AddPrefix
    ensures StartsWith(Lower(command + rest), AddPrefix)
    ensures (command + rest)[5..] == rest
  {
    LowerPrefix(command, rest);
  }

  lemma CommandOpensWord(command: string)
    requires |command| == 5 && Lower(command) == AddPrefix
    ensures !IsSpace(command[0])
  {
    assert Lower(command)[0] == '/';
  }

  lemma StripAfterCommand(p: string, m: string)
    requires AllSpace(p) && m != [] && IsStripped(m)
    ensures Strip(p + m) == m
  {
    assert p + m == p + m + [];
    StripUnique(p, m, []);
  }

  /** A stripped reply of 1 to 50 characters that is not a command is taken as it is. */
  lemma PlainReply(s: string)
    requires IsStripped(s) && 1 <= |s| <= 50 && !StartsWith(Lower(s), AddPrefix)
    ensures ParseCommand(s) == Some(s)
  {
    StrippedIsFixed(s);
  }

  /** The examples the source documents: `/add Juan` gives `Juan`, and a
      bare plate gives itself. */
  lemma AddJuan()
    ensures ParseCommand(AddPrefix + "Juan") == Some("Juan")
  {
    AddName("Juan");
  }

  /** `/add` and a single word gives the word. */
  lemma AddName(name: string)
    requires NoSpace(name) && 1 <= |name| <= 50
    ensures ParseCommand(AddPrefix + name) == Some(name)
  {
    assert forall i :: 0 <= i < |AddPrefix| ==> !('A' <= AddPrefix[i] <= 'Z');
    LowerOfLower(AddPrefix);
    assert !IsSpace(name[0]);
    ParseAddCommand(AddPrefix, name);
  }

  lemma BarePlate()
    ensures ParseCommand("ABC123") == Some("ABC123")
  {
    assert NoSpace("ABC123");
    assert Lower("ABC123")[0] != '/';
    PlainReply("ABC123");
  }

  /** `/add` followed only by whitespace is not a command: the reply is the
      word `/add` itself. */
  lemma BareAddIsText(x: string)
    requires AllSpace(x)
    ensures ParseCommand("/add" + x) == Some("/add")
  {
    assert "/add" + x == [] + "/add" + x;
    StripUnique([], "/add", x);
  }

  /** A parsed value that does not itself start with the command parses to itself. */
  lemma ParseFixedPoint(body: string)
    requires ParseCommand(body).Some?
    requires !StartsWith(Lower(ParseCommand(body).value), AddPrefix)
    ensures ParseCommand(ParseCommand(body).value) == ParseCommand(body)
  {
    PlainReply(ParseCommand(body).value);
  }
}

=== FILE: wrappers.dfy ===
/** Failure-compatible wrapper shared by every module of the model. */
module Wrappers {

  /** A value that may be missing: Python's `None` versus a present value. */
  datatype Option<+T> = None | Some(value: T) {

    /** The wrapped value, or `default` when there is none (Python's `x or default`). */
    function GetOr(default: T): T
    {
      match this
      case Some(v) => v
      case None => default
    }
  }
}
